=== FILE: README.md ===
# FRA claims admin dashboard — a Dafny model of its logic

The dashboard is a React front end for Forest Rights Act (FRA) claims. Under
its rendering sits a set of small pieces of sequential logic, and this
project models them as immutable datatypes and pure functions:

- the OCR intake page turns recognised text into a six-field claim form,
  using six case-insensitive regular expressions with per-field defaults;
- the claims dashboard filters, counts and updates claims, and runs a review
  modal with a checklist and decision buttons;
- the claim status page looks up, edits and exports a claim, and keeps an
  audit log;
- the admin chatbot has a fixed menu graph and a `**bold**` formatter;
- the map sidebar filters states, cascades districts and switches layers;
- the navigation bar highlights the active link;
- the asset map colours statuses and forest health, draws dispute markers
  without duplicates and highlights one district;
- the sign-up form checks the password.

Each UI handler is a transition function over a page datatype. Callbacks
into the host page appear as emitted events or as an outcome value. Timer
callbacks are separate, atomic transitions. Clock readings and the
availability of the OCR/PDF libraries are parameters.

One module per source file:

- `Base`: JavaScript string and character operations shared by all modules.
  These are the `\s`/`trim` whitespace set, ASCII case folding, `includes`,
  `startsWith`, `trim`, `join`, number rendering, and the camel-case label
  rewrite.
- `FieldExtractor`: the regex search. It has a declarative meaning and a
  direct matcher, and the two are proved equal.
- `ExtractionExamples`: what the six searches make of typical label layouts.
- `DataUpload`, `Dashboard`, `ClaimDetails`, `AdminChatbot`,
  `MessageContent`, `MapSidebar`, `Navbar`, `AssetMap`, `Signup`: the
  components of the same names. `MessageContent` is the chatbot's formatter.

The regex model is as follows. The six patterns share one shape:
`word1 [\s* word2] [:\-]? \s* (CLASS+)`, with the `i` flag. A way of
matching at a start position is a tuple of four things:

- how many characters the inner `\s*` takes;
- whether `[:\-]?` takes a character;
- how many characters the `\s*` before the group takes;
- how long the group is.

`Valid` says when such a tuple matches. `TriedBefore` is the order in which
a backtracking engine tries the tuples: greedy quantifiers first try more,
and `?` first tries taking a character. `match` reports the leftmost start
position that admits any valid tuple, and at that position the first tuple
tried. `Search` is a direct matcher, and it is proved to return exactly
that.

## Model

| member | source | states |
|---|---|---|
| `Base.Lower` | Frontend/src/pages/Dashboard.jsx:467 | `toLowerCase` keeps the length and folds each character on its own (ASCII letters only) |
| `Base.Trim` | Frontend/src/pages/DataUpload.jsx:197 | `trim` returns a slice of the input that neither starts nor ends with whitespace, and only whitespace was cut off either end; the result is empty exactly when the input is all whitespace |
| `Base.Join` | Frontend/src/pages/ClaimDetails.jsx:145 | `join(", ")` of no parts is empty and of one status is that status; the result starts with the first part; its length is the parts' lengths plus one separator between each pair |
| `Base.JoinAppend` | Frontend/src/pages/ClaimDetails.jsx:145 | joining two non-empty lists is joining each with one separator between them; with the one-part case this fixes every character of the joined text |
| `Base.FilterIsSubsequence` | Frontend/src/components/MapSidebar.jsx:188-194 | `Array.prototype.filter` only leaves elements out: what it keeps is a subsequence of the input, in the input's order |
| `Base.NatToStringRoundTrip` | Frontend/src/pages/ClaimDetails.jsx:143 | the decimal text a template string gives a whole number reads back as that number |
| `Base.IntToString` | Frontend/src/pages/ClaimDetails.jsx:143 | the text a template string gives an integer starts with `-` exactly when the number is negative, and reads back as that number |
| `Base.SpaceBeforeCapitals` | Frontend/src/pages/DataUpload.jsx:249 | after `replace(/([A-Z])/g, " $1")` every capital is preceded by a space, and a key not starting with a capital keeps its first character |
| `Base.SpaceBeforeCapitalsAppend` | Frontend/src/pages/DataUpload.jsx:249 | the global replacement works character by character: it distributes over concatenation |
| `Base.NoCapitalsUnchanged` | Frontend/src/pages/DataUpload.jsx:249 | a key without capitals is left unchanged |
| `Base.SpaceBeforeCapitalsRoundTrip` | Frontend/src/pages/DataUpload.jsx:249 | removing the spaces from the rewritten key gives back the key, when the key had no spaces |
| `Base.TwoWordSpacing` | Frontend/src/pages/DataUpload.jsx:249 | a lower-case word followed by a capitalised word gets exactly one space between them |
| `Base.CapitalWordSpacing` | Frontend/src/pages/DataUpload.jsx:249 | a capitalised word gets exactly one space in front of it |
| `Base.UpperFirst` | Frontend/src/pages/DataUpload.jsx:250 | `replace(/^./, toUpperCase)` changes only the first character, and leaves it alone when it is a line terminator, which `.` does not match |
| `FieldExtractor.Capture` | Frontend/src/pages/DataUpload.jsx:197-212 | group 1 of a valid way of matching is non-empty and made of characters of the pattern's class |
| `FieldExtractor.LabelGapCorrect` | Frontend/src/pages/DataUpload.jsx:197 | the `\s*` inside `Claim\s*ID` takes all the whitespace between the words, and this is the only way the label occurs at a position |
| `FieldExtractor.MatchTailCorrect` | Frontend/src/pages/DataUpload.jsx:197-212 | after the label, the direct matcher finds no match exactly when no tuple is valid; otherwise it finds the valid tuple that backtracking tries first |
| `FieldExtractor.MatchAtCorrect` | Frontend/src/pages/DataUpload.jsx:197-212 | at one start position, the direct matcher reports no match exactly when no way of matching is valid; otherwise it reports the way the backtracking search commits to |
| `FieldExtractor.SearchFromCorrect` | Frontend/src/pages/DataUpload.jsx:197-212 | scanning from a position finds the first position that admits a match, and nothing matches before it |
| `FieldExtractor.Search` | Frontend/src/pages/DataUpload.jsx:197-212 | `match` fails exactly when no position admits a match; otherwise it reports the leftmost such position and the way chosen there |
| `FieldExtractor.Captured` | Frontend/src/pages/DataUpload.jsx:197-212 | `?.[1]` is absent exactly when nothing matches; otherwise it is non-empty and made of the class's characters |
| `FieldExtractor.FieldValue` | Frontend/src/pages/DataUpload.jsx:196-213 | `?.[1]?.trim() \|\| fallback` is never empty and is the fallback when nothing matches; otherwise it is the trimmed capture when that is non-blank and the fallback when it is blank, with no whitespace at either end and only class characters, and for `\S+` it is the capture itself |
| `FieldExtractor.TrimKeepsClass` | Frontend/src/pages/DataUpload.jsx:199-210 | `trim` keeps a capture inside its character class, and leaves an `\S+` capture as it is |
| `FieldExtractor.SearchAtStart` | Frontend/src/pages/DataUpload.jsx:197-212 | a match at position 0 is the match `match` reports |
| `FieldExtractor.CapturedAtStart` | Frontend/src/pages/DataUpload.jsx:197-212 | for a match at position 0, the capture is the slice of the text that the chosen tuple delimits |
| `FieldExtractor.FieldValueAtStart` | Frontend/src/pages/DataUpload.jsx:196-213 | for a match at position 0, the field is the trimmed slice, or the fallback when that slice is blank |
| `FieldExtractor.NonSpaceCaptureIsTrimmed` | Frontend/src/pages/DataUpload.jsx:197 | the `trim` after an `\S+` capture never changes it |
| `FieldExtractor.AbsentLabelGivesFallback` | Frontend/src/pages/DataUpload.jsx:196-213 | if the first label word occurs nowhere, in any case, the field is its fallback |
| `FieldExtractor.NoLabelGivesFallback` | Frontend/src/pages/DataUpload.jsx:196-213 | if the whole label (`Claim\s*ID`, say) occurs nowhere, in any case, the field is its fallback, whether or not its first word occurs |
| `FieldExtractor.ValidIgnoresCase` | Frontend/src/pages/DataUpload.jsx:197-212 | under the `i` flag, two texts that agree up to ASCII case admit the same ways of matching |
| `FieldExtractor.ChosenUnique` | Frontend/src/pages/DataUpload.jsx:197-212 | the search commits to at most one way of matching at a position |
| `FieldExtractor.SearchIgnoresCase` | Frontend/src/pages/DataUpload.jsx:197-212 | texts that agree up to ASCII case have their match at the same place, in the same way |
| `DataUpload.SetField` | Frontend/src/pages/DataUpload.jsx:292 | typing into one input sets that field and keeps the other five |
| `DataUpload.PatternOf` | Frontend/src/pages/DataUpload.jsx:196-213 | each field has a well-formed pattern; claim id and claim type capture `\S+` and the other four capture letters and whitespace |
| `DataUpload.DefaultOf` | Frontend/src/pages/DataUpload.jsx:198-213 | every field's default is non-empty |
| `DataUpload.FieldOf` | Frontend/src/pages/DataUpload.jsx:195-214 | each field is never empty and is its default when its pattern finds nothing. Claim id and claim type are the whole `\S+` capture, a single run with no whitespace. The other four fields are the trimmed capture whenever it is non-blank, made of letters and whitespace with none at either end, and the default otherwise |
| `DataUpload.FieldClassShape` | Frontend/src/pages/DataUpload.jsx:196-213 | a field that is not its default has the shape of its class: one whitespace-free run for `\S+`, trimmed letters and whitespace for the others |
| `DataUpload.Extract` | Frontend/src/pages/DataUpload.jsx:195-216 | the form holds, for each of the six keys, that field searched for on its own in the whole text |
| `DataUpload.NoLabelsGiveDefaults` | Frontend/src/pages/DataUpload.jsx:195-214 | text in which none of the six labels occurs, in any case, yields `FRA-XXXX-00000`, `Unknown Claimant`, `N/A`, `N/A`, `N/A`, `Individual`; a lone `claim` without `ID` or `Type` after it does not stop that |
| `DataUpload.NoLabelWordsGiveDefaults` | Frontend/src/pages/DataUpload.jsx:195-214 | text in which none of the words `claim`, `name`, `village`, `district`, `state` occurs, in any case, yields the six defaults |
| `DataUpload.EmptyTextGivesDefaults` | Frontend/src/pages/DataUpload.jsx:195-214 | empty text yields exactly the six defaults |
| `DataUpload.ExtractIgnoresLabelCase` | Frontend/src/pages/DataUpload.jsx:196-213 | texts that differ only in ASCII case give each field's search the same result |
| `DataUpload.ReportLabel` | Frontend/src/pages/DataUpload.jsx:248-250 | the report label is never shorter than its key (the two lemmas below pin it down) |
| `DataUpload.FormLabel` | Frontend/src/pages/DataUpload.jsx:415 | the input-box label is never shorter than its key |
| `DataUpload.ReportLabelRoundTrip` | Frontend/src/pages/DataUpload.jsx:248-250 | a camel-case key is recovered from its report label by removing the spaces and lower-casing the first letter; the label starts with the key's first letter upper-cased |
| `DataUpload.TwoWordLabel` | Frontend/src/pages/DataUpload.jsx:248-250 | `claimantName`-style keys are labelled with both words capitalised and one space between them |
| `DataUpload.ResetFormAndFiles` | Frontend/src/pages/DataUpload.jsx:83-87 | the reset clears file, form and progress and touches nothing else |
| `DataUpload.RemoveFile` | Frontend/src/pages/DataUpload.jsx:121-124 | removing the file resets the page and shows a success notice |
| `DataUpload.Drop` | Frontend/src/pages/DataUpload.jsx:90-108 | a drop before the libraries have loaded only shows an error; an empty drop changes nothing; otherwise the first accepted file replaces the current one, the form is cleared and recognition starts at 0, with the notice and the library flag kept |
| `DataUpload.DropThenRecognize` | Frontend/src/pages/DataUpload.jsx:90-223 | after a drop and the end of recognition the dropped file is shown and the form holds the extracted fields, or the cleared form when recognition failed |
| `DataUpload.OcrFinished` | Frontend/src/pages/DataUpload.jsx:127-223 | recognition always ends the processing state; recognised text fills the form with the extracted fields and a success notice; a missing library or a failure keeps the form and shows an error |
| `DataUpload.JoinPages` | Frontend/src/pages/DataUpload.jsx:158-181 | the page loop's text is each page's text followed by a line break, and its length is the pages' lengths plus one per page |
| `DataUpload.Download` | Frontend/src/pages/DataUpload.jsx:227-257 | a report is produced exactly when the PDF library is present and not both the claim id and the name are empty; an error notice is shown exactly when there is no report. The report has one line per field in key order, 10 apart from y = 30, each the field's label, then `: `, then exactly the field's value, and is saved under the claim id or `FRA_Report` |
| `DataUpload.Save` | Frontend/src/pages/DataUpload.jsx:260-276 | a record is handed on exactly when not both the claim id and the name are empty. It is the current form, and the page is then reset. A refusal changes nothing but the notice. Processing and the library flag are always kept. The notice is an error exactly on refusal |
| `DataUpload.ExtractedFormIsSaved` | Frontend/src/pages/DataUpload.jsx:195-276 | a form filled by extraction is always saved (its defaults are non-empty), and a second save right after is refused |
| `ExtractionExamples.LabelledWords` | Frontend/src/pages/DataUpload.jsx:199-210 | `Label: words` followed by the end of the text, or by a character that is neither a letter nor whitespace, yields exactly the words |
| `ExtractionExamples.BlankCaptureGivesDefault` | Frontend/src/pages/DataUpload.jsx:199-210 | when the label and one blank (`" "` or `": "`) are followed by a non-letter, the capture is that whitespace, trims to nothing, and the field takes its default |
| `ExtractionExamples.LabelledToken` | Frontend/src/pages/DataUpload.jsx:197-213 | `Claim ID` or `Claim Type`, in any case, then `": "` or a space, then a token ended by whitespace or the end of the text, yields exactly the token |
| `ExtractionExamples.SpacedColonBecomesClaimId` | Frontend/src/pages/DataUpload.jsx:197 | `Claim ID : X` gives the claim id `:`, because `\s*` backtracks and the colon is captured by `\S+` |
| `ExtractionExamples.ClaimIdAfterColon` | Frontend/src/pages/DataUpload.jsx:197 | `Claim ID: FRA-2024-9` followed by a line break gives `FRA-2024-9` |
| `ExtractionExamples.SpacedColonLosesName` | Frontend/src/pages/DataUpload.jsx:200 | `Name : John` captures one space, which trims away, so the name is `Unknown Claimant` |
| `ExtractionExamples.DigitsAreNoName` | Frontend/src/pages/DataUpload.jsx:200 | `Name: 123` gives `Unknown Claimant` |
| `ExtractionExamples.DetachedDashLosesVillage` | Frontend/src/pages/DataUpload.jsx:203 | `Village - Amgaon` gives `N/A`: the separator must follow the label directly |
| `ExtractionExamples.UpperCaseLabel` | Frontend/src/pages/DataUpload.jsx:203 | `VILLAGE: Amgaon` gives `Amgaon` |
| `ExtractionExamples.NameRunsOntoNextLine` | Frontend/src/pages/DataUpload.jsx:200 | `\s` includes the line break, so `Name: Meena` followed by a line `State: MP` gives the name `Meena` + line break + `State` |
| `Dashboard.PriorityClasses` | Frontend/src/pages/Dashboard.jsx:57-68 | the grey default badge is returned exactly for values other than High, Medium and Low |
| `Dashboard.StatusColor` | Frontend/src/pages/Dashboard.jsx:174-187 | the grey pill is returned exactly for values other than the four statuses |
| `Dashboard.StatusClasses` | Frontend/src/pages/Dashboard.jsx:527-540 | the grey default badge is returned exactly for values other than the four statuses |
| `Dashboard.BadgesDistinguishValues` | Frontend/src/pages/Dashboard.jsx:57-68 | the three maps are one-to-one on the values they recognise |
| `Dashboard.FilterClaims` | Frontend/src/pages/Dashboard.jsx:465-474 | an empty term returns the list unchanged; otherwise every claim shown matches, case-insensitively, on id or claimant, and every matching claim is shown |
| `Dashboard.FilterClaimsOrder` | Frontend/src/pages/Dashboard.jsx:469-473 | the filter works claim by claim: it distributes over concatenation and keeps a single claim exactly when it matches, so list order is kept |
| `Dashboard.FilterIgnoresTermCase` | Frontend/src/pages/Dashboard.jsx:466-472 | terms with the same lower-case form show the same claims |
| `Dashboard.CountStatus` | Frontend/src/pages/Dashboard.jsx:498-506 | a status count never exceeds the list length |
| `Dashboard.CountStatusByClaim` | Frontend/src/pages/Dashboard.jsx:498-506 | the count is additive over concatenation, and one claim counts exactly when its status is the counted one |
| `Dashboard.DistinctTalliesBounded` | Frontend/src/pages/Dashboard.jsx:498-506 | counts of three different statuses add up to at most the list length |
| `Dashboard.Tallies` | Frontend/src/pages/Dashboard.jsx:498-506 | the three cards count the claims shown by the search whose status is Pending, Verified and Approved, in that order; together they never exceed the number of claims shown |
| `Dashboard.TalliesAppend` | Frontend/src/pages/Dashboard.jsx:498-506 | each card over a concatenated list is the sum of that card over the two parts |
| `Dashboard.TalliesOfOne` | Frontend/src/pages/Dashboard.jsx:498-506 | a single claim adds one to the card of its own status when the search shows it, and nothing to any card otherwise |
| `Dashboard.UpdateStatus` | Frontend/src/pages/Dashboard.jsx:512-525 | the list keeps its length and order. A claim with another id is unchanged. A claim with the id takes the reported status, notes and checklist and keeps every other field |
| `Dashboard.UpdateStatusIdempotent` | Frontend/src/pages/Dashboard.jsx:512-525 | reporting the same review twice equals reporting it once |
| `Dashboard.UpdateUnknownId` | Frontend/src/pages/Dashboard.jsx:512-525 | a report for an id not in the list changes nothing |
| `Dashboard.UpdateCommutesWithFilter` | Frontend/src/pages/Dashboard.jsx:465-525 | the search reads only ids and names, which an update keeps, so updating then filtering equals filtering then updating |
| `Dashboard.ToggleItem` | Frontend/src/pages/Dashboard.jsx:151-157 | the toggle flips the tick at the given index and nowhere else, keeps every label, and changes nothing for an index outside the list |
| `Dashboard.ToggleTwiceRestores` | Frontend/src/pages/Dashboard.jsx:151-157 | toggling the same index twice restores the checklist |
| `Dashboard.TogglesCommute` | Frontend/src/pages/Dashboard.jsx:151-157 | toggles at two indices commute |
| `Dashboard.ClickCheckboxAsWritten` | Frontend/src/pages/Dashboard.jsx:303-314 | a click on the checkbox itself, which runs both the input's change handler and the row's click handler, leaves the clicked entry's tick as it was |
| `Dashboard.CheckboxClickIsLost` | Frontend/src/pages/Dashboard.jsx:303-314 | a click on the checkbox itself triggers both the input's change handler and the row's click handler, so the checklist is left as it was |
| `Dashboard.ClickRow` | Frontend/src/pages/Dashboard.jsx:303-314 | one click on a row, the box included, flips that entry's tick and so changes the checklist |
| `Dashboard.DecisionStatus` | Frontend/src/pages/Dashboard.jsx:360-398 | the three buttons report only Approved, Rejected or Verified |
| `Dashboard.OpenReview` | Frontend/src/pages/Dashboard.jsx:134-148 | the modal opens idle, with nothing scheduled |
| `Dashboard.EditNotes` | Frontend/src/pages/Dashboard.jsx:349-355 | typing notes keeps the modal's invariant and the scheduled report |
| `Dashboard.ToggleChecklist` | Frontend/src/pages/Dashboard.jsx:151-157 | a checklist toggle keeps the modal's invariant and the scheduled report |
| `Dashboard.Press` | Frontend/src/pages/Dashboard.jsx:159-172 | a button is inert while saving; otherwise it starts saving and schedules its decision with the notes and checklist of that moment |
| `Dashboard.TimerFires` | Frontend/src/pages/Dashboard.jsx:161-171 | the save timer reports the modal's claim id with a decision status, takes that status, stops saving and closes; with nothing scheduled it does nothing |
| `Dashboard.LaterEditsNotReported` | Frontend/src/pages/Dashboard.jsx:159-172 | edits made after pressing a button do not reach the report |
| `Dashboard.ApplyEvents` | Frontend/src/pages/Dashboard.jsx:512-525 | the dashboard's handling of the modal's events keeps the list length |
| `Dashboard.DecisionReachesList` | Frontend/src/pages/Dashboard.jsx:159-172 | pressing a decision and letting the timer fire gives the reviewed claim that decision, the pressed notes and checklist, and leaves claims with other ids untouched |
| `ClaimDetails.DetailKeysListEachKeyOnce` | Frontend/src/pages/ClaimDetails.jsx:21-30 | the eight editable details are listed once each, in the map's declared order |
| `ClaimDetails.SetDetail` | Frontend/src/pages/ClaimDetails.jsx:159-160 | an input changes only its own detail; the scores, statuses and history are kept |
| `ClaimDetails.SetDetailRestores` | Frontend/src/pages/ClaimDetails.jsx:159-160 | typing back the old value restores the record |
| `ClaimDetails.FindFrom` | Frontend/src/pages/ClaimDetails.jsx:83-87 | the scan returns the first matching index from its start, or reports that none matches |
| `ClaimDetails.GetClaimData` | Frontend/src/pages/ClaimDetails.jsx:81-88 | the lookup returns a record whose lower-cased id equals, or whose lower-cased name contains, the lower-cased query, and returns nothing exactly when no record matches |
| `ClaimDetails.EmptyQueryFindsFirst` | Frontend/src/pages/ClaimDetails.jsx:81-88 | an empty query finds the first record |
| `ClaimDetails.OwnIdFindsFirst` | Frontend/src/pages/ClaimDetails.jsx:81-88 | the first record's own id finds it |
| `ClaimDetails.DefaultIdFindsFirstRecord` | Frontend/src/pages/ClaimDetails.jsx:79-91 | the default id `FRA-2023-00123` finds the first database record |
| `ClaimDetails.LookupIgnoresQueryCase` | Frontend/src/pages/ClaimDetails.jsx:82-86 | queries with the same lower-case form find the same record |
| `ClaimDetails.Tick` | Frontend/src/pages/ClaimDetails.jsx:110-114 | one tick adds one below the target and leaves the value alone at or above it |
| `ClaimDetails.BarCountsUpToTarget` | Frontend/src/pages/ClaimDetails.jsx:107-117 | after the restart at 0 and n ticks, the bar shows n capped at the target, and 0 for a non-positive target |
| `ClaimDetails.DetailLines` | Frontend/src/pages/ClaimDetails.jsx:133-136 | the export writes one line per editable detail |
| `ClaimDetails.ExportLines` | Frontend/src/pages/ClaimDetails.jsx:133-145 | the detail lines come first, followed by five more lines |
| `ClaimDetails.ExportReport` | Frontend/src/pages/ClaimDetails.jsx:124-147 | the report is titled `Claim Report`, has thirteen lines 10 apart from y = 40 that carry the export lines in order, and is saved as `<claimId>_Report.pdf` |
| `ClaimDetails.ReadsBack` | Frontend/src/pages/ClaimDetails.jsx:134 | a `caption: value` line gives its value back |
| `ClaimDetails.ExportReadsBack` | Frontend/src/pages/ClaimDetails.jsx:133-145 | every value can be read back from its line of the saved report, in order: each detail under its display name, the three scores, the vulnerability with `%`, and the statuses joined by `, ` |
| `ClaimDetails.DetailLinesReadBack` | Frontend/src/pages/ClaimDetails.jsx:133-137 | the first export lines give each detail's value under its display name, in the detail map's order |
| `ClaimDetails.ScoreLinesReadBack` | Frontend/src/pages/ClaimDetails.jsx:138-145 | the five closing export lines give the overall score, land suitability, community need, the vulnerability with `%`, and the statuses joined by `, ` |
| `ClaimDetails.ClosingLinesReadBack` | Frontend/src/pages/ClaimDetails.jsx:138-145 | whatever the scores, vulnerability and statuses are, each of the five closing lines gives its value back under its caption |
| `ClaimDetails.InitialPage` | Frontend/src/pages/ClaimDetails.jsx:90-104 | the page opens on the record the default id finds, not editing, not loading, with the bar at 0 |
| `ClaimDetails.FinishLoad` | Frontend/src/pages/ClaimDetails.jsx:173-190 | a hit replaces the claim and prepends a "Loaded" entry; a miss keeps the claim and prepends a "search failed" entry; either way loading ends |
| `ClaimDetails.Step` | Frontend/src/pages/ClaimDetails.jsx:107-191 | the claim changes only through an input while editing or a finished lookup; only the edit and Cancel buttons change the editing mode; typing sets the query and nothing else does; Load is ignored while a lookup is pending; only the lookup timer ends a pending lookup; only the bar timer or a lookup moves the bar |
| `ClaimDetails.Run` | Frontend/src/pages/ClaimDetails.jsx:107-191 | a run without inputs and lookups keeps the claim, and a run without typing keeps the query |
| `ClaimDetails.StepPrependsAtMostOne` | Frontend/src/pages/ClaimDetails.jsx:120-191 | each action prepends at most one log entry and keeps the rest in order; it prepends one exactly for an export (with the PDF library), a save, or a finished lookup |
| `ClaimDetails.RunKeepsLogTail` | Frontend/src/pages/ClaimDetails.jsx:120-191 | over any run of actions the old log survives unchanged as the tail of the new one, which grows by at most one entry per action |
| `ClaimDetails.EditsSurviveCancel` | Frontend/src/pages/ClaimDetails.jsx:158-160 | Cancel only leaves editing: a detail typed while editing is still there, and nothing is logged |
| `ClaimDetails.LoadUsesPressedQuery` | Frontend/src/pages/ClaimDetails.jsx:171-191 | the delayed lookup uses the query as it was when Load was pressed, whatever is typed meanwhile |
| `AdminChatbot.NextsAreMenus` | Frontend/src/components/AdminChatbot.jsx:40-219 | every `next` of the flow names a menu of the flow |
| `AdminChatbot.SubMenusEndWithBack` | Frontend/src/components/AdminChatbot.jsx:60-218 | every sub-menu ends with the Back element, which leads to `main` |
| `AdminChatbot.AnswerGiven` | Frontend/src/components/AdminChatbot.jsx:60-208 | every question of the flow has a non-empty, hence truthy, answer |
| `AdminChatbot.OptionsAnswerOrNavigate` | Frontend/src/components/AdminChatbot.jsx:40-219 | every option has exactly one truthy field of `answer` and `next`, and every option of `main` navigates to a sub-menu |
| `AdminChatbot.Click` | Frontend/src/components/AdminChatbot.jsx:221-239 | history is only appended to. An answering option appends its question and answer and keeps the menu. A navigating option moves to its `next` and appends its text only when that text is a string other than the Back label. Any other option changes nothing |
| `AdminChatbot.ClickKeepsInvariant` | Frontend/src/components/AdminChatbot.jsx:221-246 | clicking any option on show keeps a menu of the flow on show |
| `AdminChatbot.BackIsSilent` | Frontend/src/components/AdminChatbot.jsx:229-238 | Back returns to `main` and adds nothing to the history |
| `AdminChatbot.Reset` | Frontend/src/components/AdminChatbot.jsx:241-244 | the reset empties the history and returns to `main` |
| `AdminChatbot.ToggleButton` | Frontend/src/components/AdminChatbot.jsx:254-261 | closing keeps the conversation; opening always starts afresh |
| `AdminChatbot.Collapse` | Frontend/src/components/AdminChatbot.jsx:284-288 | the header arrow only closes |
| `AdminChatbot.ReopenShowsGreeting` | Frontend/src/components/AdminChatbot.jsx:254-298 | closing and reopening always shows the greeting, with a menu of the flow on show |
| `MessageContent.Bold` | Frontend/src/components/AdminChatbot.jsx:20 | the `<strong>` rewrite never shortens a message, and empties only an empty one; with the lemmas below it copies plain text and wraps each shortest `**` span |
| `MessageContent.CloseIn` | Frontend/src/components/AdminChatbot.jsx:20 | where the lazy `(.*?)` stops, if anywhere, a `**` starts |
| `MessageContent.CloseInIsFirst` | Frontend/src/components/AdminChatbot.jsx:20 | the lazy group stops at the first `**` it can reach without crossing a line terminator, and fails only when there is none |
| `MessageContent.NoPairUnchanged` | Frontend/src/components/AdminChatbot.jsx:20 | text without a `**` pair is shown unchanged |
| `MessageContent.StarlessPrefixCopied` | Frontend/src/components/AdminChatbot.jsx:20 | a prefix without `*` is copied as it is |
| `MessageContent.BoldAtPair` | Frontend/src/components/AdminChatbot.jsx:20 | `**x**` around plain text becomes `<strong>x</strong>`, and the rewrite carries on after it |
| `MessageContent.BoldWraps` | Frontend/src/components/AdminChatbot.jsx:20 | a bold span after plain text is wrapped, and the text around it is kept |
| `MessageContent.ShortestSpans` | Frontend/src/components/AdminChatbot.jsx:20 | two spans on one line become two `<strong>` elements, not one long one |
| `MessageContent.UnclosedPairKept` | Frontend/src/components/AdminChatbot.jsx:20 | a `**` that is never closed stays as it is |
| `MapSidebar.FilteredStates` | Frontend/src/components/MapSidebar.jsx:188-194 | a state is offered exactly when its lower-cased name contains the lower-cased search, and the offered states are a subsequence of the state list, in its order |
| `MapSidebar.EmptySearchOffersAll` | Frontend/src/components/MapSidebar.jsx:188-194 | an empty search offers all six states, in order |
| `MapSidebar.AvailableDistricts` | Frontend/src/components/MapSidebar.jsx:174-177 | the state's own list when it has one, the `default` list otherwise; never empty |
| `MapSidebar.StatesWithoutDistricts` | Frontend/src/components/MapSidebar.jsx:28-49 | the four states after Madhya Pradesh and Telangana only get the placeholder `Select District` |
| `MapSidebar.LayerLabel` | Frontend/src/components/MapSidebar.jsx:418-421 | the label never starts or ends with whitespace |
| `MapSidebar.CamelKeyLabel` | Frontend/src/components/MapSidebar.jsx:418-421 | for a camel-case key the trim is a no-op, and the key is recovered from the label by removing the spaces and lower-casing the first letter |
| `MapSidebar.TwoWordLayerLabel` | Frontend/src/components/MapSidebar.jsx:418-421 | `fraClaims`-style keys are labelled `Fra Claims`: both words capitalised, one space between them |
| `MapSidebar.Initial` | Frontend/src/components/MapSidebar.jsx:166-186 | the sidebar opens on the first state and that state's first district, with an empty search and the declared layer flags |
| `MapSidebar.ChangeState` | Frontend/src/components/MapSidebar.jsx:204-212 | with both callbacks, the district becomes the first of the new state's list, and the state is reported before the district. A missing state callback throws before anything is reported. A missing district callback throws after the state is reported |
| `MapSidebar.ChangeDistrict` | Frontend/src/components/MapSidebar.jsx:214-218 | the chosen district is selected and reported, or the missing callback throws |
| `MapSidebar.Flip` | Frontend/src/components/MapSidebar.jsx:196-199 | exactly one flag is flipped, an absent flag counting as off, and all others are kept |
| `MapSidebar.ToggleLayer` | Frontend/src/components/MapSidebar.jsx:196-202 | the toggle changes only the layer flags and reports the toggled layer with its new value |
| `MapSidebar.FlipTwice` | Frontend/src/components/MapSidebar.jsx:196-202 | toggling a layer twice restores the flags; a layer that had no flag ends up off |
| `MapSidebar.FlipsCommute` | Frontend/src/components/MapSidebar.jsx:196-202 | toggles of two different layers commute |
| `MapSidebar.SelectionStaysConsistent` | Frontend/src/components/MapSidebar.jsx:166-218 | the selected district belongs to the selected state's list initially and after every completed state change or list-drawn district change |
| `MapSidebar.AssetMapHostThrowsOnStateChange` | Frontend/src/components/MapSidebar.jsx:204-212 | hosted by the asset map, which passes no state callback, a state change throws before reporting anything, while district changes and layer toggles complete |
| `Navbar.IsLinkActive` | Frontend/src/components/Navbar.jsx:28-34 | the root link is active only on `/`; any other link exactly when the path starts with the link's path and the next character, if any, is `/` |
| `Navbar.ActiveBelowOnly` | Frontend/src/components/Navbar.jsx:28-34 | a non-root link is active on its own path and below it (`/claims/7`), but not on a longer sibling (`/claimsX`) |
| `Navbar.ActiveIsPrefix` | Frontend/src/components/Navbar.jsx:30-33 | an active non-root link is a prefix of the path |
| `Navbar.NotBothActive` | Frontend/src/components/Navbar.jsx:30-33 | two non-root links that differ at a shared position are never active together |
| `Navbar.ActiveLinks` | Frontend/src/components/Navbar.jsx:16-34 | the set of active links is exactly those of the five whose predicate holds |
| `Navbar.LinksExclusive` | Frontend/src/components/Navbar.jsx:16-34 | no two of the five links are active together |
| `Navbar.AtMostOneActive` | Frontend/src/components/Navbar.jsx:16-34 | whatever the path, at most one link is highlighted |
| `Navbar.Navigate` | Frontend/src/components/Navbar.jsx:24-26 | a change of path closes the mobile menu; the same path changes nothing |
| `Navbar.PressMenuButton` | Frontend/src/components/Navbar.jsx:86 | the menu button flips the menu and keeps the path |
| `Navbar.FollowMobileLink` | Frontend/src/components/Navbar.jsx:108-111 | a mobile link goes to its path with the menu closed |
| `Navbar.MenuTransitions` | Frontend/src/components/Navbar.jsx:24-111 | pressing the button twice restores the bar; a closed menu stays closed on navigation |
| `AssetMap.StatusTone` | Frontend/src/pages/AssetMap.jsx:460-480 | green exactly when the lower-cased status mentions resolved, closed or approved; yellow exactly when it mentions none of those but pending, hearing or active; red exactly when it mentions none of the six but stay or judicial |
| `AssetMap.StatusClasses` | Frontend/src/pages/AssetMap.jsx:460-480 | the grey classes are returned exactly for a status of none of the three groups |
| `AssetMap.StatusToneIgnoresCase` | Frontend/src/pages/AssetMap.jsx:461 | the colour ignores letter case |
| `AssetMap.ClosingWordWins` | Frontend/src/pages/AssetMap.jsx:462-468 | a status mentioning `approved` is green whatever else it says |
| `AssetMap.HealthTone` | Frontend/src/pages/AssetMap.jsx:554-556 | green exactly above 80, yellow exactly above 60 up to 80, red otherwise, including an unknown district's missing score |
| `AssetMap.HealthBoundsAndMonotone` | Frontend/src/pages/AssetMap.jsx:555-556 | both bounds are strict (80 is yellow, 60 is red), and a higher score never gets a worse colour |
| `AssetMap.DistrictCentre` | Frontend/src/pages/AssetMap.jsx:33-40 | the centre of the first of bhopal, indore, chhindwara and jabalpur found in the lower-cased name, and the state centre when none is found |
| `AssetMap.DistrictCentreIgnoresCase` | Frontend/src/pages/AssetMap.jsx:33-40 | the lookup ignores letter case |
| `AssetMap.RowLabel` | Frontend/src/pages/AssetMap.jsx:511-514 | every `_` of a key becomes a space and every other character is kept |
| `AssetMap.RowLabelUnchanged` | Frontend/src/pages/AssetMap.jsx:511-514 | a label equals its key exactly when the key has no `_` |
| `AssetMap.InfoWindow` | Frontend/src/pages/AssetMap.jsx:483-549 | the card is titled `<type> Asset`, has one row per data entry in order, shows the notes only when they are truthy, and has the report button exactly for type `Dispute` |
| `AssetMap.ExtraDisputes` | Frontend/src/pages/AssetMap.jsx:1216-1224 | a dispute gets its own marker exactly when no configured marker has its id as `case_id` or a `land_id` containing it |
| `AssetMap.DisputeMarker` | Frontend/src/pages/AssetMap.jsx:1226-1238 | a dispute's own marker has type `Dispute`, carries the dispute's id and no `case_id` |
| `AssetMap.DisputeMarkerInjective` | Frontend/src/pages/AssetMap.jsx:1226-1238 | different disputes get different markers |
| `AssetMap.Scale` | Frontend/src/pages/AssetMap.jsx:1163 | dispute dots have scale 12, all others 10 |
| `AssetMap.Dots` | Frontend/src/pages/AssetMap.jsx:1150-1298 | the configured markers come first, in order and at their scale, followed by one scale-12 dot per uncovered dispute, all for the selected district |
| `AssetMap.ExtraDots` | Frontend/src/pages/AssetMap.jsx:1216-1249 | the dots after the configured ones are the uncovered disputes' own markers, in order |
| `AssetMap.EveryDisputeShown` | Frontend/src/pages/AssetMap.jsx:1216-1249 | every dispute of the district appears: covered by a configured marker, or else with its own marker among the extra dots, never both |
| `AssetMap.FindDispute` | Frontend/src/pages/AssetMap.jsx:1194-1196 | `find` returns the first dispute with the id, or nothing exactly when no dispute has it |
| `AssetMap.Field` | Frontend/src/pages/AssetMap.jsx:1194 | a property read gives the value of the first entry with that key, and nothing exactly when no entry has it |
| `AssetMap.CaseId` | Frontend/src/pages/AssetMap.jsx:1194 | `case_id \|\| id`: a truthy `case_id` wins; any id found is the value of a `case_id` or `id` entry; with no `id` entry and no truthy `case_id` there is none |
| `AssetMap.PressReport` | Frontend/src/pages/AssetMap.jsx:1190-1201 | the button does nothing without a truthy `case_id \|\| id`. It throws when the district has no dispute table. Otherwise it opens the district's dispute with that id, if there is one |
| `AssetMap.OwnMarkerOpensItsDispute` | Frontend/src/pages/AssetMap.jsx:1276-1285 | the report button of a dispute's own marker opens that dispute when ids are unique |
| `AssetMap.UpdateHighlight` | Frontend/src/pages/AssetMap.jsx:1372-1393 | the remembered polygon is restyled plain before the new district's polygon, if it has one, is highlighted and remembered; the selected name is always updated |
| `AssetMap.HighlightStaysSingle` | Frontend/src/pages/AssetMap.jsx:1372-1393 | the highlight keeps at most one polygon: the selected district's when it has one, none otherwise |
| `AssetMap.ReportOpens` | Frontend/src/pages/AssetMap.jsx:1186-1201 | the report button of a dot opens only a dispute of that dot's district carrying the dot's `case_id \|\| id`, and only on a card that has the button |
| `AssetMap.Step` | Frontend/src/pages/AssetMap.jsx:1396-1487 | each handler sets only its own fields and keeps the rest. Selecting a district moves the highlight, shows its card and redraws its dots. Closing the card clears both. A layer toggle redraws only when a district is shown and the layer is on. Analyze opens the forest modal only for a shown district that has forest data, since the button is disabled otherwise. View Disputes acts only while a district is shown. Picking a dispute opens its details and closes the list. The report button opens the dispute it finds. Each close button clears only its own modal |
| `AssetMap.JabalpurForestDisabled` | Frontend/src/pages/AssetMap.jsx:1605 | with the page's forest data (Chhindwara, Bhopal, Indore), selecting Jabalpur and pressing Analyze opens no forest modal |
| `AssetMap.Run` | Frontend/src/pages/AssetMap.jsx:1372-1412 | only a district selection moves the highlight: a run without one keeps it |
| `AssetMap.StepKeepsInvariant` | Frontend/src/pages/AssetMap.jsx:1372-1425 | every handler keeps at most one polygon highlighted, and keeps the card and the modals tied to a selected district |
| `AssetMap.RunKeepsInvariant` | Frontend/src/pages/AssetMap.jsx:1372-1425 | the invariant holds after any run of handlers |
| `AssetMap.PageRunsAreSafe` | Frontend/src/pages/AssetMap.jsx:1415-1425 | from the initial page no run highlights two districts, and the forest and disputes modals open only once a district has been selected |
| `Signup.Submit` | Frontend/src/pages/Signup.jsx:58-65 | a submission is refused, with the mismatch error, exactly when both passwords are non-empty and differ; otherwise it goes to `/dashboard` with the form unchanged |
| `Signup.EmptyPasswordPasses` | Frontend/src/pages/Signup.jsx:60-64 | an empty password or confirmation always goes through |
| `Signup.NameAndEmailIgnored` | Frontend/src/pages/Signup.jsx:52-65 | name and e-mail play no part in the outcome |
| `Signup.ErrorIffRefused` | Frontend/src/pages/Signup.jsx:60-64 | starting without an error, the error is shown exactly when the submission is refused |

## Left out

- Rendering is not modelled: JSX, Tailwind classes beyond the class-selection maps, animations, `dangerouslySetInnerHTML`/`innerHTML` safety, icon injection and auto-scroll. The bold rewrite is modelled as a string function.
- Tesseract, PDF.js and jsPDF are outside the model. The intake page receives the recognised text (or the way recognition failed). A report is the list of lines and positions the writer would receive. Page rendering, the canvas and the CDN script loader (`ExternalScriptLoader`) are left out.
- Google Maps, the GeoJSON fetch and the polygon construction are left out. Polygons are named by district. A district centre is a tag, not a latitude/longitude pair. The map is assumed loaded, so `drawColoredMarkers` never takes its early return. The dispute circle and the pan/zoom calls are not modelled.
- Timers are left out: each `setTimeout`/`setInterval` callback is an atomic transition (`TimerFires`, `LoadFires`, `BarTick`). The notification auto-dismiss and the interval's own `clearInterval` are left out.
- Clock readings (`new Date().toLocaleString()` and the like) are parameters of the actions that stamp log entries.
- The OCR progress percentages, the area ÷ 1e6 figure, and the random canopy and density values are floating point or random, and are left out.
- Mock tables are left out. The asset map's marker, dispute and polygon tables are a parameter (`Tables`). Of the claim-status page's database, only the two records' lookup-relevant fields are written out.
- The "HIGH PRIORITY" card is a constant figure, not a computed count, and is left out.
- `SplashPage`, `Login` and `App` carry no logic beyond navigation, and are not part of this model.
- `Base.Lower`, `Base.Fold`, `Base.Raise`: `toLowerCase` and `toUpperCase` are modelled on ASCII letters only. Non-ASCII letters are kept as they are. This affects the dashboard search, the claim lookup, the status colours, the district centres and the label formatters, but not the regex `i` flag: for ASCII pattern letters, non-Unicode JavaScript regexes fold ASCII letters only.
- `Base.IsSpace`: `\s` and `trim` use the full ECMAScript whitespace and line-terminator set, not ASCII only, because that set is finite and exact.
- The browser's own form validation in `Signup` (the `type="email"` input) is not modelled: the handler sees whatever the browser lets through.
- `MapSidebar.ChangeState`, `MapSidebar.ChangeDistrict`, `MapSidebar.ToggleLayer`: a throwing handler is modelled as `Threw` with the callbacks made before the throw. The state setters already queued before the throw are not modelled. Neither is React running a state updater twice in development mode.
- `MapSidebar.AvailableDistricts`: a state named like an `Object.prototype` property (`constructor`, say) would find that property in the JavaScript lookup. The model treats such a name as absent, since the select offers only the six states.
- `DataUpload.ReportLabel`, `DataUpload.FormLabel`, `MapSidebar.LayerLabel`: their own contracts state only length and trimming. The label text itself is stated by `DataUpload.ReportLabelRoundTrip`, `DataUpload.TwoWordLabel`, `MapSidebar.CamelKeyLabel` and `MapSidebar.TwoWordLayerLabel`, for the camel-case keys the pages use.
- `Dashboard.CountStatus`: its own contract is only a bound. What it counts is stated by `Dashboard.CountStatusByClaim`.
- `ClaimDetails.DetailLines`, `ClaimDetails.ExportLines`: their own contracts give only the line counts and order. The content of each line is stated by `ClaimDetails.DetailLinesReadBack` and `ClaimDetails.ScoreLinesReadBack`, and carried into the saved report by `ClaimDetails.ExportReadsBack`.
- `DataUpload.Download`: the handler reads `window.jspdf.jsPDF`, which throws when `window.jspdf` itself is absent. The upload page disables its PDF button until its libraries have loaded, so that throw is not modelled. The PDF-availability parameter stands for whether `jsPDF` is set once `window.jspdf` exists.
- `ClaimDetails.Step`: the export button is never disabled. The page relies on a script tag in `index.html` to define `window.jspdf`, and `handleExport` throws on its first line when that is missing. The throw comes before any state change, so it leaves the page as it was, exactly as a defined `window.jspdf` without `jsPDF` does. `pdfAvailable = false` stands for both outcomes.
- `AssetMap.Step`: the asset map's `showForestModal`/`showDisputesModal` flags are not reset when the district card is closed, but the modal overlay covers the page while open, so nothing observable follows.
- `AdminChatbot.Question`, `AdminChatbot.Answer`: the question and answer texts are written out verbatim. They state nothing beyond the flow's data, so no row cites them.

## Findings

| source | as written | input that shows it | evidently intended | confidence | as-written member | corrected member |
|---|---|---|---|---|---|---|
| Frontend/src/pages/Dashboard.jsx:303-314 | The checkbox's `onChange` and its row's `onClick` both call `handleChecklistToggle(index)`. A click on the box fires both, and the two queued toggles cancel out | open the review modal and click the box of "Land area within permissible limits": it stays unticked (a click on the label text does toggle it) | one click, on the box or on the row, flips the entry once | medium, not executed | `Dashboard.ClickCheckboxAsWritten` (with `Dashboard.CheckboxClickIsLost`) | `Dashboard.ClickRow` |

=== FILE: admin_chatbot.dfy ===
/** The admin help chatbot: a fixed graph of menus whose options either
    answer a question or move to another menu, the chat history those clicks
    build, and the open/close button. */
module AdminChatbot {
  import opened Base

  /** An option's label: a plain string, or the rendered Back-to-main element
      (a React element, not a string). */
  datatype OptionText = Plain(s: string) | BackElement

  /** A menu option of the flow: one that asks a question of the given topic
      (its `text` is the question and its `answer` the reply), or one that
      opens another menu (its `text` is the label and `next` the menu's key). */
  datatype MenuOption = Asks(topic: Topic) | Opens(caption: OptionText, target: string)

  datatype Menu = Menu(question: string, options: seq<MenuOption>)

  /** The option's `text` field. */
  function TextOf(o: MenuOption): OptionText {
    match o
    case Asks(t) => Plain(Question(t))
    case Opens(l, _) => l
  }

  /** The option's `answer` field; absent on navigating options. */
  function AnswerOf(o: MenuOption): Option<string> {
    match o
    case Asks(t) => Some(Answer(t))
    case Opens(_, _) => None
  }

  /** The option's `next` field; absent on answering options. */
  function NextOf(o: MenuOption): Option<string> {
    match o
    case Asks(_) => None
    case Opens(_, n) => Some(n)
  }

  /** JavaScript truthiness of an optional string field. */
  predicate Truthy(f: Option<string>) {
    f.Some? && f.value != ""
  }

  const MainMenu := "main"

  /** The questions the sub-menus answer. */
  datatype Topic =
    | ViewClaims | SharedDataset | Privacy | UploadFile
    | Duplicates | AssetDetection | LandAssets | OverlayBoundaries
    | LayerList | SummaryReport | WhatIsDss | SchemesForClaim
    | UpdateSchemes | ContactSupport | LogIn | ResetPassword
    | MapNotLoading

  function Question(t: Topic): string
  {
    match t
    case ViewClaims => "Where can I view all FRA claims?"
    case SharedDataset =>
      "Can multiple users work on the same "
      + "dataset?"
    case Privacy => "How is user data privacy maintained?"
    case UploadFile => "How do I upload a new data file?"
    case Duplicates =>
      "What happens if the system detects "
      + "duplicate claims?"
    case AssetDetection =>
      "What is the AI-based asset detection "
      + "feature?"
    case LandAssets => "How can I see land assets on the map?"
    case OverlayBoundaries =>
      "Can I overlay FRA claim boundaries with "
      + "other datasets?"
    case LayerList => "Show me a list of available GIS layers."
    case SummaryReport => "How do I generate a summary report?"
    case WhatIsDss => "What is the Decision Support System (DSS)?"
    case SchemesForClaim =>
      "How to check schemes suggested for a "
      + "claim?"
    case UpdateSchemes => "Can I add or update schemes in DSS?"
    case ContactSupport => "How do I contact support?"
    case LogIn =>
      "How do I log in to the FRA Admin "
      + "Dashboard?"
    case ResetPassword => "How can I reset my password?"
    case MapNotLoading => "The dashboard map is not loading."
  }

  function Answer(t: Topic): string
  {
    match t
    case ViewClaims =>
      "Go to **Claims Management** \U{2192} "
      + "**View Claims**. You can filter by "
      + "district, block, village, or claim type "
      + "(Individual/Community)."
    case SharedDataset =>
      "Yes. The system supports **role-based "
      + "access control**, allowing multiple "
      + "authorized users to collaborate without "
      + "data conflicts."
    case Privacy =>
      "All claim and asset data are stored on "
      + "secure government servers. Only "
      + "authorized officials can access or "
      + "modify records through verified logins."
    case UploadFile =>
      "Navigate to **Data Upload** \U{2192} "
      + "**Bulk Upload** and select the CSV or "
      + "GeoJSON file format. The system will "
      + "automatically validate and integrate it "
      + "into the GIS layer."
    case Duplicates =>
      "The portal flags potential duplicates "
      + "and sends them for manual review under "
      + "**Data Validation \U{2192} Duplicate "
      + "Check**."
    case AssetDetection =>
      "The system analyzes recent satellite "
      + "imagery to automatically detect assets "
      + "such as farmland or habitation clusters "
      + "and links them to corresponding FRA "
      + "plots."
    case LandAssets =>
      "Open **WebGIS Viewer** from the main "
      + "menu. Select your region from the "
      + "dropdown and toggle asset layers like "
      + "forest land, habitation, water bodies, "
      + "agriculture, etc."
    case OverlayBoundaries =>
      "Yes. In the WebGIS, click **Add Layer** "
      + "\U{2192} **Select Source** to integrate "
      + "external shapefiles or API-based data "
      + "feeds (like Bhuvan or HARSAC)."
    case LayerList =>
      "You can view all available spatial "
      + "layers under **Layer Catalogue** in the "
      + "WebGIS menu \U{2014} including forest "
      + "types, habitation zones, water assets, "
      + "and claim boundaries."
    case SummaryReport =>
      "Go to **Reports** \U{2192} **Generate "
      + "New Report**, choose the timeframe and "
      + "category (claims processed, pending, "
      + "approved, etc.), and click **Download "
      + "PDF**."
    case WhatIsDss =>
      "The DSS uses AI-based logic to match "
      + "FRA land assets with relevant **welfare "
      + "schemes** such as MGNREGA, PM-Kisan, "
      + "Jal Jeevan Mission, etc., based on land "
      + "type, ownership, and location."
    case SchemesForClaim =>
      "Go to the claim record \U{2192} Click "
      + "**DSS Recommendations** tab \U{2192} "
      + "You'll see a list of eligible schemes "
      + "with implementation priority and links."
    case UpdateSchemes =>
      "Only state-level admins can modify the "
      + "DSS rule base. Contact your **nodal "
      + "officer** for new scheme inclusion or "
      + "updates."
    case ContactSupport =>
      "Use **Help \U{2192} Contact Admin "
      + "Support** for chat or email-based "
      + "queries. You can also type 'connect me "
      + "to support' here and I\U{2019}ll direct "
      + "you automatically."
    case LogIn =>
      "Click on **Admin Login** in the "
      + "top-right corner and enter your "
      + "credentials. If you\U{2019}re a new "
      + "user, contact your district FRA "
      + "coordinator for access."
    case ResetPassword =>
      "Click on **Forgot Password** at login, "
      + "enter your registered email or mobile "
      + "number, and follow the verification "
      + "steps."
    case MapNotLoading =>
      "Try refreshing your browser or clearing "
      + "cache. If the issue persists, report it "
      + "under **Help \U{2192} Technical "
      + "Support** with the error message."
  }

  /** The `flow` object. */
  const Flow: map<string, Menu> := map[
    "main" := Menu("Hi Admin \U{1F44B}, how can I help you today?", [
      Opens(Plain("Manage Claims & Users"), "users"),
      Opens(Plain("Data Uploads & Validation"), "uploads"),
      Opens(Plain("GIS & Asset Mapping"), "gis"),
      Opens(Plain("Reports & DSS (Decisions)"), "reports_settings"),
      Opens(Plain("General Help & Security"), "support")
    ]),
    "users" := Menu("Claims, User & Security Help", [
      Asks(ViewClaims),
      Asks(SharedDataset),
      Asks(Privacy),
      Opens(BackElement, "main")
    ]),
    "uploads" := Menu("Need help with Data Uploads and Validation?", [
      Asks(UploadFile),
      Asks(Duplicates),
      Asks(AssetDetection),
      Opens(BackElement, "main")
    ]),
    "gis" := Menu("GIS and Asset Mapping Help", [
      Asks(LandAssets),
      Asks(OverlayBoundaries),
      Asks(LayerList),
      Opens(BackElement, "main")
    ]),
    "reports_settings" := Menu("Reports, Analytics, and DSS Help", [
      Asks(SummaryReport),
      Asks(WhatIsDss),
      Asks(SchemesForClaim),
      Asks(UpdateSchemes),
      Opens(BackElement, "main")
    ]),
    "support" := Menu("Need Technical or General Support?", [
      Asks(ContactSupport),
      Asks(LogIn),
      Asks(ResetPassword),
      Asks(MapNotLoading),
      Opens(BackElement, "main")
    ])
  ]

  // ---------------------------------------------------------------------------
  // The menu graph

  /** Every navigating option leads to a menu of the flow. */
  lemma NextsAreMenus()
    ensures forall m, i :: m in Flow && 0 <= i < |Flow[m].options| && NextOf(Flow[m].options[i]).Some?
              ==> NextOf(Flow[m].options[i]).value in Flow
  {
  }

  /** Every menu but the main one ends with the Back element, which leads to
      the main menu. */
  lemma SubMenusEndWithBack()
    ensures forall m :: m in Flow && m != MainMenu ==>
              Flow[m].options != [] && Flow[m].options[|Flow[m].options| - 1] == Opens(BackElement, MainMenu)
  {
  }

  /** The answers of each sub-menu are non-empty, hence truthy. */
  lemma UsersAnswersGiven(t: Topic)
    requires t.ViewClaims? || t.SharedDataset? || t.Privacy?
    ensures Answer(t) != ""
  {
  }

  lemma UploadsAnswersGiven(t: Topic)
    requires t.UploadFile? || t.Duplicates? || t.AssetDetection?
    ensures Answer(t) != ""
  {
  }

  lemma GisAnswersGiven(t: Topic)
    requires t.LandAssets? || t.OverlayBoundaries? || t.LayerList?
    ensures Answer(t) != ""
  {
  }

  lemma ReportsAnswersGiven(t: Topic)
    requires t.SummaryReport? || t.WhatIsDss? || t.SchemesForClaim? || t.UpdateSchemes?
    ensures Answer(t) != ""
  {
  }

  lemma SupportAnswersGiven(t: Topic)
    requires t.ContactSupport? || t.LogIn? || t.ResetPassword? || t.MapNotLoading?
    ensures Answer(t) != ""
  {
  }

  /** Every topic has a non-empty answer. */
  lemma AnswerGiven(t: Topic)
    ensures Answer(t) != ""
  {
    if t.ViewClaims? || t.SharedDataset? || t.Privacy? {
      UsersAnswersGiven(t);
    } else if t.UploadFile? || t.Duplicates? || t.AssetDetection? {
      UploadsAnswersGiven(t);
    } else if t.LandAssets? || t.OverlayBoundaries? || t.LayerList? {
      GisAnswersGiven(t);
    } else if t.SummaryReport? || t.WhatIsDss? || t.SchemesForClaim? || t.UpdateSchemes? {
      ReportsAnswersGiven(t);
    } else {
      SupportAnswersGiven(t);
    }
  }

  /** Every option either answers or navigates, never both, and every option
      of the main menu navigates to a sub-menu. */
  lemma OptionsAnswerOrNavigate()
    ensures forall m, i :: m in Flow && 0 <= i < |Flow[m].options| ==>
              Truthy(AnswerOf(Flow[m].options[i])) != Truthy(NextOf(Flow[m].options[i]))
    ensures MainMenu in Flow
    ensures forall i :: 0 <= i < |Flow[MainMenu].options| ==>
              Truthy(NextOf(Flow[MainMenu].options[i])) && NextOf(Flow[MainMenu].options[i]).value != MainMenu
  {
    forall m, i | m in Flow && 0 <= i < |Flow[m].options|
      ensures Truthy(AnswerOf(Flow[m].options[i])) != Truthy(NextOf(Flow[m].options[i]))
    {
      var o := Flow[m].options[i];
      match o
      case Asks(t) => AnswerGiven(t);
      case Opens(_, n) => assert n != "";
    }
  }

  // ---------------------------------------------------------------------------
  // The chat

  datatype Message = UserSays(text: OptionText) | BotSays(answer: string)

  datatype Chat = Chat(open: bool, history: seq<Message>, current: string)

  /** The label the navigation branch refuses to echo. No option of the flow
      carries it: the Back options are elements, which the branch already
      refuses. */
  const BackLabel := "\U{2B05}\U{FE0F} Back"

  /** A navigating option is echoed into the history when its label is a
      string other than the Back label. */
  predicate Echoed(o: MenuOption) {
    TextOf(o).Plain? && TextOf(o).s != BackLabel
  }

  /** `handleOptionClick`. */
  function Click(c: Chat, o: MenuOption): (r: Chat)
    ensures r.open == c.open && |r.history| >= |c.history| && r.history[..|c.history|] == c.history
    ensures Truthy(AnswerOf(o)) ==>
              r.current == c.current && r.history[|c.history|..] == [UserSays(TextOf(o)), BotSays(AnswerOf(o).value)]
    ensures !Truthy(AnswerOf(o)) && Truthy(NextOf(o)) ==>
              r.current == NextOf(o).value
              && r.history[|c.history|..] == (if Echoed(o) then [UserSays(TextOf(o))] else [])
    ensures !Truthy(AnswerOf(o)) && !Truthy(NextOf(o)) ==> r == c
  {
    if Truthy(AnswerOf(o)) then
      c.(history := c.history + [UserSays(TextOf(o)), BotSays(AnswerOf(o).value)])
    else if Truthy(NextOf(o)) then
      c.(history := if Echoed(o) then c.history + [UserSays(TextOf(o))] else c.history,
         current := NextOf(o).value)
    else c
  }

  /** The chat always shows a menu of the flow. */
  predicate ChatInvariant(c: Chat) {
    c.current in Flow
  }

  /** Clicking an option of the menu on show keeps a menu of the flow on show. */
  lemma ClickKeepsInvariant(c: Chat, i: nat)
    requires ChatInvariant(c) && i < |Flow[c.current].options|
    ensures ChatInvariant(Click(c, Flow[c.current].options[i]))
  {
    NextsAreMenus();
  }

  /** Back returns to the main menu and adds nothing to the history. */
  lemma BackIsSilent(c: Chat)
    requires ChatInvariant(c) && c.current != MainMenu
    ensures var back := Flow[c.current].options[|Flow[c.current].options| - 1];
            Click(c, back) == c.(current := MainMenu)
  {
    SubMenusEndWithBack();
  }

  /** `resetChat`. */
  function Reset(c: Chat): (r: Chat)
    ensures r.history == [] && r.current == MainMenu && r.open == c.open
  {
    c.(history := [], current := MainMenu)
  }

  /** The floating button: closing keeps the conversation; opening starts a
      fresh one. */
  function ToggleButton(c: Chat): (r: Chat)
    ensures r.open == !c.open
    ensures c.open ==> r.history == c.history && r.current == c.current
    ensures !c.open ==> r == Chat(true, [], MainMenu)
  {
    if c.open then c.(open := false) else Reset(c.(open := true))
  }

  /** The header's collapse arrow only closes. */
  function Collapse(c: Chat): (r: Chat)
    ensures !r.open && r.history == c.history && r.current == c.current
  {
    c.(open := false)
  }

  /** The greeting appears on an empty conversation at the main menu. */
  predicate ShowsGreeting(c: Chat) {
    c.history == [] && c.current == MainMenu
  }

  /** Closing and reopening the chat always comes back to the greeting, with
      a menu of the flow on show. */
  lemma ReopenShowsGreeting(c: Chat)
    ensures var r := ToggleButton(Collapse(c));
            r.open && ShowsGreeting(r) && ChatInvariant(r)
  {
    OptionsAnswerOrNavigate();
  }
}

=== FILE: asset_map.dfy ===
/** The asset map page, without the map itself: status and health colours,
    the district centre lookup, the marker info cards, which disputes get a
    marker of their own, the single highlighted district, the report button
    and the modals. The mock marker, dispute and polygon tables are
    parameters. */
module AssetMap {
  import opened Base

  // ---------------------------------------------------------------------------
  // Colours

  datatype Tone = Green | Yellow | Red | Gray

  /** `getStatusClasses`: the first group of words found in the lower-cased
      status decides the colour. */
  function StatusTone(status: string): (r: Tone)
    ensures r == Green <==>
              Contains(Lower(status), "resolved") || Contains(Lower(status), "closed")
              || Contains(Lower(status), "approved")
    ensures r == Yellow <==>
              r != Green && (Contains(Lower(status), "pending") || Contains(Lower(status), "hearing")
                             || Contains(Lower(status), "active"))
    ensures r == Red <==>
              r != Green && r != Yellow && (Contains(Lower(status), "stay") || Contains(Lower(status), "judicial"))
  {
    var lower := Lower(status);
    if Contains(lower, "resolved") || Contains(lower, "closed") || Contains(lower, "approved") then Green
    else if Contains(lower, "pending") || Contains(lower, "hearing") || Contains(lower, "active") then Yellow
    else if Contains(lower, "stay") || Contains(lower, "judicial") then Red
    else Gray
  }

  function StatusClasses(status: string): (r: string)
    ensures StatusTone(status) == Gray <==> r == "bg-gray-100 text-gray-700 border-gray-300"
  {
    match StatusTone(status)
    case Green => "bg-green-100 text-green-800 border-green-300"
    case Yellow => "bg-yellow-100 text-yellow-800 border-yellow-300"
    case Red => "bg-red-100 text-red-800 border-red-300"
    case Gray => "bg-gray-100 text-gray-700 border-gray-300"
  }

  /** The colour ignores letter case. */
  lemma StatusToneIgnoresCase(a: string, b: string)
    requires Lower(a) == Lower(b)
    ensures StatusTone(a) == StatusTone(b)
  {
  }

  /** A status that mentions a closing word is green whatever else it
      mentions: "Approved, pending stay" is green. */
  lemma ClosingWordWins(a: string, b: string)
    ensures StatusTone(a + "approved" + b) == Green
  {
    var s := a + "approved" + b;
    var lower := Lower(s);
    assert lower[|a|..|a| + 8] == Lower("approved") by {
      forall k | 0 <= k < 8 ensures lower[|a| + k] == Lower("approved")[k] {
        assert s[|a| + k] == "approved"[k];
      }
    }
    assert Lower("approved") == "approved";
    assert OccursAt(lower, "approved", |a|);
  }

  /** `healthColor` of the forest modal: green above 80, yellow above 60, red
      otherwise, including a district with no score. */
  function HealthTone(score: Option<int>): (r: Tone)
    ensures r != Gray
    ensures r == Green <==> score.Some? && score.value > 80
    ensures r == Yellow <==> score.Some? && 60 < score.value <= 80
  {
    if score.Some? && score.value > 80 then Green
    else if score.Some? && score.value > 60 then Yellow
    else Red
  }

  function HealthRank(t: Tone): nat {
    match t
    case Red => 0
    case Yellow => 1
    case Green => 2
    case Gray => 0
  }

  /** Both bounds are strict, and a higher score never gets a worse colour. */
  lemma HealthBoundsAndMonotone(x: int, y: int)
    requires x <= y
    ensures HealthTone(Some(80)) == Yellow && HealthTone(Some(60)) == Red
    ensures HealthRank(HealthTone(Some(x))) <= HealthRank(HealthTone(Some(y)))
  {
  }

  // ---------------------------------------------------------------------------
  // District centres

  /** The centre the map pans to, as a tag: the latitudes and longitudes
      themselves are not modelled. */
  datatype Centre = BhopalCentre | IndoreCentre | ChhindwaraCentre | JabalpurCentre | StateCentre

  /** `getDistrictCenter`: the first of four district names found in the
      lower-cased name decides; otherwise the state's centre. */
  function DistrictCentre(name: string): (r: Centre)
    ensures r == BhopalCentre <==> Contains(Lower(name), "bhopal")
    ensures r == IndoreCentre <==> !Contains(Lower(name), "bhopal") && Contains(Lower(name), "indore")
    ensures r == ChhindwaraCentre <==>
              !Contains(Lower(name), "bhopal") && !Contains(Lower(name), "indore") && Contains(Lower(name), "chhindwara")
    ensures r == JabalpurCentre <==>
              !Contains(Lower(name), "bhopal") && !Contains(Lower(name), "indore")
              && !Contains(Lower(name), "chhindwara") && Contains(Lower(name), "jabalpur")
    ensures r == StateCentre <==>
              !Contains(Lower(name), "bhopal") && !Contains(Lower(name), "indore")
              && !Contains(Lower(name), "chhindwara") && !Contains(Lower(name), "jabalpur")
  {
    var lower := Lower(name);
    if Contains(lower, "bhopal") then BhopalCentre
    else if Contains(lower, "indore") then IndoreCentre
    else if Contains(lower, "chhindwara") then ChhindwaraCentre
    else if Contains(lower, "jabalpur") then JabalpurCentre
    else StateCentre
  }

  /** The lookup ignores letter case. */
  lemma DistrictCentreIgnoresCase(a: string, b: string)
    requires Lower(a) == Lower(b)
    ensures DistrictCentre(a) == DistrictCentre(b)
  {
  }

  // ---------------------------------------------------------------------------
  // Markers and info cards

  /** One `key: value` entry of a marker's data, in declared order. */
  datatype Entry = Entry(key: string, value: string)

  datatype MarkerData = MarkerData(kind: string, data: seq<Entry>, extraNotes: Option<string>)

  datatype Dispute = Dispute(id: string, kind: string, parties: string, status: string, area: string, legalStatus: string)

  /** The value of the first entry with the given key. */
  function Field(data: seq<Entry>, key: string): (r: Option<string>)
    ensures r.None? <==> forall i :: 0 <= i < |data| ==> data[i].key != key
    ensures r.Some? ==> exists i :: 0 <= i < |data| && data[i] == Entry(key, r.value)
                                    && forall j :: 0 <= j < i ==> data[j].key != key
  {
    if data == [] then None
    else if data[0].key == key then Some(data[0].value)
    else
      var r := Field(data[1..], key);
      assert forall j :: 1 <= j < |data| ==> data[j] == data[1..][j - 1];
      r
  }

  /** JavaScript truthiness of an optional string. */
  predicate Truthy(v: Option<string>) {
    v.Some? && v.value != ""
  }

  /** A row label: every `_` of the key becomes a space. */
  function RowLabel(key: string): (r: string)
    ensures |r| == |key|
    ensures forall i :: 0 <= i < |r| ==> r[i] != '_'
    ensures forall i :: 0 <= i < |r| && key[i] != '_' ==> r[i] == key[i]
    ensures forall i :: 0 <= i < |r| && key[i] == '_' ==> r[i] == ' '
  {
    seq(|key|, i requires 0 <= i < |key| => if key[i] == '_' then ' ' else key[i])
  }

  /** What the info window of a marker shows. */
  datatype InfoCard = InfoCard(title: string, rows: seq<Entry>, notes: Option<string>, reportButton: bool)

  /** `createDotInfoWindowContent`: one row per data entry in order, the
      notes when there are any, and the report button only on disputes. */
  function InfoWindow(m: MarkerData): (r: InfoCard)
    ensures r.title == m.kind + " Asset"
    ensures |r.rows| == |m.data|
    ensures forall i :: 0 <= i < |m.data| ==> r.rows[i] == Entry(RowLabel(m.data[i].key), m.data[i].value)
    ensures r.notes.Some? <==> Truthy(m.extraNotes)
    ensures r.notes.Some? ==> r.notes == m.extraNotes
    ensures r.reportButton <==> m.kind == "Dispute"
  {
    InfoCard(m.kind + " Asset",
             seq(|m.data|, i requires 0 <= i < |m.data| => Entry(RowLabel(m.data[i].key), m.data[i].value)),
             if Truthy(m.extraNotes) then m.extraNotes else None,
             m.kind == "Dispute")
  }

  /** Labels are unchanged exactly when the key has no underscore. */
  lemma RowLabelUnchanged(key: string)
    ensures RowLabel(key) == key <==> forall i :: 0 <= i < |key| ==> key[i] != '_'
  {
    if RowLabel(key) == key {
      forall i | 0 <= i < |key| ensures key[i] != '_' {
        assert RowLabel(key)[i] != '_';
      }
    }
  }

  // ---------------------------------------------------------------------------
  // Markers drawn for a district

  /** A configured marker already stands for the dispute: its case id is the
      dispute's id, or its land id contains it. */
  predicate Covers(m: MarkerData, d: Dispute) {
    Field(m.data, "case_id") == Some(d.id)
    || (Field(m.data, "land_id").Some? && Contains(Field(m.data, "land_id").value, d.id))
  }

  predicate Covered(markers: seq<MarkerData>, d: Dispute) {
    exists i :: 0 <= i < |markers| && Covers(markers[i], d)
  }

  /** The disputes that get a marker of their own, in order. */
  function ExtraDisputes(markers: seq<MarkerData>, disputes: seq<Dispute>): (r: seq<Dispute>)
    ensures forall d :: d in r <==> d in disputes && !Covered(markers, d)
  {
    Filter(disputes, (d: Dispute) => !Covered(markers, d))
  }

  /** The marker drawn for an uncovered dispute. */
  function DisputeMarker(d: Dispute): (r: MarkerData)
    ensures r.kind == "Dispute" && Field(r.data, "id") == Some(d.id) && Field(r.data, "case_id").None?
  {
    MarkerData("Dispute",
               [Entry("id", d.id), Entry("type", d.kind), Entry("parties", d.parties),
                Entry("status", d.status), Entry("area", d.area)],
               Some("Legal Status: " + d.legalStatus))
  }

  /** A drawn marker: the district it was drawn for, its data and its size. */
  datatype Dot = Dot(district: string, marker: MarkerData, scale: nat)

  /** Disputes are drawn larger than other markers. */
  function Scale(kind: string): (r: nat)
    ensures r == 12 <==> kind == "Dispute"
    ensures r == 10 <==> kind != "Dispute"
  {
    if kind == "Dispute" then 12 else 10
  }

  /** `drawColoredMarkers`: the configured markers, then one marker per
      dispute no configured marker covers. */
  function Dots(district: string, markers: seq<MarkerData>, disputes: seq<Dispute>): (r: seq<Dot>)
    ensures |r| == |markers| + |ExtraDisputes(markers, disputes)|
    ensures forall i :: 0 <= i < |markers| ==> r[i] == Dot(district, markers[i], Scale(markers[i].kind))
    ensures forall i :: |markers| <= i < |r| ==> r[i].district == district && r[i].scale == 12
  {
    var extras := ExtraDisputes(markers, disputes);
    seq(|markers|, i requires 0 <= i < |markers| => Dot(district, markers[i], Scale(markers[i].kind)))
    + seq(|extras|, i requires 0 <= i < |extras| => Dot(district, DisputeMarker(extras[i]), 12))
  }

  /** The markers after the configured ones are those of the uncovered
      disputes, in order. */
  lemma ExtraDots(district: string, markers: seq<MarkerData>, disputes: seq<Dispute>, i: nat)
    requires i < |ExtraDisputes(markers, disputes)|
    ensures Dots(district, markers, disputes)[|markers| + i]
            == Dot(district, DisputeMarker(ExtraDisputes(markers, disputes)[i]), 12)
  {
  }

  /** Every dispute of the district is on the map: a configured marker covers
      it, or it has a dispute marker of its own, and never both. */
  lemma EveryDisputeShown(district: string, markers: seq<MarkerData>, disputes: seq<Dispute>, d: Dispute)
    requires d in disputes
    ensures Covered(markers, d) <==> !(Dot(district, DisputeMarker(d), 12) in Dots(district, markers, disputes)[|markers|..])
  {
    var extras := ExtraDisputes(markers, disputes);
    var r := Dots(district, markers, disputes);
    if Covered(markers, d) {
      if Dot(district, DisputeMarker(d), 12) in r[|markers|..] {
        var k :| 0 <= k < |r[|markers|..]| && r[|markers|..][k] == Dot(district, DisputeMarker(d), 12);
        ExtraDots(district, markers, disputes, k);
        DisputeMarkerInjective(extras[k], d);
      }
    } else {
      var k :| 0 <= k < |extras| && extras[k] == d;
      ExtraDots(district, markers, disputes, k);
      assert r[|markers|..][k] == r[|markers| + k];
    }
  }

  lemma DisputeMarkerInjective(a: Dispute, b: Dispute)
    requires DisputeMarker(a) == DisputeMarker(b)
    ensures a == b
  {
    assert DisputeMarker(a).data[0].value == a.id;
    assert DisputeMarker(a).data[1].value == a.kind;
    assert DisputeMarker(a).data[2].value == a.parties;
    assert DisputeMarker(a).data[3].value == a.status;
    assert DisputeMarker(a).data[4].value == a.area;
    var prefix := "Legal Status: ";
    assert DisputeMarker(a).extraNotes.value[|prefix|..] == a.legalStatus;
    assert DisputeMarker(b).extraNotes.value[|prefix|..] == b.legalStatus;
  }

  // ---------------------------------------------------------------------------
  // The report button

  datatype ReportOutcome = Opened(dispute: Dispute) | NothingOpened | Threw

  /** The first dispute with the given id. */
  function FindDispute(disputes: seq<Dispute>, id: string): (r: Option<Dispute>)
    ensures r.None? <==> forall i :: 0 <= i < |disputes| ==> disputes[i].id != id
    ensures r.Some? ==> exists i :: 0 <= i < |disputes| && disputes[i] == r.value
                                    && forall j :: 0 <= j < i ==> disputes[j].id != id
    ensures r.Some? ==> r.value.id == id
  {
    if disputes == [] then None
    else if disputes[0].id == id then Some(disputes[0])
    else
      var r := FindDispute(disputes[1..], id);
      assert forall j :: 1 <= j < |disputes| ==> disputes[j] == disputes[1..][j - 1];
      r
  }

  /** The case id the button looks up: `case_id`, or `id` when that is
      absent or empty. */
  function CaseId(m: MarkerData): (r: Option<string>)
    ensures Truthy(Field(m.data, "case_id")) ==> r == Field(m.data, "case_id")
    ensures r.Some? ==> exists i :: 0 <= i < |m.data| && m.data[i].value == r.value
                                    && (m.data[i].key == "case_id" || m.data[i].key == "id")
    ensures (forall i :: 0 <= i < |m.data| ==> m.data[i].key != "id") && !Truthy(Field(m.data, "case_id")) ==> r.None?
  {
    if Truthy(Field(m.data, "case_id")) then Field(m.data, "case_id") else Field(m.data, "id")
  }

  /** The report button's click: the district's dispute with the marker's
      case id. Looking up a district with no dispute list throws. */
  function PressReport(m: MarkerData, disputes: Option<seq<Dispute>>): (r: ReportOutcome)
    ensures !Truthy(CaseId(m)) ==> r == NothingOpened
    ensures Truthy(CaseId(m)) && disputes.None? ==> r == Threw
    ensures Truthy(CaseId(m)) && disputes.Some? ==>
              (r.Opened? <==> exists i :: 0 <= i < |disputes.value| && disputes.value[i].id == CaseId(m).value)
    ensures r.Opened? ==> r.dispute.id == CaseId(m).value && r.dispute in disputes.value
    ensures !r.Opened? && r != Threw ==> r == NothingOpened
  {
    if !Truthy(CaseId(m)) then NothingOpened
    else if disputes.None? then Threw
    else
      match FindDispute(disputes.value, CaseId(m).value)
      case Some(d) => Opened(d)
      case None => NothingOpened
  }

  /** The report button of a dispute's own marker opens that dispute when the
      district's dispute ids are distinct and the id is non-empty. */
  lemma OwnMarkerOpensItsDispute(d: Dispute, disputes: seq<Dispute>)
    requires d in disputes && d.id != ""
    requires forall i, j :: 0 <= i < j < |disputes| ==> disputes[i].id != disputes[j].id
    ensures PressReport(DisputeMarker(d), Some(disputes)) == Opened(d)
  {
    var m := DisputeMarker(d);
    assert CaseId(m) == Some(d.id);
    var r := FindDispute(disputes, d.id);
    var k :| 0 <= k < |disputes| && disputes[k] == d;
    assert r.Some?;
    var i :| 0 <= i < |disputes| && disputes[i] == r.value && forall j :: 0 <= j < i ==> disputes[j].id != d.id;
    assert i == k;
  }

  // ---------------------------------------------------------------------------
  // The highlighted district

  /** The polygons drawn with the highlight style, the polygon the page
      remembers as selected, and the selected district's name. Polygons are
      named by their district. */
  datatype Highlight = Highlight(highlighted: set<string>, selected: Option<string>, current: Option<string>)

  /** Only the remembered polygon may carry the highlight style. */
  predicate AtMostOneHighlighted(h: Highlight) {
    h.highlighted <= (if h.selected.Some? then {h.selected.value} else {})
  }

  /** `updateDistrictHighlight`: the remembered polygon is restyled plain,
      then the new district's polygon, when there is one, is highlighted and
      remembered. */
  function UpdateHighlight(h: Highlight, polygons: set<string>, name: string): (r: Highlight)
    ensures r.current == Some(name)
    ensures name in polygons ==> r.highlighted == (if h.selected.Some? then h.highlighted - {h.selected.value} else h.highlighted) + {name}
                                 && r.selected == Some(name)
    ensures name !in polygons ==> r.selected == h.selected
                                  && r.highlighted == (if h.selected.Some? then h.highlighted - {h.selected.value} else h.highlighted)
  {
    var reverted := if h.selected.Some? then h.highlighted - {h.selected.value} else h.highlighted;
    if name in polygons then Highlight(reverted + {name}, Some(name), Some(name))
    else Highlight(reverted, h.selected, Some(name))
  }

  /** Starting from no highlight, at most one polygon is ever highlighted:
      the one for the district last selected, when it has a polygon. */
  lemma HighlightStaysSingle(h: Highlight, polygons: set<string>, name: string)
    requires AtMostOneHighlighted(h)
    ensures AtMostOneHighlighted(UpdateHighlight(h, polygons, name))
    ensures |UpdateHighlight(h, polygons, name).highlighted| <= 1
    ensures name in polygons ==> UpdateHighlight(h, polygons, name).highlighted == {name}
    ensures name !in polygons ==> UpdateHighlight(h, polygons, name).highlighted == {}
  {
    var r := UpdateHighlight(h, polygons, name);
    if h.selected.Some? {
      assert h.highlighted - {h.selected.value} == {};
    } else {
      assert h.highlighted == {};
    }
  }

  // ---------------------------------------------------------------------------
  // The page

  /** The mock tables: markers and disputes by district, the districts that
      have a boundary polygon, and the districts that have forest analysis
      data (the "Analyze Forest Data" button is disabled for the others). */
  datatype Tables = Tables(
    markers: map<string, seq<MarkerData>>,
    disputes: map<string, seq<Dispute>>,
    polygons: set<string>,
    forestData: set<string>)

  function MarkersOf(t: Tables, district: string): seq<MarkerData> {
    if district in t.markers then t.markers[district] else []
  }

  function DisputesOf(t: Tables, district: string): seq<Dispute> {
    if district in t.disputes then t.disputes[district] else []
  }

  datatype Page = Page(
    highlight: Highlight,
    info: Option<string>,
    dots: seq<Dot>,
    showForest: bool,
    showDisputes: bool,
    showDetails: bool,
    dispute: Option<Dispute>)

  const InitialPage := Page(Highlight({}, None, None), None, [], false, false, false, None)

  datatype Action =
    | SelectDistrict(name: string)
    | CloseCard
    | ToggleLayer(visible: bool)
    | AnalyzeForest
    | ViewDisputes
    | PickDispute(d: Dispute)
    | Report(dot: nat)
    | CloseForest
    | CloseDisputes
    | CloseDetails

  /** The dispute the report button on the `i`-th dot opens, if any: only a
      dot whose card has the button, and only a dispute of that dot's district
      carrying the button's id. */
  function ReportOpens(p: Page, t: Tables, i: nat): (r: Option<Dispute>)
    ensures r.Some? ==> i < |p.dots| && InfoWindow(p.dots[i].marker).reportButton
    ensures r.Some? ==> r.value in DisputesOf(t, p.dots[i].district) && CaseId(p.dots[i].marker) == Some(r.value.id)
  {
    if i < |p.dots| && InfoWindow(p.dots[i].marker).reportButton then
      var district := p.dots[i].district;
      var disputes := if district in t.disputes then Some(t.disputes[district]) else None;
      match PressReport(p.dots[i].marker, disputes)
      case Opened(d) => Some(d)
      case _ => None
    else None
  }

  /** The map part of the page is kept: highlight, open card and dots. */
  predicate SameMap(r: Page, p: Page) {
    r.highlight == p.highlight && r.info == p.info && r.dots == p.dots
  }

  /** The modal part of the page is kept: the three flags and the dispute. */
  predicate SameModals(r: Page, p: Page) {
    r.showForest == p.showForest && r.showDisputes == p.showDisputes
    && r.showDetails == p.showDetails && r.dispute == p.dispute
  }

  /** One handler of the page. Each clause names the fields the handler
      sets; every other field is kept. */
  function Step(p: Page, t: Tables, a: Action): (r: Page)
    ensures a.SelectDistrict? ==>
              && r.highlight == UpdateHighlight(p.highlight, t.polygons, a.name)
              && r.info == Some(a.name)
              && r.dots == Dots(a.name, MarkersOf(t, a.name), DisputesOf(t, a.name))
              && SameModals(r, p)
    ensures a.CloseCard? ==> r.info.None? && r.dots == [] && r.highlight == p.highlight && SameModals(r, p)
    ensures a.ToggleLayer? ==>
              && r.dots == (if p.info.Some? && a.visible
                            then Dots(p.info.value, MarkersOf(t, p.info.value), DisputesOf(t, p.info.value))
                            else [])
              && r.highlight == p.highlight && r.info == p.info && SameModals(r, p)
    ensures a.AnalyzeForest? ==>
              && r.showForest == (p.showForest || (p.info.Some? && p.info.value in t.forestData))
              && SameMap(r, p) && r.showDisputes == p.showDisputes && r.showDetails == p.showDetails && r.dispute == p.dispute
    ensures a.ViewDisputes? ==>
              && r.showDisputes == (p.showDisputes || p.info.Some?)
              && SameMap(r, p) && r.showForest == p.showForest && r.showDetails == p.showDetails && r.dispute == p.dispute
    ensures a.PickDispute? ==>
              && r.dispute == Some(a.d) && r.showDetails && !r.showDisputes
              && SameMap(r, p) && r.showForest == p.showForest
    ensures a.Report? ==>
              if ReportOpens(p, t, a.dot).Some?
              then r.dispute == ReportOpens(p, t, a.dot) && r.showDetails
                   && SameMap(r, p) && r.showForest == p.showForest && r.showDisputes == p.showDisputes
              else r == p
    ensures a.CloseForest? ==>
              !r.showForest && SameMap(r, p) && r.showDisputes == p.showDisputes && r.showDetails == p.showDetails && r.dispute == p.dispute
    ensures a.CloseDisputes? ==>
              !r.showDisputes && SameMap(r, p) && r.showForest == p.showForest && r.showDetails == p.showDetails && r.dispute == p.dispute
    ensures a.CloseDetails? ==>
              !r.showDetails && SameMap(r, p) && r.showForest == p.showForest && r.showDisputes == p.showDisputes && r.dispute == p.dispute
  {
    match a
    case SelectDistrict(name) =>
      p.(highlight := UpdateHighlight(p.highlight, t.polygons, name),
         info := Some(name),
         dots := Dots(name, MarkersOf(t, name), DisputesOf(t, name)))
    case CloseCard => p.(info := None, dots := [])
    case ToggleLayer(visible) =>
      p.(dots := if p.info.Some? && visible then Dots(p.info.value, MarkersOf(t, p.info.value), DisputesOf(t, p.info.value)) else [])
    case AnalyzeForest => if p.info.Some? && p.info.value in t.forestData then p.(showForest := true) else p
    case ViewDisputes => if p.info.Some? then p.(showDisputes := true) else p
    case PickDispute(d) => p.(dispute := Some(d), showDetails := true, showDisputes := false)
    case Report(i) =>
      (match ReportOpens(p, t, i)
       case Some(d) => p.(dispute := Some(d), showDetails := true)
       case None => p)
    case CloseForest => p.(showForest := false)
    case CloseDisputes => p.(showDisputes := false)
    case CloseDetails => p.(showDetails := false)
  }

  /** The districts the page has forest analysis data for. */
  const ForestDataDistricts: set<string> := {"Chhindwara", "Bhopal", "Indore"}

  /** Jabalpur, which the sidebar offers, has no forest analysis: after
      selecting it, "Analyze Forest Data" opens nothing. */
  lemma JabalpurForestDisabled(p: Page, t: Tables)
    requires t.forestData == ForestDataDistricts && !p.showForest
    ensures !Step(Step(p, t, SelectDistrict("Jabalpur")), t, AnalyzeForest).showForest
  {
  }

  function Run(p: Page, t: Tables, actions: seq<Action>): (r: Page)
    ensures (forall i :: 0 <= i < |actions| ==> !actions[i].SelectDistrict?) ==> r.highlight == p.highlight
    decreases |actions|
  {
    if actions == [] then p else Run(Step(p, t, actions[0]), t, actions[1..])
  }

  /** What every run from the initial page keeps: at most one highlighted
      polygon, and a modal flag raised only after some district was
      selected. */
  predicate PageInvariant(p: Page) {
    AtMostOneHighlighted(p.highlight)
    && (p.info.Some? ==> p.highlight.current.Some?)
    && ((p.showForest || p.showDisputes) ==> p.highlight.current.Some?)
  }

  lemma StepKeepsInvariant(p: Page, t: Tables, a: Action)
    requires PageInvariant(p)
    ensures PageInvariant(Step(p, t, a))
  {
    if a.SelectDistrict? {
      HighlightStaysSingle(p.highlight, t.polygons, a.name);
    }
  }

  lemma {:induction false} RunKeepsInvariant(p: Page, t: Tables, actions: seq<Action>)
    requires PageInvariant(p)
    ensures PageInvariant(Run(p, t, actions))
    decreases |actions|
  {
    if actions != [] {
      StepKeepsInvariant(p, t, actions[0]);
      RunKeepsInvariant(Step(p, t, actions[0]), t, actions[1..]);
    }
  }

  /** From the initial page, no run highlights two districts, and the forest
      and disputes modals open only once a district has been selected. */
  lemma PageRunsAreSafe(t: Tables, actions: seq<Action>)
    ensures PageInvariant(Run(InitialPage, t, actions))
    ensures |Run(InitialPage, t, actions).highlight.highlighted| <= 1
  {
    RunKeepsInvariant(InitialPage, t, actions);
    var h := Run(InitialPage, t, actions).highlight;
    assert h.highlighted <= (if h.selected.Some? then {h.selected.value} else {});
    if h.selected.Some? {
      SubsetOfSingleton(h.highlighted, h.selected.value);
    }
  }

  lemma SubsetOfSingleton(s: set<string>, x: string)
    requires s <= {x}
    ensures |s| <= 1
  {
    if s != {} {
      assert s == {x};
    }
  }
}

=== FILE: base.dfy ===
/** Shared vocabulary: an Option type and the handful of JavaScript string
    operations the dashboard relies on (whitespace class, trim, includes,
    startsWith, ASCII case folding, join, number-to-string). */
module Base {

  datatype Option<+T> = None | Some(value: T)

  /** ECMAScript WhiteSpace and LineTerminator code points: the set matched by
      the regex class `\s` and stripped by `String.prototype.trim`. */
  predicate IsSpace(c: char) {
    || c == '\t' || c == '\n' || c == '\U{000B}' || c == '\U{000C}' || c == '\r'
    || c == ' ' || c == '\U{00A0}' || c == '\U{1680}'
    || ('\U{2000}' <= c <= '\U{200A}')
    || c == '\U{2028}' || c == '\U{2029}' || c == '\U{202F}' || c == '\U{205F}'
    || c == '\U{3000}' || c == '\U{FEFF}'
  }

  predicate IsUpper(c: char) { 'A' <= c <= 'Z' }

  predicate IsLower(c: char) { 'a' <= c <= 'z' }

  /** The regex class `[A-Za-z]` (also under the `i` flag). */
  predicate IsLetter(c: char) { IsUpper(c) || IsLower(c) }

  /** ASCII lower-casing of one character; every other character is kept. */
  function Fold(c: char): (r: char)
    ensures IsUpper(c) ==> IsLower(r) && r as int == c as int + 32
    ensures !IsUpper(c) ==> r == c
  {
    if IsUpper(c) then (c as int + 32) as char else c
  }

  /** ASCII upper-casing of one character; every other character is kept. */
  function Raise(c: char): (r: char)
    ensures IsLower(c) ==> IsUpper(r) && r as int + 32 == c as int
    ensures !IsLower(c) ==> r == c
  {
    if IsLower(c) then (c as int - 32) as char else c
  }

  /** `toLowerCase`, restricted to ASCII letters. */
  function Lower(s: string): (r: string)
    ensures |r| == |s|
    ensures forall i :: 0 <= i < |s| ==> r[i] == Fold(s[i])
  {
    seq(|s|, i requires 0 <= i < |s| => Fold(s[i]))
  }

  /** `s[t]` when `t` is an index of `s`, and NUL otherwise. */
  function CharAt(s: string, t: int): char {
    if 0 <= t < |s| then s[t] else '\0'
  }

  predicate StartsWith(s: string, prefix: string) {
    |prefix| <= |s| && s[..|prefix|] == prefix
  }

  predicate OccursAt(s: string, sub: string, i: int) {
    0 <= i && i + |sub| <= |s| && s[i..i + |sub|] == sub
  }

  /** `String.prototype.includes`. */
  predicate Contains(s: string, sub: string) {
    exists i :: 0 <= i <= |s| - |sub| && OccursAt(s, sub, i)
  }

  lemma EmptyIsContained(s: string)
    ensures Contains(s, "")
  {
    assert OccursAt(s, "", 0);
  }

  /** Index just past the leading whitespace of `s[from..]`. */
  function SkipSpaces(s: string, from: nat): (m: nat)
    requires from <= |s|
    ensures from <= m <= |s|
    ensures forall t :: from <= t < m ==> IsSpace(s[t])
    ensures m < |s| ==> !IsSpace(s[m])
    decreases |s| - from
  {
    if from < |s| && IsSpace(s[from]) then SkipSpaces(s, from + 1) else from
  }

  /** The whitespace run starting at `from` ends exactly at `m`. */
  lemma SkipSpacesAt(s: string, from: nat, m: nat)
    requires from <= m <= |s| && forall t :: from <= t < m ==> IsSpace(s[t])
    requires m < |s| ==> !IsSpace(s[m])
    ensures SkipSpaces(s, from) == m
  {
    var r := SkipSpaces(s, from);
    assert r < m ==> IsSpace(CharAt(s, r));
    assert r > m ==> IsSpace(CharAt(s, m));
  }

  /** Index of the last non-whitespace character plus one, looking only at `s[lo..hi]`. */
  function TrimEnd(s: string, lo: nat, hi: nat): (e: nat)
    requires lo <= hi <= |s|
    ensures lo <= e <= hi
    ensures forall t :: e <= t < hi ==> IsSpace(s[t])
    ensures e > lo ==> !IsSpace(s[e - 1])
    decreases hi
  {
    if hi > lo && IsSpace(s[hi - 1]) then TrimEnd(s, lo, hi - 1) else hi
  }

  /** `String.prototype.trim`: strips whitespace at both ends. The result is the
      slice between the first and the last non-whitespace character. */
  function Trim(s: string): (r: string)
    ensures exists a, b :: 0 <= a <= b <= |s| && r == s[a..b]
                           && (forall t :: 0 <= t < a ==> IsSpace(s[t]))
                           && (forall t :: b <= t < |s| ==> IsSpace(s[t]))
    ensures r != [] ==> !IsSpace(r[0]) && !IsSpace(r[|r| - 1])
    ensures r == [] <==> forall t :: 0 <= t < |s| ==> IsSpace(s[t])
  {
    var a := SkipSpaces(s, 0);
    var b := TrimEnd(s, a, |s|);
    assert b > a ==> !IsSpace(s[a]);
    s[a..b]
  }

  /** Trimming a string that has no whitespace at either end changes nothing. */
  lemma TrimNoOp(s: string)
    requires s != [] ==> !IsSpace(s[0]) && !IsSpace(s[|s| - 1])
    ensures Trim(s) == s
  {
  }

  /** `Array.prototype.join(sep)` over strings. */
  function Join(parts: seq<string>, sep: string): (r: string)
    ensures parts == [] ==> r == ""
    ensures |parts| == 1 ==> r == parts[0]
    ensures |parts| >= 1 ==> StartsWith(r, parts[0])
    ensures |r| == (if parts == [] then 0 else SumLengths(parts) + (|parts| - 1) * |sep|)
  {
    if parts == [] then ""
    else if |parts| == 1 then parts[0]
    else parts[0] + sep + Join(parts[1..], sep)
  }

  /** Joining two non-empty lists is joining each and putting one separator
      between them: with `Join([x]) == x` this fixes every character of the
      result. */
  lemma {:induction false} JoinAppend(a: seq<string>, b: seq<string>, sep: string)
    requires a != [] && b != []
    ensures Join(a + b, sep) == Join(a, sep) + sep + Join(b, sep)
  {
    assert (a + b)[0] == a[0];
    if |a| == 1 {
      assert (a + b)[1..] == b;
    } else {
      assert (a + b)[1..] == a[1..] + b;
      JoinAppend(a[1..], b, sep);
      var x, y := Join(a[1..], sep), Join(b, sep);
      assert a[0] + sep + (x + sep + y) == (a[0] + sep + x) + sep + y;
    }
  }

  function SumLengths(parts: seq<string>): nat {
    if parts == [] then 0 else |parts[0]| + SumLengths(parts[1..])
  }

  function DigitChar(d: nat): char
    requires d < 10
  {
    ('0' as int + d) as char
  }

  /** Decimal rendering of a natural number, as JavaScript template strings do. */
  function NatToString(n: nat): (r: string)
    ensures |r| >= 1
    ensures forall t :: 0 <= t < |r| ==> '0' <= r[t] <= '9'
    ensures n >= 10 ==> r[0] != '0'
    decreases n
  {
    if n < 10 then [DigitChar(n)] else NatToString(n / 10) + [DigitChar(n % 10)]
  }

  /** Reads back a string of decimal digits; the inverse of NatToString. */
  function ParseDigits(s: string): nat
    requires forall t :: 0 <= t < |s| ==> '0' <= s[t] <= '9'
  {
    if s == [] then 0 else ParseDigits(s[..|s| - 1]) * 10 + (s[|s| - 1] as int - '0' as int)
  }

  lemma {:induction false} NatToStringRoundTrip(n: nat)
    ensures ParseDigits(NatToString(n)) == n
    decreases n
  {
    if n >= 10 {
      var r := NatToString(n);
      var p := NatToString(n / 10);
      assert r == p + [DigitChar(n % 10)];
      assert r[..|r| - 1] == p;
      NatToStringRoundTrip(n / 10);
    }
  }

  predicate AllDigits(s: string) {
    forall t :: 0 <= t < |s| ==> '0' <= s[t] <= '9'
  }

  /** Reads back the text of an integer: an optional minus sign, then at
      least one digit; anything else is not an integer. */
  function ParseInt(s: string): Option<int> {
    var negative := s != [] && s[0] == '-';
    var digits := if negative then s[1..] else s;
    if digits == [] || !AllDigits(digits) then None
    else if negative then Some(-(ParseDigits(digits) as int))
    else Some(ParseDigits(digits))
  }

  /** Decimal rendering of an integer, as JavaScript template strings do:
      a minus sign exactly for negative numbers, and the text reads back. */
  function IntToString(i: int): (r: string)
    ensures r != [] && (r[0] == '-' <==> i < 0)
    ensures ParseInt(r) == Some(i)
  {
    if i >= 0 then
      NatToStringRoundTrip(i);
      NatToString(i)
    else
      var d := NatToString(-i);
      NatToStringRoundTrip(-i);
      assert ("-" + d)[1..] == d;
      "-" + d
  }

  /** The ECMAScript line terminators, which the regex `.` does not match. */
  predicate IsLineTerminator(c: char) {
    c == '\n' || c == '\r' || c == '\U{2028}' || c == '\U{2029}'
  }

  /** `replace(/([A-Z])/g, " $1")`: a space inserted before every ASCII capital. */
  function SpaceBeforeCapitals(s: string): (r: string)
    ensures |r| >= |s|
    ensures forall i {:trigger IsUpper(r[i])} :: 0 <= i < |r| && IsUpper(r[i]) ==> i > 0 && r[i - 1] == ' '
    ensures s != [] && !IsUpper(s[0]) ==> r != [] && r[0] == s[0]
  {
    if s == [] then ""
    else (if IsUpper(s[0]) then [' ', s[0]] else [s[0]]) + SpaceBeforeCapitals(s[1..])
  }

  /** The insertion works character by character. */
  lemma {:induction false} SpaceBeforeCapitalsAppend(a: string, b: string)
    ensures SpaceBeforeCapitals(a + b) == SpaceBeforeCapitals(a) + SpaceBeforeCapitals(b)
  {
    if a != [] {
      var h := if IsUpper(a[0]) then [' ', a[0]] else [a[0]];
      assert (a + b)[0] == a[0];
      assert (a + b)[1..] == a[1..] + b;
      assert SpaceBeforeCapitals(a + b) == h + SpaceBeforeCapitals(a[1..] + b);
      assert SpaceBeforeCapitals(a) == h + SpaceBeforeCapitals(a[1..]);
      SpaceBeforeCapitalsAppend(a[1..], b);
      var x, y := SpaceBeforeCapitals(a[1..]), SpaceBeforeCapitals(b);
      assert h + (x + y) == (h + x) + y;
    } else {
      assert a + b == b;
    }
  }

  /** Text without capitals is left alone. */
  lemma {:induction false} NoCapitalsUnchanged(s: string)
    requires forall i :: 0 <= i < |s| ==> !IsUpper(s[i])
    ensures SpaceBeforeCapitals(s) == s
  {
    if s != [] {
      NoCapitalsUnchanged(s[1..]);
      assert [s[0]] + s[1..] == s;
    }
  }

  /** Every space removed; undoes SpaceBeforeCapitals on text without spaces. */
  function RemoveSpaces(s: string): (r: string)
    ensures forall i :: 0 <= i < |r| ==> r[i] != ' '
  {
    if s == [] then "" else (if s[0] == ' ' then "" else [s[0]]) + RemoveSpaces(s[1..])
  }

  lemma {:induction false} SpaceBeforeCapitalsRoundTrip(s: string)
    requires forall i :: 0 <= i < |s| ==> s[i] != ' '
    ensures RemoveSpaces(SpaceBeforeCapitals(s)) == s
  {
    if s != [] {
      SpaceBeforeCapitalsRoundTrip(s[1..]);
      var rest := SpaceBeforeCapitals(s[1..]);
      if IsUpper(s[0]) {
        var r := [' ', s[0]] + rest;
        assert r[1..] == [s[0]] + rest;
        assert ([s[0]] + rest)[1..] == rest;
      } else {
        assert ([s[0]] + rest)[1..] == rest;
      }
    }
  }

  /** A camel-case identifier starting with a lower-case letter. */
  predicate IsCamelKey(key: string) {
    key != [] && IsLower(key[0]) && forall i :: 0 <= i < |key| ==> key[i] != ' '
  }

  /** A lower-case word followed by a capitalised word gets one space
      between them. */
  lemma TwoWordSpacing(first: string, second: string)
    requires forall i :: 0 <= i < |first| ==> IsLower(first[i])
    requires second != [] && IsUpper(second[0])
    requires forall i :: 1 <= i < |second| ==> IsLower(second[i])
    ensures SpaceBeforeCapitals(first + second) == first + " " + second
  {
    assert forall i :: 0 <= i < |first| ==> !IsUpper(first[i]);
    NoCapitalsUnchanged(first);
    CapitalWordSpacing(second);
    SpacedPair(first, second);
  }

  /** Two parts each spaced on their own are spaced the same way together. */
  lemma SpacedPair(first: string, second: string)
    requires SpaceBeforeCapitals(first) == first
    requires SpaceBeforeCapitals(second) == " " + second
    ensures SpaceBeforeCapitals(first + second) == first + " " + second
  {
    SpaceBeforeCapitalsAppend(first, second);
    assert first + (" " + second) == first + " " + second;
  }

  /** A capitalised word gets one space in front of it. */
  lemma CapitalWordSpacing(w: string)
    requires w != [] && IsUpper(w[0])
    requires forall i :: 1 <= i < |w| ==> IsLower(w[i])
    ensures SpaceBeforeCapitals(w) == " " + w
  {
    var tail := w[1..];
    NoCapitalsUnchanged(tail);
    var h: string := [' ', w[0]];
    assert SpaceBeforeCapitals(w) == h + tail;
    assert |h + tail| == |" " + w|;
    forall i | 0 <= i < |h + tail| ensures (h + tail)[i] == (" " + w)[i] {
      if i >= 2 { assert (h + tail)[i] == tail[i - 2] == w[i - 1]; }
    }

  }

  /** `replace(/^./, (str) => str.toUpperCase())`, with ASCII upper-casing: the
      first character is upper-cased unless it is a line terminator. */
  function UpperFirst(s: string): (r: string)
    ensures |r| == |s|
    ensures s != [] ==> r[1..] == s[1..]
    ensures s != [] && !IsLineTerminator(s[0]) ==> r[0] == Raise(s[0])
    ensures s == [] || IsLineTerminator(s[0]) ==> r == s
  {
    if s != [] && !IsLineTerminator(s[0]) then [Raise(s[0])] + s[1..] else s
  }

  /** The first character lower-cased; undoes UpperFirst on a lower-case start. */
  function LowerFirst(s: string): (r: string)
    ensures |r| == |s|
  {
    if s == [] then s else [Fold(s[0])] + s[1..]
  }

  /** One line a generated PDF report writes, at vertical position `y`. */
  datatype ReportLine = ReportLine(y: nat, text: string)

  datatype Report = Report(title: string, lines: seq<ReportLine>, fileName: string)

  /** `Array.prototype.filter`: the elements satisfying `p`, in their original order. */
  function Filter<T>(s: seq<T>, p: T -> bool): (r: seq<T>)
    ensures |r| <= |s|
    ensures forall i :: 0 <= i < |r| ==> r[i] in s && p(r[i])
    ensures forall i :: 0 <= i < |s| && p(s[i]) ==> s[i] in r
  {
    if s == [] then [] else (if p(s[0]) then [s[0]] else []) + Filter(s[1..], p)
  }

  /** Filtering distributes over concatenation; together with the one-element
      case this pins the order of the result down completely. */
  lemma {:induction false} FilterAppend<T>(a: seq<T>, b: seq<T>, p: T -> bool)
    ensures Filter(a + b, p) == Filter(a, p) + Filter(b, p)
  {
    if a == [] {
      assert a + b == b;
    } else {
      assert (a + b)[0] == a[0];
      assert (a + b)[1..] == a[1..] + b;
      FilterAppend(a[1..], b, p);
    }
  }

  /** `a` is `b` with some elements left out and the rest in their order. */
  ghost predicate IsSubsequence<T>(a: seq<T>, b: seq<T>)
    decreases |b|
  {
    a == [] || (b != [] && ((a[0] == b[0] && IsSubsequence(a[1..], b[1..])) || IsSubsequence(a, b[1..])))
  }

  /** A filter only leaves elements out: what it keeps stays in order. */
  lemma {:induction false} FilterIsSubsequence<T>(s: seq<T>, p: T -> bool)
    ensures IsSubsequence(Filter(s, p), s)
  {
    if s != [] {
      FilterIsSubsequence(s[1..], p);
      var rest := Filter(s[1..], p);
      if p(s[0]) {
        assert Filter(s, p) == [s[0]] + rest;
        assert ([s[0]] + rest)[1..] == rest;
      } else {
        assert Filter(s, p) == [] + rest == rest;
      }
    }
  }

  /** A filter every element passes returns the sequence unchanged. */
  lemma {:induction false} FilterKeepsAll<T>(s: seq<T>, p: T -> bool)
    requires forall i :: 0 <= i < |s| ==> p(s[i])
    ensures Filter(s, p) == s
  {
    if s != [] {
      FilterKeepsAll(s[1..], p);
      assert [s[0]] + s[1..] == s;
    }
  }
}

=== FILE: claim_details.dfy ===
/** The claim status page: a claim looked up by id or name in a small
    database, shown as eight editable details, three scores, a vulnerability
    bar that counts up to the claim's figure, and an audit log to which every
    export, save and load prepends one entry. The PDF writer and the clock are
    outside the model: the export is the list of lines it would write, and
    each timestamp arrives as a parameter. */
module ClaimDetails {
  import opened Base

  datatype HistoricalClaim = HistoricalClaim(claimId: string, date: string, status: string)

  datatype ClaimRecord = ClaimRecord(
    claimId: string, name: string, village: string, district: string, state: string,
    claimType: string, area: string, date: string,
    overallScore: string, landSuitability: string, communityNeed: string,
    vulnerability: int, status: seq<string>, history: seq<HistoricalClaim>)

  // ---------------------------------------------------------------------------
  // Editable details

  /** The editable details, one per entry of the display-name map. */
  datatype DetailKey = ClaimIdKey | NameKey | VillageKey | DistrictKey | StateKey
                     | ClaimTypeKey | AreaKey | DateKey

  /** The map's entries in declaration order. */
  const DetailKeys: seq<DetailKey> :=
    [ClaimIdKey, NameKey, VillageKey, DistrictKey, StateKey, ClaimTypeKey, AreaKey, DateKey]

  lemma DetailKeysListEachKeyOnce()
    ensures forall k: DetailKey :: k in DetailKeys
    ensures forall i, j :: 0 <= i < j < |DetailKeys| ==> DetailKeys[i] != DetailKeys[j]
  {
    forall k: DetailKey
      ensures k in DetailKeys
    {
      match k
      case ClaimIdKey => assert DetailKeys[0] == k;
      case NameKey => assert DetailKeys[1] == k;
      case VillageKey => assert DetailKeys[2] == k;
      case DistrictKey => assert DetailKeys[3] == k;
      case StateKey => assert DetailKeys[4] == k;
      case ClaimTypeKey => assert DetailKeys[5] == k;
      case AreaKey => assert DetailKeys[6] == k;
      case DateKey => assert DetailKeys[7] == k;
    }
  }

  function DisplayName(k: DetailKey): string {
    match k
    case ClaimIdKey => "Claim ID"
    case NameKey => "Claimant Name"
    case VillageKey => "Village"
    case DistrictKey => "District"
    case StateKey => "State"
    case ClaimTypeKey => "Claim Type"
    case AreaKey => "Area (ha)"
    case DateKey => "Date of Application"
  }

  function Get(c: ClaimRecord, k: DetailKey): string {
    match k
    case ClaimIdKey => c.claimId
    case NameKey => c.name
    case VillageKey => c.village
    case DistrictKey => c.district
    case StateKey => c.state
    case ClaimTypeKey => c.claimType
    case AreaKey => c.area
    case DateKey => c.date
  }

  /** `handleInputChange`: the one detail takes the typed value. */
  function SetDetail(c: ClaimRecord, k: DetailKey, v: string): (r: ClaimRecord)
    ensures Get(r, k) == v
    ensures forall other :: other != k ==> Get(r, other) == Get(c, other)
    ensures r.vulnerability == c.vulnerability && r.status == c.status && r.history == c.history
    ensures r.overallScore == c.overallScore && r.landSuitability == c.landSuitability
            && r.communityNeed == c.communityNeed
  {
    match k
    case ClaimIdKey => c.(claimId := v)
    case NameKey => c.(name := v)
    case VillageKey => c.(village := v)
    case DistrictKey => c.(district := v)
    case StateKey => c.(state := v)
    case ClaimTypeKey => c.(claimType := v)
    case AreaKey => c.(area := v)
    case DateKey => c.(date := v)
  }

  /** Typing back the old value restores the record. */
  lemma SetDetailRestores(c: ClaimRecord, k: DetailKey, v: string)
    ensures SetDetail(SetDetail(c, k, v), k, Get(c, k)) == c
  {
  }

  // ---------------------------------------------------------------------------
  // Lookup

  const DefaultClaimId := "FRA-2023-00123"

  const ClaimDatabase: seq<ClaimRecord> := [
    ClaimRecord("FRA-2023-00123", "Rajesh Kumar", "Amgaon", "Chandrapur", "Maharashtra",
                "Individual", "2.5 ha", "2023-05-15", "85/100", "92/100", "78/100", 65,
                ["Verified", "Approved", "Land Allotted"],
                [HistoricalClaim("FRA-2022-00987", "2022-07-12", "Completed"),
                 HistoricalClaim("FRA-2021-00456", "2021-11-23", "Rejected"),
                 HistoricalClaim("FRA-2020-00321", "2020-05-18", "Pending")]),
    ClaimRecord("6020/2010", "Baikuntha Majhi", "Sankiriguda", "Kalahandi", "Odisha",
                "Individual", "0.607 ha", "2010-01-01", "90/100", "95/100", "85/100", 80,
                ["Approved", "Land Allotted"], [])
  ]

  /** The lower-cased id equals the lower-cased query, or the lower-cased name
      contains it. */
  predicate QueryMatches(c: ClaimRecord, query: string) {
    Lower(c.claimId) == Lower(query) || Contains(Lower(c.name), Lower(query))
  }

  /** Index of the first record from `from` on that the query matches. */
  function FindFrom(db: seq<ClaimRecord>, query: string, from: nat): (r: Option<nat>)
    requires from <= |db|
    ensures r.Some? ==> from <= r.value < |db| && QueryMatches(db[r.value], query)
                        && forall j :: from <= j < r.value ==> !QueryMatches(db[j], query)
    ensures r.None? ==> forall j :: from <= j < |db| ==> !QueryMatches(db[j], query)
    decreases |db| - from
  {
    if from == |db| then None
    else if QueryMatches(db[from], query) then Some(from)
    else FindFrom(db, query, from + 1)
  }

  /** `getClaimData`: the first record the query matches, if any. */
  function GetClaimData(db: seq<ClaimRecord>, query: string): (r: Option<ClaimRecord>)
    ensures r.Some? ==> exists i :: 0 <= i < |db| && db[i] == r.value && QueryMatches(db[i], query)
                          && forall j :: 0 <= j < i ==> !QueryMatches(db[j], query)
    ensures r.None? <==> forall j :: 0 <= j < |db| ==> !QueryMatches(db[j], query)
  {
    match FindFrom(db, query, 0)
    case None => None
    case Some(i) => Some(db[i])
  }

  /** An empty query is contained in every name, so it finds the first record. */
  lemma EmptyQueryFindsFirst(db: seq<ClaimRecord>)
    requires db != []
    ensures GetClaimData(db, "") == Some(db[0])
  {
    EmptyIsContained(Lower(db[0].name));
  }

  /** The first record's own id finds it. */
  lemma OwnIdFindsFirst(db: seq<ClaimRecord>)
    requires db != []
    ensures GetClaimData(db, db[0].claimId) == Some(db[0])
  {
  }

  /** The page opens on the first record of the database. */
  lemma DefaultIdFindsFirstRecord()
    ensures GetClaimData(ClaimDatabase, DefaultClaimId) == Some(ClaimDatabase[0])
  {
    OwnIdFindsFirst(ClaimDatabase);
  }

  /** Only the lower-cased query matters. */
  lemma LookupIgnoresQueryCase(db: seq<ClaimRecord>, q1: string, q2: string)
    requires Lower(q1) == Lower(q2)
    ensures GetClaimData(db, q1) == GetClaimData(db, q2)
  {
    var a := FindFrom(db, q1, 0);
    var b := FindFrom(db, q2, 0);
    assert forall j :: 0 <= j < |db| ==> QueryMatches(db[j], q1) == QueryMatches(db[j], q2);
    if a.Some? && b.Some? {
      assert !(a.value < b.value) && !(b.value < a.value);
    }
  }

  // ---------------------------------------------------------------------------
  // Vulnerability bar

  /** One interval tick: count up by one until the target is reached. */
  function Tick(percent: int, target: int): (r: int)
    ensures percent < target ==> r == percent + 1
    ensures percent >= target ==> r == percent
  {
    if percent < target then percent + 1 else percent
  }

  /** The bar after `n` ticks from the restart at 0. */
  function TicksFromZero(target: int, n: nat): int {
    if n == 0 then 0 else Tick(TicksFromZero(target, n - 1), target)
  }

  /** After `n` ticks the bar shows `n`, capped at the target (and 0 for a
      negative target): it never overshoots. */
  lemma {:induction false} BarCountsUpToTarget(target: int, n: nat)
    ensures TicksFromZero(target, n) == if target <= 0 then 0 else if n <= target then n else target
  {
    if n > 0 {
      BarCountsUpToTarget(target, n - 1);
    }
  }

  // ---------------------------------------------------------------------------
  // Export

  /** `Label: value` for each detail, in the map's order. */
  function DetailLines(c: ClaimRecord): (r: seq<string>)
    ensures |r| == |DetailKeys|
  {
    seq(|DetailKeys|, i requires 0 <= i < |DetailKeys| =>
      DisplayName(DetailKeys[i]) + ": " + Get(c, DetailKeys[i]))
  }

  /** The lines the export writes, top to bottom. */
  function ExportLines(c: ClaimRecord): (r: seq<string>)
    ensures |r| == |DetailKeys| + 5
    ensures r[..|DetailKeys|] == DetailLines(c)
  {
    DetailLines(c) + [
      "Overall Score: " + c.overallScore,
      "Land Suitability: " + c.landSuitability,
      "Community Need: " + c.communityNeed,
      "Vulnerability: " + IntToString(c.vulnerability) + "%",
      "Status: " + Join(c.status, ", ")
    ]
  }

  /** The report: a centred title, then the lines 10 apart from y = 40. */
  function ExportReport(c: ClaimRecord): (r: Report)
    ensures r.title == "Claim Report"
    ensures r.fileName == c.claimId + "_Report.pdf"
    ensures |r.lines| == |DetailKeys| + 5
    ensures forall i :: 0 <= i < |r.lines| ==> r.lines[i].y == 40 + 10 * i
    ensures forall i :: 0 <= i < |r.lines| ==> r.lines[i].text == ExportLines(c)[i]
  {
    var lines := ExportLines(c);
    Report("Claim Report",
           seq(|lines|, i requires 0 <= i < |lines| => ReportLine(40 + 10 * i, lines[i])),
           c.claimId + "_Report.pdf")
  }

  /** What follows `caption: ` on a report line, if the line starts with it. */
  function ValueAfter(line: string, caption: string): Option<string> {
    var head := caption + ": ";
    if StartsWith(line, head) then Some(line[|head|..]) else None
  }

  /** Every value can be read back from its line of the report, each line
      under its own caption and in the declared order. */
  lemma ExportReadsBack(c: ClaimRecord)
    ensures var r := ExportReport(c);
              && (forall i :: 0 <= i < |DetailKeys| ==>
                    ValueAfter(r.lines[i].text, DisplayName(DetailKeys[i])) == Some(Get(c, DetailKeys[i])))
              && ValueAfter(r.lines[8].text, "Overall Score") == Some(c.overallScore)
              && ValueAfter(r.lines[9].text, "Land Suitability") == Some(c.landSuitability)
              && ValueAfter(r.lines[10].text, "Community Need") == Some(c.communityNeed)
              && ValueAfter(r.lines[11].text, "Vulnerability") == Some(IntToString(c.vulnerability) + "%")
              && ValueAfter(r.lines[12].text, "Status") == Some(Join(c.status, ", "))
  {
    DetailLinesReadBack(c);
    ScoreLinesReadBack(c);
  }

  /** The first lines: each detail under its display name. */
  lemma DetailLinesReadBack(c: ClaimRecord)
    ensures forall i :: 0 <= i < |DetailKeys| ==>
              ValueAfter(ExportLines(c)[i], DisplayName(DetailKeys[i])) == Some(Get(c, DetailKeys[i]))
  {
    var lines := ExportLines(c);
    forall i | 0 <= i < |DetailKeys|
      ensures ValueAfter(lines[i], DisplayName(DetailKeys[i])) == Some(Get(c, DetailKeys[i]))
    {
      ReadsBack(DisplayName(DetailKeys[i]), Get(c, DetailKeys[i]));
    }
  }

  /** The five closing lines: the scores, the vulnerability and the statuses. */
  lemma ScoreLinesReadBack(c: ClaimRecord)
    ensures ValueAfter(ExportLines(c)[8], "Overall Score") == Some(c.overallScore)
    ensures ValueAfter(ExportLines(c)[9], "Land Suitability") == Some(c.landSuitability)
    ensures ValueAfter(ExportLines(c)[10], "Community Need") == Some(c.communityNeed)
    ensures ValueAfter(ExportLines(c)[11], "Vulnerability") == Some(IntToString(c.vulnerability) + "%")
    ensures ValueAfter(ExportLines(c)[12], "Status") == Some(Join(c.status, ", "))
  {
    ClosingLinesReadBack(DetailLines(c), c.overallScore, c.landSuitability, c.communityNeed,
                         IntToString(c.vulnerability), Join(c.status, ", "));
  }

  /** The closing lines read back, whatever the values they carry. */
  lemma ClosingLinesReadBack(head: seq<string>, overall: string, land: string, need: string,
                             vulnerability: string, status: string)
    ensures var lines := head + [
              "Overall Score: " + overall,
              "Land Suitability: " + land,
              "Community Need: " + need,
              "Vulnerability: " + vulnerability + "%",
              "Status: " + status];
            && ValueAfter(lines[|head|], "Overall Score") == Some(overall)
            && ValueAfter(lines[|head| + 1], "Land Suitability") == Some(land)
            && ValueAfter(lines[|head| + 2], "Community Need") == Some(need)
            && ValueAfter(lines[|head| + 3], "Vulnerability") == Some(vulnerability + "%")
            && ValueAfter(lines[|head| + 4], "Status") == Some(status)
  {
    ReadsBack("Overall Score", overall);
    ReadsBack("Land Suitability", land);
    ReadsBack("Community Need", need);
    assert "Vulnerability: " + vulnerability + "%" == "Vulnerability" + ": " + (vulnerability + "%");
    ReadsBack("Vulnerability", vulnerability + "%");
    ReadsBack("Status", status);
  }

  lemma ReadsBack(caption: string, value: string)
    ensures ValueAfter(caption + ": " + value, caption) == Some(value)
  {
    var head := caption + ": ";
    assert (head + value)[..|head|] == head;
    assert (head + value)[|head|..] == value;
  }

  // ---------------------------------------------------------------------------
  // The page

  /** `loading` holds the query captured when Load was pressed, while the
      delayed lookup is pending. */
  datatype Page = Page(
    claim: ClaimRecord, editing: bool, query: string, loading: Option<string>,
    log: seq<string>, percent: int)

  const InitialLog: seq<string> := [
    "Exported PDF report on 2025-10-05",
    "Approved claim FRA-2023-00123",
    "Edited claimant details on 2025-10-07"
  ]

  function InitialPage(): (p: Page)
    ensures Some(p.claim) == GetClaimData(ClaimDatabase, DefaultClaimId)
    ensures !p.editing && p.loading.None? && p.percent == 0 && p.query == DefaultClaimId
  {
    DefaultIdFindsFirstRecord();
    Page(ClaimDatabase[0], false, DefaultClaimId, None, InitialLog, 0)
  }

  datatype Action =
    | Export(now: string)
    | EditButton(now: string)
    | CancelButton
    | Input(key: DetailKey, value: string)
    | TypeQuery(query: string)
    | PressLoad
    | LoadFires(time: string)
    | BarTick

  /** The audit entries, each stamped with the clock reading it is given. */
  function ExportEntry(c: ClaimRecord, now: string): string {
    "Exported report " + c.claimId + " at " + now
  }

  function SaveEntry(c: ClaimRecord, now: string): string {
    "Updated claimant details for " + c.claimId + " on " + now
  }

  function LoadedEntry(c: ClaimRecord, time: string): string {
    "Loaded claim " + c.claimId + " (Name: " + c.name + ") at " + time
  }

  function FailedEntry(query: string, time: string): string {
    "Claim search failed for \"" + query + "\" at " + time
  }

  /** The delayed lookup: on a hit the claim is replaced (and the bar
      restarts when the vulnerability differs); on a miss the claim stays. */
  function FinishLoad(p: Page, query: string, time: string): (r: Page)
    ensures r.loading.None? && r.editing == p.editing && r.query == p.query
    ensures match GetClaimData(ClaimDatabase, query)
            case Some(c) => r.claim == c && r.log == [LoadedEntry(c, time)] + p.log
            case None => r.claim == p.claim && r.log == [FailedEntry(query, time)] + p.log
                         && r.percent == p.percent
  {
    match GetClaimData(ClaimDatabase, query)
    case Some(c) =>
      p.(claim := c, loading := None, log := [LoadedEntry(c, time)] + p.log,
         percent := if c.vulnerability != p.claim.vulnerability then 0 else p.percent)
    case None =>
      p.(loading := None, log := [FailedEntry(query, time)] + p.log)
  }

  /** One user action or timer callback. The edit button saves while editing
      and starts editing otherwise; Cancel and the inputs exist only while
      editing; Load is disabled while a lookup is pending. The export needs
      the PDF library, and without it nothing happens. */
  function Step(p: Page, a: Action, pdfAvailable: bool): (r: Page)
    ensures r.claim != p.claim ==> (a.Input? && p.editing) || a.LoadFires?
    ensures r.editing != p.editing ==> a.EditButton? || a.CancelButton?
    ensures r.query == (if a.TypeQuery? then a.query else p.query)
    ensures a.PressLoad? ==> r.loading.Some? && (p.loading.Some? ==> r == p)
    ensures r.loading.None? && p.loading.Some? ==> a.LoadFires?
    ensures r.percent != p.percent ==> a.BarTick? || a.LoadFires?
  {
    match a
    case Export(now) =>
      if pdfAvailable then p.(log := [ExportEntry(p.claim, now)] + p.log) else p
    case EditButton(now) =>
      if p.editing then p.(editing := false, log := [SaveEntry(p.claim, now)] + p.log)
      else p.(editing := true)
    case CancelButton =>
      if p.editing then p.(editing := false) else p
    case Input(k, v) =>
      if p.editing then p.(claim := SetDetail(p.claim, k, v)) else p
    case TypeQuery(q) => p.(query := q)
    case PressLoad =>
      if p.loading.Some? then p else p.(loading := Some(p.query))
    case LoadFires(time) =>
      if p.loading.Some? then FinishLoad(p, p.loading.value, time) else p
    case BarTick => p.(percent := Tick(p.percent, p.claim.vulnerability))
  }

  /** The audit log only grows at the front: each step adds at most one entry
      and keeps every earlier one in order. Exactly the export, the save and
      the finished lookup add one. */
  lemma StepPrependsAtMostOne(p: Page, a: Action, pdfAvailable: bool)
    ensures var r := Step(p, a, pdfAvailable);
            && (r.log == p.log || (|r.log| == |p.log| + 1 && r.log[1..] == p.log))
            && (|r.log| == |p.log| + 1 <==>
                  || (a.Export? && pdfAvailable)
                  || (a.EditButton? && p.editing)
                  || (a.LoadFires? && p.loading.Some?))
  {
    var r := Step(p, a, pdfAvailable);
    if a.LoadFires? && p.loading.Some? {
      var q := p.loading.value;
      assert r == FinishLoad(p, q, a.time);
      match GetClaimData(ClaimDatabase, q)
      case Some(c) => PrependOne(LoadedEntry(c, a.time), p.log);
      case None => PrependOne(FailedEntry(q, a.time), p.log);
    } else if a.Export? && pdfAvailable {
      PrependOne(ExportEntry(p.claim, a.now), p.log);
    } else if a.EditButton? && p.editing {
      PrependOne(SaveEntry(p.claim, a.now), p.log);
    } else {
      assert r.log == p.log;
    }
  }


  /** One entry put in front of a log leaves the log as the tail. */
  lemma PrependOne(e: string, log: seq<string>)
    ensures |[e] + log| == |log| + 1 && ([e] + log)[1..] == log && [e] + log != log
  {
    assert |[e] + log| != |log|;
  }

  /** A run of steps. */
  function Run(p: Page, actions: seq<Action>, pdfAvailable: bool): (r: Page)
    ensures (forall i :: 0 <= i < |actions| ==> !actions[i].Input? && !actions[i].LoadFires?) ==> r.claim == p.claim
    ensures (forall i :: 0 <= i < |actions| ==> !actions[i].TypeQuery?) ==> r.query == p.query
    decreases |actions|
  {
    if actions == [] then p else Run(Step(p, actions[0], pdfAvailable), actions[1..], pdfAvailable)
  }

  /** Over any run the old log survives, unchanged, as the tail of the new one. */
  lemma {:induction false} RunKeepsLogTail(p: Page, actions: seq<Action>, pdfAvailable: bool)
    ensures var r := Run(p, actions, pdfAvailable);
            |r.log| >= |p.log| && r.log[|r.log| - |p.log|..] == p.log
            && |r.log| <= |p.log| + |actions|
    decreases |actions|
  {
    if actions != [] {
      var q := Step(p, actions[0], pdfAvailable);
      StepPrependsAtMostOne(p, actions[0], pdfAvailable);
      RunKeepsLogTail(q, actions[1..], pdfAvailable);
      var r := Run(q, actions[1..], pdfAvailable);
      assert Run(p, actions, pdfAvailable) == r;
      SuffixOfSuffix(r.log, q.log, p.log);
    }
  }

  /** A tail of `x` that has `z` as its own tail, or as its tail after one
      element, leaves `z` as a tail of `x`. */
  lemma SuffixOfSuffix(x: seq<string>, y: seq<string>, z: seq<string>)
    requires |x| >= |y| && x[|x| - |y|..] == y
    requires z == y || (|y| == |z| + 1 && y[1..] == z)
    ensures |x| >= |z| && x[|x| - |z|..] == z
  {
    if z != y {
      assert x[|x| - |z|..] == x[|x| - |y|..][1..];
    }
  }

  /** Cancel does not undo edits: a detail typed while editing is still there
      after Cancel. */
  lemma EditsSurviveCancel(p: Page, k: DetailKey, v: string, now: string)
    requires !p.editing
    ensures var r := Step(Step(Step(p, EditButton(now), false), Input(k, v), false), CancelButton, false);
            !r.editing && r.claim == SetDetail(p.claim, k, v) && r.log == p.log
  {
  }

  /** The lookup uses the query as it was when Load was pressed; typing while
      it is pending does not change which claim is loaded. */
  lemma LoadUsesPressedQuery(p: Page, typed: string, time: string)
    requires p.loading.None?
    ensures Step(Step(Step(p, PressLoad, false), TypeQuery(typed), false), LoadFires(time), false)
         == FinishLoad(p.(query := typed), p.query, time)
  {
  }
}

=== FILE: dashboard.dfy ===
/** The claims dashboard: the search filter over the claim list, the status
    tallies shown above it, the status update the review modal reports back,
    the modal's verification checklist and decision buttons, and the three
    badge-colour maps. */
module Dashboard {
  import opened Base

  datatype ChecklistItem = ChecklistItem(text: string, checked: bool)

  /** One row of the claim list. `notes` and `verification` are absent until a
      review has been reported for the claim. */
  datatype Claim = Claim(
    id: string, claimant: string, village: string, landArea: string,
    status: string, priority: string, submissionDate: string,
    claimType: string, district: string, state: string,
    notes: Option<string>, verification: Option<seq<ChecklistItem>>)

  // ---------------------------------------------------------------------------
  // Badge maps

  /** The class string every map falls back to, or (for the modal's status
      pill) the grey pill. */
  const GreyBadge := "bg-gray-100 text-gray-700"
  const GreyPill := "bg-gray-500"

  predicate IsPriority(priority: string) {
    priority == "High" || priority == "Medium" || priority == "Low"
  }

  predicate IsStatus(status: string) {
    status == "Pending" || status == "Verified" || status == "Approved" || status == "Rejected"
  }

  /** Badge of a recommended scheme's priority. */
  function PriorityClasses(priority: string): (r: string)
    ensures r == GreyBadge <==> !IsPriority(priority)
  {
    match priority
    case "High" => "bg-red-500 text-white"
    case "Medium" => "bg-yellow-500 text-gray-900"
    case "Low" => "bg-gray-200 text-gray-700"
    case _ => GreyBadge
  }

  /** Pill colour of the status shown in the review modal. */
  function StatusColor(status: string): (r: string)
    ensures r == GreyPill <==> !IsStatus(status)
  {
    match status
    case "Approved" => "bg-green-600"
    case "Rejected" => "bg-red-600"
    case "Pending" => "bg-yellow-500"
    case "Verified" => "bg-blue-500"
    case _ => GreyPill
  }

  /** Badge of a claim's status in the claim table. */
  function StatusClasses(status: string): (r: string)
    ensures r == GreyBadge <==> !IsStatus(status)
  {
    match status
    case "Pending" => "bg-yellow-100 text-yellow-700"
    case "Verified" => "bg-blue-100 text-blue-700"
    case "Approved" => "bg-green-100 text-green-700"
    case "Rejected" => "bg-red-100 text-red-700"
    case _ => GreyBadge
  }

  /** Distinct recognised values get distinct badges. */
  lemma BadgesDistinguishValues(a: string, b: string)
    ensures IsPriority(a) && IsPriority(b) && PriorityClasses(a) == PriorityClasses(b) ==> a == b
    ensures IsStatus(a) && IsStatus(b) && StatusColor(a) == StatusColor(b) ==> a == b
    ensures IsStatus(a) && IsStatus(b) && StatusClasses(a) == StatusClasses(b) ==> a == b
  {
  }

  // ---------------------------------------------------------------------------
  // Search filter

  /** The lower-cased id or the lower-cased claimant name contains the
      lower-cased search term. */
  predicate MatchesSearch(c: Claim, term: string) {
    Contains(Lower(c.id), Lower(term)) || Contains(Lower(c.claimant), Lower(term))
  }

  /** `filteredClaims`: the whole list for an empty term, otherwise the
      matching claims in list order. */
  function FilterClaims(claims: seq<Claim>, term: string): (r: seq<Claim>)
    ensures |r| <= |claims|
    ensures term == "" ==> r == claims
    ensures forall i :: 0 <= i < |r| ==> r[i] in claims && MatchesSearch(r[i], term)
    ensures forall i :: 0 <= i < |claims| && MatchesSearch(claims[i], term) ==> claims[i] in r
  {
    if term == "" then
      EveryClaimMatchesEmptyTerm(claims);
      claims
    else Filter(claims, (c: Claim) => MatchesSearch(c, term))
  }

  /** The empty term is contained in everything, so the early return for an
      empty term agrees with the filter. */
  lemma EveryClaimMatchesEmptyTerm(claims: seq<Claim>)
    ensures forall i :: 0 <= i < |claims| ==> MatchesSearch(claims[i], "")
  {
    forall i | 0 <= i < |claims|
      ensures MatchesSearch(claims[i], "")
    {
      EmptyIsContained(Lower(claims[i].id));
    }
  }

  /** The filter keeps list order: it works claim by claim. */
  lemma FilterClaimsOrder(a: seq<Claim>, b: seq<Claim>, c: Claim, term: string)
    ensures FilterClaims(a + b, term) == FilterClaims(a, term) + FilterClaims(b, term)
    ensures FilterClaims([c], term) == if MatchesSearch(c, term) then [c] else []
  {
    if term != "" {
      FilterAppend(a, b, (c: Claim) => MatchesSearch(c, term));
      assert [c][1..] == [];
    } else {
      EveryClaimMatchesEmptyTerm([c]);
      assert [c][0] == c;
    }
  }

  /** Two filters that agree on every element of the list give the same result. */
  lemma {:induction false} FilterAgrees<T>(s: seq<T>, p: T -> bool, q: T -> bool)
    requires forall i :: 0 <= i < |s| ==> p(s[i]) == q(s[i])
    ensures Filter(s, p) == Filter(s, q)
  {
    if s != [] {
      FilterAgrees(s[1..], p, q);
    }
  }

  /** Only the lower-cased term matters. */
  lemma FilterIgnoresTermCase(claims: seq<Claim>, t1: string, t2: string)
    requires Lower(t1) == Lower(t2)
    ensures FilterClaims(claims, t1) == FilterClaims(claims, t2)
  {
    if t1 != "" {
      FilterAgrees(claims, (c: Claim) => MatchesSearch(c, t1), (c: Claim) => MatchesSearch(c, t2));
    }
  }

  // ---------------------------------------------------------------------------
  // Status tallies

  /** How many claims carry exactly this status. */
  function CountStatus(claims: seq<Claim>, status: string): (n: nat)
    ensures n <= |claims|
  {
    |Filter(claims, (c: Claim) => c.status == status)|
  }

  /** The count works claim by claim: a claim adds one exactly when its
      status is the counted one. */
  lemma CountStatusByClaim(a: seq<Claim>, b: seq<Claim>, c: Claim, status: string)
    ensures CountStatus(a + b, status) == CountStatus(a, status) + CountStatus(b, status)
    ensures CountStatus([c], status) == if c.status == status then 1 else 0
  {
    FilterAppend(a, b, (c: Claim) => c.status == status);
    assert [c][1..] == [];
  }

  /** Tallies of three different statuses never add up to more than the list. */
  lemma {:induction false} DistinctTalliesBounded(claims: seq<Claim>, a: string, b: string, c: string)
    requires a != b && b != c && a != c
    ensures CountStatus(claims, a) + CountStatus(claims, b) + CountStatus(claims, c) <= |claims|
  {
    if claims != [] {
      DistinctTalliesBounded(claims[1..], a, b, c);
    }
  }

  /** The pending, verified and approved cards above the table. */
  function Tallies(claims: seq<Claim>, term: string): (r: (nat, nat, nat))
    ensures r.0 + r.1 + r.2 <= |FilterClaims(claims, term)|
    ensures r == (CountStatus(FilterClaims(claims, term), "Pending"),
                  CountStatus(FilterClaims(claims, term), "Verified"),
                  CountStatus(FilterClaims(claims, term), "Approved"))
  {
    var shown := FilterClaims(claims, term);
    DistinctTalliesBounded(shown, "Pending", "Verified", "Approved");
    (CountStatus(shown, "Pending"), CountStatus(shown, "Verified"), CountStatus(shown, "Approved"))
  }

  /** One card's contribution of a single claim: one exactly when the claim
      is shown and has the card's status. */
  function CardShare(c: Claim, term: string, status: string): nat {
    if MatchesSearch(c, term) && c.status == status then 1 else 0
  }

  /** The cards count claim by claim: the tallies of a concatenation add up. */
  lemma TalliesAppend(a: seq<Claim>, b: seq<Claim>, term: string)
    ensures Tallies(a + b, term).0 == Tallies(a, term).0 + Tallies(b, term).0
    ensures Tallies(a + b, term).1 == Tallies(a, term).1 + Tallies(b, term).1
    ensures Tallies(a + b, term).2 == Tallies(a, term).2 + Tallies(b, term).2
  {
    ShownCountAppend(a, b, term, "Pending");
    ShownCountAppend(a, b, term, "Verified");
    ShownCountAppend(a, b, term, "Approved");
  }


  /** A single claim adds one to the card of its status when the search
      shows it, and nothing otherwise. */
  lemma TalliesOfOne(c: Claim, term: string)
    ensures Tallies([c], term)
         == (CardShare(c, term, "Pending"), CardShare(c, term, "Verified"), CardShare(c, term, "Approved"))
  {
    var u := Tallies([c], term);
    ShownCountOfOne(c, term, "Pending");
    assert u.0 == CardShare(c, term, "Pending");
    ShownCountOfOne(c, term, "Verified");
    assert u.1 == CardShare(c, term, "Verified");
    ShownCountOfOne(c, term, "Approved");
    assert u.2 == CardShare(c, term, "Approved");
  }

  /** One card over a concatenation. */
  lemma ShownCountAppend(a: seq<Claim>, b: seq<Claim>, term: string, status: string)
    ensures CountStatus(FilterClaims(a + b, term), status)
         == CountStatus(FilterClaims(a, term), status) + CountStatus(FilterClaims(b, term), status)
  {
    if term != "" {
      FilterAppend(a, b, (x: Claim) => MatchesSearch(x, term));
    }
    FilterAppend(FilterClaims(a, term), FilterClaims(b, term), (x: Claim) => x.status == status);
  }

  /** One card over a single claim. */
  lemma ShownCountOfOne(c: Claim, term: string, status: string)
    ensures CountStatus(FilterClaims([c], term), status) == CardShare(c, term, status)
  {
    FilterClaimsOrder([], [], c, term);
    CountStatusByClaim([c], [], c, status);
    if !MatchesSearch(c, term) {
      assert FilterClaims([c], term) == [];
      assert Filter([], (x: Claim) => x.status == status) == [];
    }
  }

  // ---------------------------------------------------------------------------
  // Status update

  /** Every field a review does not touch is the same. */
  predicate SameDetails(a: Claim, b: Claim) {
    && a.id == b.id && a.claimant == b.claimant && a.village == b.village
    && a.landArea == b.landArea && a.priority == b.priority
    && a.submissionDate == b.submissionDate && a.claimType == b.claimType
    && a.district == b.district && a.state == b.state
  }

  /** `handleStatusUpdate`: every claim with the given id takes the reported
      status, notes and checklist; every other claim is kept. */
  function UpdateStatus(claims: seq<Claim>, id: string, status: string, notes: string,
                        checklist: seq<ChecklistItem>): (r: seq<Claim>)
    ensures |r| == |claims|
    ensures forall i :: 0 <= i < |r| ==> SameDetails(r[i], claims[i])
    ensures forall i :: 0 <= i < |r| && claims[i].id != id ==> r[i] == claims[i]
    ensures forall i :: 0 <= i < |r| && claims[i].id == id ==>
              r[i].status == status && r[i].notes == Some(notes) && r[i].verification == Some(checklist)
  {
    seq(|claims|, i requires 0 <= i < |claims| =>
      if claims[i].id == id
      then claims[i].(status := status, notes := Some(notes), verification := Some(checklist))
      else claims[i])
  }

  /** Reporting the same review twice is the same as reporting it once. */
  lemma UpdateStatusIdempotent(claims: seq<Claim>, id: string, status: string, notes: string,
                               checklist: seq<ChecklistItem>)
    ensures UpdateStatus(UpdateStatus(claims, id, status, notes, checklist), id, status, notes, checklist)
         == UpdateStatus(claims, id, status, notes, checklist)
  {
  }

  /** A report for an id that is not in the list changes nothing. */
  lemma UpdateUnknownId(claims: seq<Claim>, id: string, status: string, notes: string,
                        checklist: seq<ChecklistItem>)
    requires forall i :: 0 <= i < |claims| ==> claims[i].id != id
    ensures UpdateStatus(claims, id, status, notes, checklist) == claims
  {
  }

  /** The search looks only at ids and names, which an update keeps, so
      updating then filtering is filtering then updating. */
  lemma {:induction false} UpdateCommutesWithFilter(claims: seq<Claim>, term: string, id: string,
                                                    status: string, notes: string,
                                                    checklist: seq<ChecklistItem>)
    ensures FilterClaims(UpdateStatus(claims, id, status, notes, checklist), term)
         == UpdateStatus(FilterClaims(claims, term), id, status, notes, checklist)
  {
    if term != "" && claims != [] {
      var p := (c: Claim) => MatchesSearch(c, term);
      var head, rest := [claims[0]], claims[1..];
      assert claims == head + rest;
      UpdateStatusAppend(head, rest, id, status, notes, checklist);
      var uh := UpdateStatus(head, id, status, notes, checklist);
      var ur := UpdateStatus(rest, id, status, notes, checklist);
      FilterAppend(uh, ur, p);
      FilterAppend(head, rest, p);
      UpdateCommutesWithFilter(rest, term, id, status, notes, checklist);
      UpdateOneCommutesWithFilter(claims[0], term, id, status, notes, checklist);
      UpdateStatusAppend(Filter(head, p), Filter(rest, p), id, status, notes, checklist);
    }
  }

  /** The update works claim by claim, so it distributes over concatenation. */
  lemma UpdateStatusAppend(a: seq<Claim>, b: seq<Claim>, id: string, status: string, notes: string,
                           checklist: seq<ChecklistItem>)
    ensures UpdateStatus(a + b, id, status, notes, checklist)
         == UpdateStatus(a, id, status, notes, checklist) + UpdateStatus(b, id, status, notes, checklist)
  {
  }

  /** For one claim: the update keeps whether the claim matches the search. */
  lemma UpdateOneCommutesWithFilter(c: Claim, term: string, id: string, status: string, notes: string,
                                    checklist: seq<ChecklistItem>)
    requires term != ""
    ensures var p := (x: Claim) => MatchesSearch(x, term);
              Filter(UpdateStatus([c], id, status, notes, checklist), p)
              == UpdateStatus(Filter([c], p), id, status, notes, checklist)
  {
    var p := (x: Claim) => MatchesSearch(x, term);
    var u := UpdateStatus([c], id, status, notes, checklist);
    assert MatchesSearch(u[0], term) == MatchesSearch(c, term);
    assert u[1..] == [] && [c][1..] == [];
    assert Filter(u, p) == (if p(u[0]) then [u[0]] else []) + Filter(u[1..], p);
    assert Filter([c], p) == (if p(c) then [c] else []) + Filter([c][1..], p);
  }

  // ---------------------------------------------------------------------------
  // Review modal: checklist

  const InitialChecklist: seq<ChecklistItem> := [
    ChecklistItem("Documents submitted and valid", true),
    ChecklistItem("Land area within permissible limits", false),
    ChecklistItem("No conflicting claims on same land", true),
    ChecklistItem("Claimant meets eligibility criteria", true),
    ChecklistItem("GPS coordinates verified (if provided)", false),
    ChecklistItem("Village/Mandal records checked", true)
  ]

  /** `handleChecklistToggle`: the entry at `index` flips its tick; an index
      outside the list changes nothing. */
  function ToggleItem(items: seq<ChecklistItem>, index: int): (r: seq<ChecklistItem>)
    ensures |r| == |items|
    ensures forall i :: 0 <= i < |r| ==> r[i].text == items[i].text
    ensures forall i :: 0 <= i < |r| ==> (r[i].checked != items[i].checked <==> i == index)
  {
    seq(|items|, i requires 0 <= i < |items| =>
      if i == index then items[i].(checked := !items[i].checked) else items[i])
  }

  lemma ToggleTwiceRestores(items: seq<ChecklistItem>, index: int)
    ensures ToggleItem(ToggleItem(items, index), index) == items
  {
  }

  lemma TogglesCommute(items: seq<ChecklistItem>, i: int, j: int)
    ensures ToggleItem(ToggleItem(items, i), j) == ToggleItem(ToggleItem(items, j), i)
  {
  }

  /** A click on the checkbox itself, as written: the input's change handler
      toggles the entry, and the same click bubbles to the row, whose click
      handler toggles it again. */
  function ClickCheckboxAsWritten(items: seq<ChecklistItem>, index: int): (r: seq<ChecklistItem>)
    ensures |r| == |items|
    ensures 0 <= index < |items| ==> r[index].checked == items[index].checked
  {
    ToggleItem(ToggleItem(items, index), index)
  }

  /** So a click on the box never changes the checklist. */
  lemma CheckboxClickIsLost(items: seq<ChecklistItem>, index: int)
    ensures ClickCheckboxAsWritten(items, index) == items
  {
    ToggleTwiceRestores(items, index);
  }

  /** A click anywhere on a row, the box included, as intended: one toggle. */
  function ClickRow(items: seq<ChecklistItem>, index: int): (r: seq<ChecklistItem>)
    requires 0 <= index < |items|
    ensures |r| == |items|
    ensures r != items && r[index].checked == !items[index].checked
  {
    ToggleItem(items, index)
  }

  // ---------------------------------------------------------------------------
  // Review modal: decision buttons

  datatype Decision = Approve | Reject | MarkVerified

  function DecisionStatus(d: Decision): (s: string)
    ensures IsDecisionStatus(s)
  {
    match d
    case Approve => "Approved"
    case Reject => "Rejected"
    case MarkVerified => "Verified"
  }

  predicate IsDecisionStatus(s: string) {
    s == "Approved" || s == "Rejected" || s == "Verified"
  }

  /** What the delayed save will report: the values captured when the button
      was pressed. */
  datatype Scheduled = Scheduled(status: string, notes: string, checklist: seq<ChecklistItem>)

  datatype Review = Review(
    claim: Claim, checklist: seq<ChecklistItem>, notes: string,
    currentStatus: string, saving: bool, scheduled: Option<Scheduled>)

  datatype Event =
    | StatusReported(id: string, status: string, notes: string, checklist: seq<ChecklistItem>)
    | Closed

  /** The modal as it opens on a claim. */
  function OpenReview(c: Claim): (m: Review)
    ensures ReviewInvariant(m) && !m.saving
  {
    Review(c, InitialChecklist, "", c.status, false, None)
  }

  /** A save is scheduled exactly while the buttons are disabled, and only a
      decision status is ever scheduled. */
  predicate ReviewInvariant(m: Review) {
    && (m.saving <==> m.scheduled.Some?)
    && (m.scheduled.Some? ==> IsDecisionStatus(m.scheduled.value.status))
  }

  function EditNotes(m: Review, notes: string): (r: Review)
    ensures ReviewInvariant(m) ==> ReviewInvariant(r)
    ensures r.scheduled == m.scheduled && r.notes == notes
  {
    m.(notes := notes)
  }

  function ToggleChecklist(m: Review, index: int): (r: Review)
    ensures ReviewInvariant(m) ==> ReviewInvariant(r)
    ensures r.scheduled == m.scheduled
  {
    m.(checklist := ToggleItem(m.checklist, index))
  }

  /** A decision button: disabled while saving; otherwise it starts saving and
      schedules the report with the current notes and checklist. */
  function Press(m: Review, d: Decision): (r: Review)
    ensures ReviewInvariant(m) ==> ReviewInvariant(r)
    ensures m.saving ==> r == m
    ensures !m.saving ==> r.saving && r.scheduled == Some(Scheduled(DecisionStatus(d), m.notes, m.checklist))
  {
    if m.saving then m
    else m.(saving := true, scheduled := Some(Scheduled(DecisionStatus(d), m.notes, m.checklist)))
  }

  /** The save timer firing: the modal takes the new status, reports the
      scheduled values for its claim and closes. */
  function TimerFires(m: Review): (r: (Review, seq<Event>))
    ensures ReviewInvariant(m) ==> ReviewInvariant(r.0) && !r.0.saving
    ensures m.scheduled.None? ==> r == (m, [])
    ensures ReviewInvariant(m) && m.scheduled.Some? ==>
              |r.1| == 2 && r.1[1] == Closed && r.1[0].StatusReported?
              && r.1[0].id == m.claim.id && IsDecisionStatus(r.1[0].status)
              && r.0.currentStatus == r.1[0].status
  {
    match m.scheduled
    case None => (m, [])
    case Some(s) =>
      (m.(currentStatus := s.status, saving := false, scheduled := None),
       [StatusReported(m.claim.id, s.status, s.notes, s.checklist), Closed])
  }

  /** Edits made after pressing a button do not reach the report: it carries
      the notes and checklist of the moment of the press. */
  lemma LaterEditsNotReported(m: Review, d: Decision, notes: string, index: int)
    requires ReviewInvariant(m) && !m.saving
    ensures TimerFires(ToggleChecklist(EditNotes(Press(m, d), notes), index)).1
         == [StatusReported(m.claim.id, DecisionStatus(d), m.notes, m.checklist), Closed]
  {
  }

  /** The dashboard's side: a report updates the list; the close event
      deselects the claim, which the list does not hold. */
  function ApplyEvents(claims: seq<Claim>, events: seq<Event>): (r: seq<Claim>)
    ensures |r| == |claims|
    decreases |events|
  {
    if events == [] then claims
    else match events[0]
      case StatusReported(id, status, notes, checklist) =>
        ApplyEvents(UpdateStatus(claims, id, status, notes, checklist), events[1..])
      case Closed => ApplyEvents(claims, events[1..])
  }

  /** Pressing a decision on a claim of the list and letting the timer fire
      leaves that claim with the decision's status and the pressed notes and
      checklist, and every claim with another id untouched. */
  lemma DecisionReachesList(claims: seq<Claim>, m: Review, d: Decision, k: nat)
    requires ReviewInvariant(m) && !m.saving
    requires k < |claims| && claims[k].id == m.claim.id
    ensures var after := ApplyEvents(claims, TimerFires(Press(m, d)).1);
            && after[k].status == DecisionStatus(d)
            && after[k].notes == Some(m.notes) && after[k].verification == Some(m.checklist)
            && forall i :: 0 <= i < |claims| && claims[i].id != m.claim.id ==> after[i] == claims[i]
  {
    var events := TimerFires(Press(m, d)).1;
    var u := UpdateStatus(claims, m.claim.id, DecisionStatus(d), m.notes, m.checklist);
    assert events[1..] == [Closed];
    assert ApplyEvents(u, [Closed]) == u;
  }
}

=== FILE: data_upload.dfy ===
/** The document-intake page: OCR text is turned into a six-field claim form
    by six case-insensitive pattern searches; the form can be edited, saved
    (which resets the page) or rendered as a line-by-line PDF report. The OCR
    engine and the PDF writer are outside the model: the page receives the
    recognised text, and the report is the list of lines it would write. */
module DataUpload {
  import opened Base
  import opened FieldExtractor

  /** The keys of the form, in declaration order. */
  datatype FieldKey = ClaimId | ClaimantName | Village | District | State | ClaimType

  const Keys: seq<FieldKey> := [ClaimId, ClaimantName, Village, District, State, ClaimType]

  function KeyName(k: FieldKey): string {
    match k
    case ClaimId => "claimId"
    case ClaimantName => "claimantName"
    case Village => "village"
    case District => "district"
    case State => "state"
    case ClaimType => "claimType"
  }

  datatype ClaimForm = ClaimForm(
    claimId: string, claimantName: string, village: string,
    district: string, state: string, claimType: string)

  function Get(f: ClaimForm, k: FieldKey): string {
    match k
    case ClaimId => f.claimId
    case ClaimantName => f.claimantName
    case Village => f.village
    case District => f.district
    case State => f.state
    case ClaimType => f.claimType
  }

  /** `setFormData({ ...formData, [name]: value })`. */
  function SetField(f: ClaimForm, k: FieldKey, value: string): (r: ClaimForm)
    ensures Get(r, k) == value
    ensures forall k' :: k' != k ==> Get(r, k') == Get(f, k')
  {
    match k
    case ClaimId => f.(claimId := value)
    case ClaimantName => f.(claimantName := value)
    case Village => f.(village := value)
    case District => f.(district := value)
    case State => f.(state := value)
    case ClaimType => f.(claimType := value)
  }

  const InitialForm := ClaimForm("", "", "", "", "", "")

  const DefaultClaimId := "FRA-XXXX-00000"
  const DefaultClaimantName := "Unknown Claimant"
  const DefaultPlace := "N/A"
  const DefaultClaimType := "Individual"

  const Defaults := ClaimForm(DefaultClaimId, DefaultClaimantName, DefaultPlace,
                              DefaultPlace, DefaultPlace, DefaultClaimType)

  /** The two fields captured as a single `\S+` token. */
  predicate IsTokenField(k: FieldKey) {
    k == ClaimId || k == ClaimType
  }

  function PatternOf(k: FieldKey): (p: Pattern)
    ensures WellFormed(p)
    ensures p.cls == (if IsTokenField(k) then NonSpaceRun else LettersAndSpaces)
  {
    var p := match k
      case ClaimId => ClaimIdPattern
      case ClaimantName => NamePattern
      case Village => VillagePattern
      case District => DistrictPattern
      case State => StatePattern
      case ClaimType => ClaimTypePattern;
    assert Word("claim") && Word("id") && Word("type") && Word("name");
    assert Word("village") && Word("district") && Word("state");
    p
  }

  function DefaultOf(k: FieldKey): (d: string)
    ensures d != ""
  {
    Get(Defaults, k)
  }

  // ---------------------------------------------------------------------
  // Extraction
  // ---------------------------------------------------------------------

  /** A value that is a full run of non-whitespace characters. */
  predicate IsToken(v: string) {
    v != [] && forall t :: 0 <= t < |v| ==> !IsSpace(v[t])
  }

  /** A value made of ASCII letters and whitespace, with no whitespace at either end. */
  predicate IsTrimmedWords(v: string) {
    && v != []
    && (forall t :: 0 <= t < |v| ==> IsLetter(v[t]) || IsSpace(v[t]))
    && !IsSpace(v[0]) && !IsSpace(v[|v| - 1])
  }

  /** One field of the form, searched for on its own in the whole text: an
      identifier is the whole `\S+` run after its label, a name or place the
      trimmed letters-and-spaces run, and an absent or blank capture gives way
      to the field's default. */
  function FieldOf(text: string, k: FieldKey): (v: string)
    ensures v != ""
    ensures Captured(text, PatternOf(k)).None? ==> v == DefaultOf(k)
    ensures IsTokenField(k) ==>
              v == (if Captured(text, PatternOf(k)).Some? then Captured(text, PatternOf(k)).value else DefaultOf(k))
    ensures IsTokenField(k) && v != DefaultOf(k) ==> IsToken(v)
    ensures !IsTokenField(k) && v != DefaultOf(k) ==>
              IsTrimmedWords(v) && v == Trim(Captured(text, PatternOf(k)).value)
    ensures !IsTokenField(k) && Captured(text, PatternOf(k)).Some? && Trim(Captured(text, PatternOf(k)).value) != "" ==>
              v == Trim(Captured(text, PatternOf(k)).value)
  {
    var p := PatternOf(k);
    var d := DefaultOf(k);
    FieldClassShape(text, p, d);
    FieldValue(text, p, d)
  }

  /** A field that is not its fallback has the shape of its pattern's class. */
  lemma FieldClassShape(text: string, p: Pattern, d: string)
    requires WellFormed(p) && d != ""
    ensures var v := FieldValue(text, p, d);
            v != d ==> if p.cls == NonSpaceRun then IsToken(v) else IsTrimmedWords(v)
  {
    var v := FieldValue(text, p, d);
    if v != d && p.cls == LettersAndSpaces {
      assert forall t :: 0 <= t < |v| ==> InClass(LettersAndSpaces, v[t]);
    }
  }


  /** The form whose field `k` holds `f(k)`. */
  function FormOf(f: FieldKey -> string): (r: ClaimForm)
    ensures forall k :: Get(r, k) == f(k)
  {
    ClaimForm(f(ClaimId), f(ClaimantName), f(Village), f(District), f(State), f(ClaimType))
  }

  /** The form filled from recognised text, each field searched for on its own. */
  function Extract(text: string): (r: ClaimForm)
    ensures forall k :: Get(r, k) == FieldOf(text, k)
  {
    FormOf(k => FieldOf(text, k))
  }

  /** Text in which none of the six labels occurs, in any case, gives the
      defaults. A label word on its own (`claim` without `ID` or `Type`)
      does not count. */
  lemma NoLabelsGiveDefaults(text: string)
    requires forall k :: !LabelOccurs(text, PatternOf(k))
    ensures Extract(text) == Defaults
  {
    forall k ensures Get(Extract(text), k) == DefaultOf(k) {
      NoLabelGivesFallback(text, PatternOf(k), DefaultOf(k));
    }
    assert forall k :: Get(Extract(text), k) == Get(Defaults, k);
  }

  /** Text in which none of the label words occurs, in any case, gives the defaults. */
  lemma NoLabelWordsGiveDefaults(text: string)
    requires forall w :: w in ["claim", "name", "village", "district", "state"] ==> !Contains(Lower(text), w)
    ensures Extract(text) == Defaults
  {
    forall k ensures Get(Extract(text), k) == DefaultOf(k) {
      AbsentLabelGivesFallback(text, PatternOf(k), DefaultOf(k));
    }
    assert forall k :: Get(Extract(text), k) == Get(Defaults, k);
  }

  lemma EmptyTextGivesDefaults()
    ensures Extract("") == Defaults
  {
    forall w | w in ["claim", "name", "village", "district", "state"] ensures !Contains(Lower(""), w) {
    }
    NoLabelWordsGiveDefaults("");
  }

  /** The first label in the text decides, whatever the case of its letters. */
  lemma ExtractIgnoresLabelCase(text: string, text': string, k: FieldKey)
    requires Lower(text) == Lower(text')
    ensures Search(text, PatternOf(k)) == Search(text', PatternOf(k))
  {
    SearchIgnoresCase(text, text', PatternOf(k));
  }

  // ---------------------------------------------------------------------
  // Report labels
  // ---------------------------------------------------------------------

  /** The label of a key on the PDF report: `claimantName` becomes `Claimant Name`. */
  function ReportLabel(key: string): (r: string)
    ensures |r| >= |key|
  {
    UpperFirst(SpaceBeforeCapitals(key))
  }

  /** The label of a key above its input box (upper-casing is left to the stylesheet). */
  function FormLabel(key: string): (r: string)
    ensures |r| >= |key|
  {
    SpaceBeforeCapitals(key)
  }

  /** The report label determines the key: removing the spaces and lower-casing
      the first letter gives the key back. */
  lemma ReportLabelRoundTrip(key: string)
    requires IsCamelKey(key)
    ensures LowerFirst(RemoveSpaces(ReportLabel(key))) == key
    ensures ReportLabel(key)[0] == Raise(key[0])
  {
    var spaced := SpaceBeforeCapitals(key);
    SpaceBeforeCapitalsRoundTrip(key);
    var r := UpperFirst(spaced);
    assert r == [Raise(key[0])] + spaced[1..];
    assert spaced == [key[0]] + SpaceBeforeCapitals(key[1..]);
    assert spaced[1..] == SpaceBeforeCapitals(key[1..]);
    assert RemoveSpaces(spaced) == [key[0]] + RemoveSpaces(spaced[1..]);
    assert ([Raise(key[0])] + spaced[1..])[1..] == spaced[1..];
    assert RemoveSpaces(r) == [Raise(key[0])] + RemoveSpaces(spaced[1..]);
    assert RemoveSpaces(spaced[1..]) == key[1..];
  }

  /** A key made of a lower-case word and a capitalised word, such as
      `claimantName`, is labelled with both words capitalised and a space
      between them. */
  lemma TwoWordLabel(first: string, second: string)
    requires first != [] && forall i :: 0 <= i < |first| ==> IsLower(first[i])
    requires second != [] && IsUpper(second[0])
    requires forall i :: 1 <= i < |second| ==> IsLower(second[i])
    ensures ReportLabel(first + second) == [Raise(first[0])] + first[1..] + " " + second
  {
    TwoWordSpacing(first, second);
    var spaced := first + " " + second;
    assert spaced[1..] == first[1..] + " " + second;
  }

  // ---------------------------------------------------------------------
  // The page
  // ---------------------------------------------------------------------

  datatype Notice = Notice(message: string, isError: bool)

  /** An uploaded file, kept opaque apart from its name. */
  datatype Upload = Upload(name: string, isPdf: bool)

  datatype Page = Page(
    file: Option<Upload>, form: ClaimForm, processing: bool, progress: nat,
    libsLoaded: bool, notice: Option<Notice>)

  const InitialPage := Page(None, InitialForm, false, 0, false, None)

  /** Save and download refuse a form whose claim id and claimant name are both empty. */
  predicate FormIsEmpty(f: ClaimForm) {
    f.claimId == "" && f.claimantName == ""
  }

  /** `resetFormAndFiles`: file, form and progress back to their initial values. */
  function ResetFormAndFiles(p: Page): (r: Page)
    ensures r.file == InitialPage.file && r.form == InitialForm && r.progress == 0
    ensures r.processing == p.processing && r.libsLoaded == p.libsLoaded && r.notice == p.notice
  {
    p.(file := None, form := InitialForm, progress := 0)
  }

  /** `handleRemoveFile`. */
  function RemoveFile(p: Page): (r: Page)
    ensures r.file.None? && r.form == InitialForm && r.progress == 0
    ensures r.notice == Some(Notice("File removed successfully", false))
  {
    ResetFormAndFiles(p).(notice := Some(Notice("File removed successfully", false)))
  }

  /** `onDrop`: refused while the libraries load; otherwise the first accepted
      file replaces the current one, the form is cleared and recognition starts. */
  function Drop(p: Page, accepted: seq<Upload>): (r: Page)
    ensures !p.libsLoaded ==>
              r == p.(notice := Some(Notice("Libraries are still loading. Please wait a moment.", true)))
    ensures p.libsLoaded && accepted == [] ==> r == p
    ensures p.libsLoaded && accepted != [] ==>
              && r.file == Some(accepted[0]) && r.form == InitialForm && r.processing && r.progress == 0
              && r.notice == p.notice && r.libsLoaded == p.libsLoaded
  {
    if !p.libsLoaded then p.(notice := Some(Notice("Libraries are still loading. Please wait a moment.", true)))
    else if accepted == [] then p
    else p.(file := Some(accepted[0]), form := InitialForm, processing := true, progress := 0)
  }

  /** How recognition ended. */
  datatype OcrOutcome = LibrariesMissing | Failed | Recognized(text: string)

  /** The end of `handleOCR`: recognised text fills the form; otherwise the form is kept. */
  function OcrFinished(p: Page, outcome: OcrOutcome): (r: Page)
    ensures !r.processing
    ensures outcome.Recognized? ==> r.form == Extract(outcome.text) && r.notice.Some? && !r.notice.value.isError
    ensures !outcome.Recognized? ==> r.form == p.form && r.notice.Some? && r.notice.value.isError
    ensures r.file == p.file && r.libsLoaded == p.libsLoaded
  {
    match outcome
    case LibrariesMissing =>
      p.(processing := false, notice := Some(Notice("OCR libraries failed to load. Please refresh.", true)))
    case Failed =>
      p.(processing := false, notice := Some(Notice("Failed to extract text from the document", true)))
    case Recognized(text) =>
      p.(processing := false, form := Extract(text), notice := Some(Notice("Data extracted successfully", false)))
  }

  /** A drop followed by the end of recognition: the dropped file stays, and
      the form holds what was extracted from its text, or, when recognition
      failed, the cleared form rather than the one before the drop. */
  lemma DropThenRecognize(p: Page, accepted: seq<Upload>, outcome: OcrOutcome)
    requires p.libsLoaded && accepted != []
    ensures var r := OcrFinished(Drop(p, accepted), outcome);
            && r.file == Some(accepted[0]) && !r.processing && r.libsLoaded
            && r.form == (if outcome.Recognized? then Extract(outcome.text) else InitialForm)
  {
  }

  /** The text of a multi-page PDF: each page's text followed by a line break. */
  function PagesText(pages: seq<string>): string {
    if pages == [] then "" else PagesText(pages[..|pages| - 1]) + pages[|pages| - 1] + "\n"
  }

  /** The page loop of `handleOCR`, accumulating the recognised text. */
  method JoinPages(pages: seq<string>) returns (text: string)
    ensures text == PagesText(pages)
    ensures |text| == SumLengths(pages) + |pages|
  {
    text := "";
    var i := 0;
    while i < |pages|
      invariant 0 <= i <= |pages|
      invariant text == PagesText(pages[..i])
      invariant |text| == SumLengths(pages[..i]) + i
    {
      assert pages[..i + 1][..i] == pages[..i];
      SumLengthsSnoc(pages[..i], pages[i]);
      assert pages[..i] + [pages[i]] == pages[..i + 1];
      text := text + pages[i] + "\n";
      i := i + 1;
    }
    assert pages[..|pages|] == pages;
  }

  lemma {:induction false} SumLengthsSnoc(parts: seq<string>, x: string)
    ensures SumLengths(parts + [x]) == SumLengths(parts) + |x|
  {
    if parts != [] {
      assert (parts + [x])[1..] == parts[1..] + [x];
      SumLengthsSnoc(parts[1..], x);
    }
  }

  function ReportLines(f: ClaimForm): seq<ReportLine> {
    seq(|Keys|, i requires 0 <= i < |Keys| =>
      ReportLine(30 + 10 * i, ReportLabel(KeyName(Keys[i])) + ": " + Get(f, Keys[i])))
  }

  /** `downloadPDF`: the report, or the notice explaining why there is none. */
  function Download(f: ClaimForm, pdfLibraryLoaded: bool): (r: (Option<Report>, Notice))
    ensures r.0.Some? <==> pdfLibraryLoaded && !FormIsEmpty(f)
    ensures r.1.isError <==> r.0.None?
    ensures r.0.Some? ==>
              && |r.0.value.lines| == |Keys|
              && (forall i :: 0 <= i < |Keys| ==>
                    r.0.value.lines[i].y == 30 + 10 * i
                    && StartsWith(r.0.value.lines[i].text, ReportLabel(KeyName(Keys[i])) + ": ")
                    && r.0.value.lines[i].text[|ReportLabel(KeyName(Keys[i])) + ": "|..] == Get(f, Keys[i]))
              && r.0.value.fileName == (if f.claimId != "" then f.claimId else "FRA_Report") + ".pdf"
  {
    if !pdfLibraryLoaded then (None, Notice("PDF library is not yet loaded.", true))
    else if FormIsEmpty(f) then (None, Notice("Form is empty. Please fill in data to generate a PDF.", true))
    else
      var name := (if f.claimId != "" then f.claimId else "FRA_Report") + ".pdf";
      (Some(Report("FRA Claim Report", ReportLines(f), name)), Notice("Claim report PDF downloaded successfully", false))
  }

  /** `saveToRecords`: the record handed on, and the page afterwards. */
  function Save(p: Page): (r: (Option<ClaimForm>, Page))
    ensures r.0.Some? <==> !FormIsEmpty(p.form)
    ensures r.0.Some? ==> r.0.value == p.form && r.1.form == InitialForm && r.1.file.None? && r.1.progress == 0
    ensures r.0.None? ==> r.1.form == p.form && r.1.file == p.file && r.1.progress == p.progress
    ensures r.1.processing == p.processing && r.1.libsLoaded == p.libsLoaded
    ensures r.1.notice.Some? && (r.1.notice.value.isError <==> r.0.None?)
  {
    if FormIsEmpty(p.form) then
      (None, p.(notice := Some(Notice("Form is empty. Please fill in data to save a record.", true))))
    else
      (Some(p.form), ResetFormAndFiles(p.(notice := Some(Notice("Claim record saved to database successfully", false)))))
  }

  /** An extracted form is never refused, and saving it resets the page so that
      a second save is refused. */
  lemma ExtractedFormIsSaved(p: Page, text: string)
    requires p.form == Extract(text)
    ensures Save(p).0 == Some(Extract(text))
    ensures Save(Save(p).1).0.None?
  {
  }
}

=== FILE: extraction_examples.dfy ===
/** What the intake searches make of typical label layouts. Three families of
    texts, each stated for every label, capture and following text, then
    instantiated on short examples where the backtracking of `[:\-]?` and `\s*`
    or the `|| default` fallback decides the outcome. */
module ExtractionExamples {
  import opened Base
  import opened FieldExtractor
  import opened DataUpload

  /** Letters and whitespace, beginning with a letter and ending in a non-space. */
  predicate IsWords(v: string) {
    && v != [] && IsLetter(v[0]) && !IsSpace(v[|v| - 1])
    && forall t :: 0 <= t < |v| ==> IsLetter(v[t]) || IsSpace(v[t])
  }

  /** A text that starts with a one-word label, in any case, has the label at 0. */
  lemma CaptionAt(p: Pattern, caption: string, s: string)
    requires WellFormed(p) && p.second.None?
    requires Lower(caption) == p.first && StartsWith(s, caption)
    ensures LabelGap(s, p, 0) == Some(0) && LabelEnd(p, 0, 0) == |caption|
  {
    assert forall t :: 0 <= t < |caption| ==> s[t] == caption[t] && Lower(caption)[t] == Fold(caption[t]);
    assert WordAt(s, 0, p.first);
  }

  /** A text that starts with a two-word label, in any case, one space apart,
      has the label at 0. */
  lemma TwoWordCaptionAt(p: Pattern, first: string, second: string, s: string)
    requires WellFormed(p) && p.second.Some?
    requires Lower(first) == p.first && Lower(second) == p.second.value
    requires StartsWith(s, first + " " + second)
    ensures LabelGap(s, p, 0) == Some(1) && LabelEnd(p, 0, 1) == |first| + 1 + |second|
  {
    var k := |first|;
    assert forall t :: 0 <= t < k ==> s[t] == first[t] && Lower(first)[t] == Fold(first[t]);
    assert WordAt(s, 0, p.first);
    assert forall t :: 0 <= t < |second| ==> s[k + 1 + t] == second[t] && Lower(second)[t] == Fold(second[t]);
    assert WordAt(s, k + 1, p.second.value);
    assert s[k] == ' ';
    assert IsLetter(s[k + 1]) by {
      assert Fold(s[k + 1]) == p.second.value[0];
    }
    SkipSpacesAt(s, k, k + 1);
  }

  // ---------------------------------------------------------------------
  // Words after `Label: `
  // ---------------------------------------------------------------------

  /** A one-word label, a colon and a space, then words up to a character that
      is neither a letter nor whitespace: the words are the field, even when
      they run over a line break. */
  lemma LabelledWords(p: Pattern, caption: string, words: string, rest: string, fallback: string)
    requires WellFormed(p) && p.second.None? && p.cls == LettersAndSpaces && fallback != ""
    requires Lower(caption) == p.first
    requires IsWords(words)
    requires rest != [] ==> !IsLetter(rest[0]) && !IsSpace(rest[0])
    ensures FieldValue(caption + ": " + words + rest, p, fallback) == words
  {
    var s := caption + ": " + words + rest;
    var k := |caption|;
    var c := Choice(0, true, 1, |words|);
    LabelledWordsMatch(p, caption, words, rest);
    assert CaptureStart(p, 0, c) == k + 2;
    assert s[k + 2..k + 2 + |words|] == words;
    TrimNoOp(words);
    FieldValueAtStart(s, p, fallback, c);
  }

  lemma LabelledWordsMatch(p: Pattern, caption: string, words: string, rest: string)
    requires WellFormed(p) && p.second.None? && p.cls == LettersAndSpaces
    requires Lower(caption) == p.first
    requires IsWords(words)
    requires rest != [] ==> !IsLetter(rest[0]) && !IsSpace(rest[0])
    ensures MatchAt(caption + ": " + words + rest, p, 0) == Some(Choice(0, true, 1, |words|))
  {
    var s := caption + ": " + words + rest;
    CaptionAt(p, caption, s);
    WordsTail(caption, words, rest);
  }

  /** After the label: `": "` and a run of words ended by a character that
      is neither a letter nor whitespace. */
  lemma WordsTail(head: string, words: string, rest: string)
    requires IsWords(words)
    requires rest != [] ==> !IsLetter(rest[0]) && !IsSpace(rest[0])
    ensures MatchTail(head + ": " + words + rest, LettersAndSpaces, 0, |head|) == Some(Choice(0, true, 1, |words|))
  {
    var s := head + ": " + words + rest;
    var k := |head|;
    var e := k + 2 + |words|;
    assert s[k] == ':' && s[k + 1] == ' ';
    assert s[k + 2..e] == words;
    assert e < |s| ==> s[e] == rest[0];
    WordsAfterColon(s, k, words);
  }

  /** The same, stated on positions: `:` at `k`, one space, then the words. */
  lemma WordsAfterColon(s: string, k: nat, words: string)
    requires IsWords(words) && k + 2 + |words| <= |s|
    requires s[k] == ':' && s[k + 1] == ' ' && s[k + 2..k + 2 + |words|] == words
    requires k + 2 + |words| < |s| ==> !IsLetter(s[k + 2 + |words|]) && !IsSpace(s[k + 2 + |words|])
    ensures MatchTail(s, LettersAndSpaces, 0, k) == Some(Choice(0, true, 1, |words|))
  {
    var e := k + 2 + |words|;
    assert forall t :: k + 2 <= t < e ==> s[t] == words[t - k - 2];
    SkipSpacesAt(s, k + 1, k + 2);
    RunEndAt(s, LettersAndSpaces, k + 2, e);
    assert IsSeparator(s[k]);
    assert IsLetter(s[k + 2]);
  }

  // ---------------------------------------------------------------------
  // A blank capture
  // ---------------------------------------------------------------------

  /** When the character after the label and one blank (`" "` or `": "`) is
      neither a letter nor whitespace, the search backs off to capture that
      one blank, which trims to nothing: the field keeps its default. */
  lemma BlankCaptureGivesDefault(p: Pattern, caption: string, blank: string, rest: string, fallback: string)
    requires WellFormed(p) && p.second.None? && p.cls == LettersAndSpaces && fallback != ""
    requires Lower(caption) == p.first
    requires blank == " " || blank == ": "
    requires rest != [] && !IsLetter(rest[0]) && !IsSpace(rest[0])
    ensures FieldValue(caption + blank + rest, p, fallback) == fallback
  {
    var s := caption + blank + rest;
    var k := |caption|;
    var c := Choice(0, |blank| == 2, 0, 1);
    BlankCaptureMatch(p, caption, blank, rest);
    var start := k + |blank| - 1;
    assert CaptureStart(p, 0, c) == start;
    assert s[start..start + 1] == " ";
    FieldValueAtStart(s, p, fallback, c);
  }

  lemma BlankCaptureMatch(p: Pattern, caption: string, blank: string, rest: string)
    requires WellFormed(p) && p.second.None? && p.cls == LettersAndSpaces
    requires Lower(caption) == p.first
    requires blank == " " || blank == ": "
    requires rest != [] && !IsLetter(rest[0]) && !IsSpace(rest[0])
    ensures MatchAt(caption + blank + rest, p, 0) == Some(Choice(0, |blank| == 2, 0, 1))
  {
    var s := caption + blank + rest;
    var k := |caption|;
    var m := k + |blank|;
    CaptionAt(p, caption, s);
    assert s[m] == rest[0];
    assert s[m - 1] == ' ';
    assert s[k] == blank[0];
    SkipSpacesAt(s, m - 1, m);
    assert MatchTail(s, p.cls, 0, k) == Some(Choice(0, |blank| == 2, 0, 1));
  }

  // ---------------------------------------------------------------------
  // A token after a two-word label
  // ---------------------------------------------------------------------

  /** `Claim ID` or `Claim Type` (any case, one space apart), then `": "` or a
      single space, then a run of non-whitespace ended by whitespace or the end
      of the text: that run is the field. After a single space, the run may
      itself begin with the colon. */
  lemma LabelledToken(p: Pattern, first: string, second: string, blank: string, token: string, rest: string, fallback: string)
    requires WellFormed(p) && p.second.Some? && p.cls == NonSpaceRun && fallback != ""
    requires Lower(first) == p.first && Lower(second) == p.second.value
    requires blank == " " || blank == ": "
    requires IsToken(token)
    requires rest != [] ==> IsSpace(rest[0])
    ensures FieldValue(first + " " + second + blank + token + rest, p, fallback) == token
  {
    var head := first + " " + second;
    var s := head + blank + token + rest;
    var c := Choice(1, |blank| == 2, 1, |token|);
    LabelledTokenMatch(p, first, second, blank, token, rest);
    var start := |head| + |blank|;
    assert CaptureStart(p, 0, c) == start;
    assert s[start..start + |token|] == token;
    assert s == first + " " + second + blank + token + rest;
    TrimNoOp(token);
    FieldValueAtStart(s, p, fallback, c);
  }

  lemma LabelledTokenMatch(p: Pattern, first: string, second: string, blank: string, token: string, rest: string)
    requires WellFormed(p) && p.second.Some? && p.cls == NonSpaceRun
    requires Lower(first) == p.first && Lower(second) == p.second.value
    requires blank == " " || blank == ": "
    requires IsToken(token)
    requires rest != [] ==> IsSpace(rest[0])
    ensures MatchAt(first + " " + second + blank + token + rest, p, 0) == Some(Choice(1, |blank| == 2, 1, |token|))
  {
    var head := first + " " + second;
    var tail := blank + token + rest;
    var s := head + tail;
    assert s == first + " " + second + blank + token + rest;
    assert StartsWith(s, head) by {
      assert s[..|head|] == head;
    }
    TwoWordCaptionAt(p, first, second, s);
    TokenTail(head, blank, token, rest, 1);
  }

  /** After the label, `": "` or a single space and then a token: the tail
      matcher takes the colon, if any, the space, and the whole token. */
  lemma TokenTail(head: string, blank: string, token: string, rest: string, gap: nat)
    requires blank == " " || blank == ": "
    requires IsToken(token)
    requires rest != [] ==> IsSpace(rest[0])
    ensures MatchTail(head + (blank + token + rest), NonSpaceRun, gap, |head|)
            == Some(Choice(gap, |blank| == 2, 1, |token|))
  {
    var s := head + (blank + token + rest);
    var k := |head|;
    var m := k + |blank|;
    var opt := |blank| == 2;
    assert s[k] == blank[0];
    assert opt == (k < |s| && IsSeparator(s[k]));
    assert s[m - 1] == ' ';
    SkipSpacesAt(s, m - 1, m);
    TokenRun(s, m, token, rest);
    assert MatchTail(s, NonSpaceRun, gap, k) == Some(Choice(gap, opt, m - (k + (if opt then 1 else 0)), |token|));
  }

  /** A token followed by whitespace or the end of the text is one `\S+` run. */
  lemma TokenRun(s: string, m: nat, token: string, rest: string)
    requires IsToken(token)
    requires rest != [] ==> IsSpace(rest[0])
    requires m + |token| + |rest| == |s| && s[m..] == token + rest
    ensures m < |s| && RunEnd(s, NonSpaceRun, m) == m + |token|
  {
    var e := m + |token|;
    assert forall t :: 0 <= t < |token| ==> s[m + t] == (token + rest)[t] == token[t];
    assert e < |s| ==> s[e] == (token + rest)[|token|] == rest[0];
    RunEndAt(s, NonSpaceRun, m, e);
  }

  // ---------------------------------------------------------------------
  // Instances
  // ---------------------------------------------------------------------

  /** `[:\-]?` gives the colon back: after `Claim ID ` the colon is the id. */
  lemma SpacedColonBecomesClaimId()
    ensures FieldValue("Claim ID : X", ClaimIdPattern, DefaultClaimId) == ":"
  {
    assert "Claim ID : X" == "Claim" + " " + "ID" + " " + ":" + " X";
    LabelledToken(ClaimIdPattern, "Claim", "ID", " ", ":", " X", DefaultClaimId);
  }

  lemma ClaimIdAfterColon()
    ensures FieldValue("Claim ID: FRA-2024-9\n", ClaimIdPattern, DefaultClaimId) == "FRA-2024-9"
  {
    assert "Claim ID: FRA-2024-9\n" == "Claim" + " " + "ID" + ": " + "FRA-2024-9" + "\n";
    LabelledToken(ClaimIdPattern, "Claim", "ID", ": ", "FRA-2024-9", "\n", DefaultClaimId);
  }

  /** A spaced colon also defeats a name. */
  lemma SpacedColonLosesName()
    ensures FieldValue("Name : John", NamePattern, DefaultClaimantName) == DefaultClaimantName
  {
    assert "Name : John" == "Name" + " " + ": John";
    BlankCaptureGivesDefault(NamePattern, "Name", " ", ": John", DefaultClaimantName);
  }

  /** Digits are no name. */
  lemma DigitsAreNoName()
    ensures FieldValue("Name: 123", NamePattern, DefaultClaimantName) == DefaultClaimantName
  {
    assert "Name: 123" == "Name" + ": " + "123";
    BlankCaptureGivesDefault(NamePattern, "Name", ": ", "123", DefaultClaimantName);
  }

  /** A separator must follow the label directly. */
  lemma DetachedDashLosesVillage()
    ensures FieldValue("Village - Amgaon", VillagePattern, DefaultPlace) == DefaultPlace
  {
    assert "Village - Amgaon" == "Village" + " " + "- Amgaon";
    BlankCaptureGivesDefault(VillagePattern, "Village", " ", "- Amgaon", DefaultPlace);
  }

  /** Labels match in any case. */
  lemma UpperCaseLabel()
    ensures FieldValue("VILLAGE: Amgaon", VillagePattern, DefaultPlace) == "Amgaon"
  {
    assert "VILLAGE: Amgaon" == "VILLAGE" + ": " + "Amgaon" + "";
    LabelledWords(VillagePattern, "VILLAGE", "Amgaon", "", DefaultPlace);
  }

  /** `\s` includes the line break, so a name runs on into the next line's label. */
  lemma NameRunsOntoNextLine()
    ensures FieldValue("Name: Meena\nState: MP", NamePattern, DefaultClaimantName) == "Meena\nState"
  {
    assert "Name: Meena\nState: MP" == "Name" + ": " + "Meena\nState" + ": MP";
    LabelledWords(NamePattern, "Name", "Meena\nState", ": MP", DefaultClaimantName);
  }
}

=== FILE: field_extractor.dfy ===
/** The six fixed regular expressions of the OCR intake tool, each of the shape

        word1 [\s* word2] [:\-]? \s* (CLASS+)        with the `i` flag

    where CLASS is `\S` (claim id, claim type) or `[A-Za-z\s]` (name, village,
    district, state). `String.prototype.match` without the `g` flag returns the
    first match found by a backtracking search: the leftmost start position that
    admits any match, and at that position the first alternative the greedy
    quantifiers try. This module gives that meaning declaratively (`Valid`,
    `TriedBefore`, `Chosen`) and a direct matcher (`MatchAt`, `Search`) proved
    to agree with it. */
module FieldExtractor {
  import opened Base

  datatype CaptureClass = NonSpaceRun | LettersAndSpaces

  /** Label words are stored lower-case; `second` is the word after `\s*`, if any. */
  datatype Pattern = Pattern(first: string, second: Option<string>, cls: CaptureClass)

  predicate Word(w: string) {
    |w| > 0 && forall t :: 0 <= t < |w| ==> IsLower(w[t])
  }

  predicate WellFormed(p: Pattern) {
    Word(p.first) && (p.second.Some? ==> Word(p.second.value))
  }

  /** `/Claim\s*ID[:\-]?\s*(\S+)/i` */
  const ClaimIdPattern := Pattern("claim", Some("id"), NonSpaceRun)
  /** `/Name[:\-]?\s*([A-Za-z\s]+)/i` */
  const NamePattern := Pattern("name", None, LettersAndSpaces)
  /** `/Village[:\-]?\s*([A-Za-z\s]+)/i` */
  const VillagePattern := Pattern("village", None, LettersAndSpaces)
  /** `/District[:\-]?\s*([A-Za-z\s]+)/i` */
  const DistrictPattern := Pattern("district", None, LettersAndSpaces)
  /** `/State[:\-]?\s*([A-Za-z\s]+)/i` */
  const StatePattern := Pattern("state", None, LettersAndSpaces)
  /** `/Claim\s*Type[:\-]?\s*(\S+)/i` */
  const ClaimTypePattern := Pattern("claim", Some("type"), NonSpaceRun)

  predicate InClass(cls: CaptureClass, c: char) {
    match cls
    case NonSpaceRun => !IsSpace(c)
    case LettersAndSpaces => IsLetter(c) || IsSpace(c)
  }

  /** The optional class `[:\-]`. */
  predicate IsSeparator(c: char) {
    c == ':' || c == '-'
  }

  // ---------------------------------------------------------------------
  // Declarative meaning
  // ---------------------------------------------------------------------

  /** The lower-case word `w` occurs at `i`, ignoring ASCII case. */
  predicate WordAt(s: string, i: int, w: string) {
    0 <= i && i + |w| <= |s| && forall t :: 0 <= t < |w| ==> Fold(s[i + t]) == w[t]
  }

  predicate SpacesBetween(s: string, a: int, b: int) {
    0 <= a <= b <= |s| && forall t :: a <= t < b ==> IsSpace(s[t])
  }

  predicate ClassBetween(s: string, cls: CaptureClass, a: int, b: int) {
    0 <= a <= b <= |s| && forall t :: a <= t < b ==> InClass(cls, s[t])
  }

  /** One way the pattern can match: `gap` characters matched by the `\s*`
      inside the label, whether `[:\-]?` took a character, how many characters
      the `\s*` before the group took, and the length of the captured group. */
  datatype Choice = Choice(gap: nat, opt: bool, spaces: nat, len: nat)

  function LabelEnd(p: Pattern, i: nat, gap: nat): nat {
    i + |p.first| + (match p.second case None => 0 case Some(w) => gap + |w|)
  }

  predicate LabelAt(s: string, p: Pattern, i: nat, gap: nat) {
    && WordAt(s, i, p.first)
    && match p.second
       case None => gap == 0
       case Some(w) =>
         SpacesBetween(s, i + |p.first|, i + |p.first| + gap) && WordAt(s, i + |p.first| + gap, w)
  }

  /** The part after the label, starting at index `k`. */
  predicate TailValid(s: string, cls: CaptureClass, k: nat, c: Choice) {
    && (c.opt ==> k < |s| && IsSeparator(s[k]))
    && var a := k + (if c.opt then 1 else 0);
       && SpacesBetween(s, a, a + c.spaces)
       && c.len >= 1
       && ClassBetween(s, cls, a + c.spaces, a + c.spaces + c.len)
  }

  predicate Valid(s: string, p: Pattern, i: nat, c: Choice) {
    LabelAt(s, p, i, c.gap) && TailValid(s, p.cls, LabelEnd(p, i, c.gap), c)
  }

  /** The order in which the backtracking search tries the ways to match at
      one position: greedy `*` and `+` try longer first, `?` tries taking the
      character first, earlier quantifiers take precedence over later ones. */
  predicate TriedBefore(x: Choice, y: Choice) {
    || x.gap > y.gap
    || (x.gap == y.gap && x.opt && !y.opt)
    || (x.gap == y.gap && x.opt == y.opt && x.spaces > y.spaces)
    || (x.gap == y.gap && x.opt == y.opt && x.spaces == y.spaces && x.len > y.len)
  }

  /** The way the search commits to at position `i`: valid and tried before every other valid way. */
  ghost predicate Chosen(s: string, p: Pattern, i: nat, c: Choice) {
    Valid(s, p, i, c) && forall c' :: Valid(s, p, i, c') && c' != c ==> TriedBefore(c, c')
  }

  function CaptureStart(p: Pattern, i: nat, c: Choice): nat {
    LabelEnd(p, i, c.gap) + (if c.opt then 1 else 0) + c.spaces
  }

  /** The text of capture group 1 for a valid way of matching. */
  function Capture(s: string, p: Pattern, i: nat, c: Choice): (r: string)
    requires Valid(s, p, i, c)
    ensures |r| == c.len >= 1
    ensures forall t :: 0 <= t < |r| ==> InClass(p.cls, r[t])
  {
    s[CaptureStart(p, i, c)..CaptureStart(p, i, c) + c.len]
  }

  // ---------------------------------------------------------------------
  // Direct matcher
  // ---------------------------------------------------------------------

  /** End of the longest run of `cls` characters starting at `a`. */
  function RunEnd(s: string, cls: CaptureClass, a: nat): (e: nat)
    requires a <= |s|
    ensures a <= e <= |s|
    ensures ClassBetween(s, cls, a, e)
    ensures e < |s| ==> !InClass(cls, s[e])
    decreases |s| - a
  {
    if a < |s| && InClass(cls, s[a]) then RunEnd(s, cls, a + 1) else a
  }

  /** The longest run is the one that is followed by the end of the text or by a character outside the class. */
  lemma RunEndAt(s: string, cls: CaptureClass, a: nat, e: nat)
    requires a <= e <= |s| && ClassBetween(s, cls, a, e)
    requires e < |s| ==> !InClass(cls, s[e])
    ensures RunEnd(s, cls, a) == e
  {
    var r := RunEnd(s, cls, a);
    assert r < e ==> InClass(cls, CharAt(s, r));
    assert r > e ==> InClass(cls, CharAt(s, e));
  }

  /** The gap of the label at `i`, if the label occurs there. */
  function LabelGap(s: string, p: Pattern, i: nat): Option<nat> {
    if !WordAt(s, i, p.first) then None
    else match p.second
      case None => Some(0)
      case Some(w) =>
        var j := SkipSpaces(s, i + |p.first|);
        if WordAt(s, j, w) then Some(j - (i + |p.first|)) else None
  }

  function MatchTail(s: string, cls: CaptureClass, gap: nat, k: nat): Option<Choice>
    requires k <= |s|
  {
    var opt := k < |s| && IsSeparator(s[k]);
    var a := k + (if opt then 1 else 0);
    var m := SkipSpaces(s, a);
    match cls
    case NonSpaceRun =>
      if m < |s| then Some(Choice(gap, opt, m - a, RunEnd(s, cls, m) - m))
      else if opt then Some(Choice(gap, false, 0, 1))
      else None
    case LettersAndSpaces =>
      if m < |s| && IsLetter(s[m]) then Some(Choice(gap, opt, m - a, RunEnd(s, cls, m) - m))
      else if m > a then Some(Choice(gap, opt, m - 1 - a, 1))
      else None
  }

  function MatchAt(s: string, p: Pattern, i: nat): Option<Choice> {
    match LabelGap(s, p, i)
    case None => None
    case Some(gap) =>
      if LabelEnd(p, i, gap) <= |s| then MatchTail(s, p.cls, gap, LabelEnd(p, i, gap)) else None
  }

  // ---------------------------------------------------------------------
  // The matcher agrees with the declarative meaning
  // ---------------------------------------------------------------------

  /** The `\s*` inside the label can only take all the whitespace there is:
      the second word starts with a letter. */
  lemma LabelGapCorrect(s: string, p: Pattern, i: nat, gap: nat)
    requires WellFormed(p)
    ensures LabelAt(s, p, i, gap) <==> LabelGap(s, p, i) == Some(gap)
  {
    if p.second.Some? && WordAt(s, i, p.first) {
      var w := p.second.value;
      var b := i + |p.first|;
      var j := SkipSpaces(s, b);
      assert LabelAt(s, p, i, gap) && b + gap < j ==>
               IsSpace(CharAt(s, b + gap)) && Fold(CharAt(s, b + gap + 0)) == CharAt(w, 0);
      assert LabelAt(s, p, i, gap) && b + gap > j ==> IsSpace(CharAt(s, j));
    }
  }

  /** The direct tail matcher returns exactly the first way tried. */
  lemma MatchTailCorrect(s: string, cls: CaptureClass, gap: nat, k: nat)
    requires k <= |s|
    ensures MatchTail(s, cls, gap, k).None? ==>
              forall c: Choice :: c.gap == gap ==> !TailValid(s, cls, k, c)
    ensures MatchTail(s, cls, gap, k).Some? ==>
              var c := MatchTail(s, cls, gap, k).value;
              && c.gap == gap && TailValid(s, cls, k, c)
              && forall c': Choice :: c'.gap == gap && TailValid(s, cls, k, c') && c' != c ==> TriedBefore(c, c')
  {
    var opt := k < |s| && IsSeparator(s[k]);
    var a := k + (if opt then 1 else 0);
    var m := SkipSpaces(s, a);
    forall c': Choice | c'.gap == gap && TailValid(s, cls, k, c')
      ensures MatchTail(s, cls, gap, k).Some?
      ensures var c := MatchTail(s, cls, gap, k).value; c' != c ==> TriedBefore(c, c')
    {
      TailAlternative(s, cls, gap, k, c');
    }
    if MatchTail(s, cls, gap, k).Some? {
      var c := MatchTail(s, cls, gap, k).value;
      assert cls == NonSpaceRun && m == |s| ==> k + 1 < |s| ==> IsSpace(CharAt(s, k + 1));
      assert TailValid(s, cls, k, c);
    }
  }

  /** Any valid way of matching the tail ranks no higher than the matcher's. */
  lemma TailAlternative(s: string, cls: CaptureClass, gap: nat, k: nat, c': Choice)
    requires k <= |s|
    requires c'.gap == gap && TailValid(s, cls, k, c')
    ensures MatchTail(s, cls, gap, k).Some?
    ensures var c := MatchTail(s, cls, gap, k).value; c' != c ==> TriedBefore(c, c')
  {
    var opt := k < |s| && IsSeparator(s[k]);
    var a := k + (if opt then 1 else 0);
    var m := SkipSpaces(s, a);
    var e := RunEnd(s, cls, m);
    var a' := k + (if c'.opt then 1 else 0);
    var start' := a' + c'.spaces;
    assert InClass(cls, s[start']);
    assert c'.opt ==> opt;
    // with the same start, the spaces of c' can not run past the first non-space
    assert c'.opt == opt && start' > m ==> IsSpace(CharAt(s, m));
    // nor can its capture run past the end of the longest run
    assert c'.opt == opt && m == start' && start' + c'.len > e ==> InClass(cls, CharAt(s, e));
    assert c'.opt == opt && start' + 1 == m && c'.len > 1 ==> InClass(cls, CharAt(s, m));
    // the matcher took the separator and c' did not: c' starts its capture at the separator
    assert opt && !c'.opt ==> start' == k && !IsSpace(CharAt(s, k));
    assert opt && !c'.opt && m == |s| && c'.len > 1 ==> IsSpace(CharAt(s, k + 1));
  }

  lemma MatchAtCorrect(s: string, p: Pattern, i: nat)
    requires WellFormed(p)
    ensures MatchAt(s, p, i).None? ==> forall c :: !Valid(s, p, i, c)
    ensures MatchAt(s, p, i).Some? ==> Chosen(s, p, i, MatchAt(s, p, i).value)
  {
    forall c | Valid(s, p, i, c)
      ensures MatchAt(s, p, i).Some?
      ensures c != MatchAt(s, p, i).value ==> TriedBefore(MatchAt(s, p, i).value, c)
    {
      LabelGapCorrect(s, p, i, c.gap);
      assert LabelEnd(p, i, c.gap) <= |s|;
      MatchTailCorrect(s, p.cls, c.gap, LabelEnd(p, i, c.gap));
    }
    match LabelGap(s, p, i)
    case None =>
    case Some(gap) =>
      LabelGapCorrect(s, p, i, gap);
      if LabelEnd(p, i, gap) <= |s| {
        MatchTailCorrect(s, p.cls, gap, LabelEnd(p, i, gap));
      }
  }

  /** Search for the first position at or after `from` where the pattern matches. */
  function SearchFrom(s: string, p: Pattern, from: nat): Option<(nat, Choice)>
    decreases |s| + 1 - from
  {
    if from > |s| then None
    else match MatchAt(s, p, from)
      case Some(c) => Some((from, c))
      case None => SearchFrom(s, p, from + 1)
  }

  /** No way of matching starts in `[lo, hi)`. */
  ghost predicate NoMatchIn(s: string, p: Pattern, lo: nat, hi: int) {
    forall j: nat, c :: lo <= j < hi ==> !Valid(s, p, j, c)
  }

  lemma {:induction false} SearchFromCorrect(s: string, p: Pattern, from: nat)
    requires WellFormed(p)
    ensures SearchFrom(s, p, from).None? ==> NoMatchIn(s, p, from, |s| + 1)
    ensures SearchFrom(s, p, from).Some? ==>
              && from <= SearchFrom(s, p, from).value.0
              && Chosen(s, p, SearchFrom(s, p, from).value.0, SearchFrom(s, p, from).value.1)
              && NoMatchIn(s, p, from, SearchFrom(s, p, from).value.0)
    decreases |s| + 1 - from
  {
    if from <= |s| {
      MatchAtCorrect(s, p, from);
      match MatchAt(s, p, from)
      case Some(c) =>
        assert SearchFrom(s, p, from) == Some((from, c));
      case None =>
        SearchFromCorrect(s, p, from + 1);
        assert SearchFrom(s, p, from) == SearchFrom(s, p, from + 1);
        match SearchFrom(s, p, from + 1)
        case None =>
          NoMatchStep(s, p, from, |s| + 1);
        case Some((i, _)) =>
          NoMatchStep(s, p, from, i);
    }
  }

  lemma NoMatchStep(s: string, p: Pattern, from: nat, hi: int)
    requires forall c :: !Valid(s, p, from, c)
    requires NoMatchIn(s, p, from + 1, hi)
    ensures NoMatchIn(s, p, from, hi)
  {
  }

  /** A match starts no later than the end of the text. */
  lemma MatchWithinText(s: string, p: Pattern, i: nat, c: Choice)
    requires WellFormed(p) && Valid(s, p, i, c)
    ensures i <= |s|
  {
  }

  /** `text.match(pattern)`: the leftmost position admitting a match, and the
      way of matching the backtracking search commits to there. */
  function Search(s: string, p: Pattern): (r: Option<(nat, Choice)>)
    requires WellFormed(p)
    ensures r.None? <==> forall i: nat, c :: !Valid(s, p, i, c)
    ensures r.Some? ==> var (i, c) := r.value;
              && Chosen(s, p, i, c)
              && forall j: nat, c' :: j < i ==> !Valid(s, p, j, c')
  {
    SearchFromCorrect(s, p, 0);
    forall i: nat, c | Valid(s, p, i, c) ensures i <= |s| {
      MatchWithinText(s, p, i, c);
    }
    SearchFrom(s, p, 0)
  }

  /** `text.match(pattern)?.[1]`. */
  function Captured(s: string, p: Pattern): (r: Option<string>)
    requires WellFormed(p)
    ensures r.None? <==> forall i: nat, c :: !Valid(s, p, i, c)
    ensures r.Some? ==> |r.value| >= 1 && forall t :: 0 <= t < |r.value| ==> InClass(p.cls, r.value[t])
  {
    match Search(s, p)
    case None => None
    case Some((i, c)) => Some(Capture(s, p, i, c))
  }

  /** `text.match(pattern)?.[1]?.trim() || fallback`. */
  function FieldValue(s: string, p: Pattern, fallback: string): (r: string)
    requires WellFormed(p) && fallback != ""
    ensures r != ""
    ensures (forall i: nat, c :: !Valid(s, p, i, c)) ==> r == fallback
    ensures r != fallback ==> Captured(s, p).Some? && r == Trim(Captured(s, p).value)
    ensures r != fallback ==> !IsSpace(r[0]) && !IsSpace(r[|r| - 1])
    ensures r != fallback ==> forall t :: 0 <= t < |r| ==> InClass(p.cls, r[t])
    ensures p.cls == NonSpaceRun && Captured(s, p).Some? ==> r == Captured(s, p).value
    ensures Captured(s, p).Some? ==>
              r == (if Trim(Captured(s, p).value) != "" then Trim(Captured(s, p).value) else fallback)
  {
    match Captured(s, p)
    case None => fallback
    case Some(v) =>
      TrimKeepsClass(v, p.cls);
      var t := Trim(v);
      if t == "" then fallback else t
  }

  /** Trimming a capture keeps it inside its class, and leaves an `\S+`
      capture as it is. */
  lemma TrimKeepsClass(v: string, cls: CaptureClass)
    requires forall t :: 0 <= t < |v| ==> InClass(cls, v[t])
    ensures forall t :: 0 <= t < |Trim(v)| ==> InClass(cls, Trim(v)[t])
    ensures cls == NonSpaceRun ==> Trim(v) == v
  {
    var a, b :| 0 <= a <= b <= |v| && Trim(v) == v[a..b];
    assert forall t :: 0 <= t < |Trim(v)| ==> Trim(v)[t] == v[a + t];
    if cls == NonSpaceRun {
      TrimNoOp(v);
    }
  }

  /** A match at the very start of the text is the one `match` reports. */
  lemma SearchAtStart(s: string, p: Pattern, c: Choice)
    requires WellFormed(p) && MatchAt(s, p, 0) == Some(c)
    ensures Search(s, p) == Some((0, c))
  {
    assert SearchFrom(s, p, 0) == Some((0, c));
  }

  lemma CapturedAtStart(s: string, p: Pattern, c: Choice)
    requires WellFormed(p) && MatchAt(s, p, 0) == Some(c)
    ensures CaptureStart(p, 0, c) + c.len <= |s|
    ensures Captured(s, p) == Some(s[CaptureStart(p, 0, c)..CaptureStart(p, 0, c) + c.len])
  {
    SearchAtStart(s, p, c);
  }

  /** So the match at the start decides the field. */
  lemma FieldValueAtStart(s: string, p: Pattern, fallback: string, c: Choice)
    requires WellFormed(p) && fallback != "" && MatchAt(s, p, 0) == Some(c)
    ensures CaptureStart(p, 0, c) + c.len <= |s|
    ensures var v := Trim(s[CaptureStart(p, 0, c)..CaptureStart(p, 0, c) + c.len]);
            FieldValue(s, p, fallback) == if v == "" then fallback else v
  {
    CapturedAtStart(s, p, c);
  }

  /** A capture of `\S` characters is never changed by trimming. */
  lemma NonSpaceCaptureIsTrimmed(s: string, p: Pattern)
    requires WellFormed(p) && p.cls == NonSpaceRun && Captured(s, p).Some?
    ensures Trim(Captured(s, p).value) == Captured(s, p).value
  {
    TrimNoOp(Captured(s, p).value);
  }

  // ---------------------------------------------------------------------
  // Consequences
  // ---------------------------------------------------------------------

  /** Text in which the first label word does not occur, in any case, yields the fallback. */
  lemma AbsentLabelGivesFallback(s: string, p: Pattern, fallback: string)
    requires WellFormed(p) && fallback != ""
    requires !Contains(Lower(s), p.first)
    ensures FieldValue(s, p, fallback) == fallback
  {
    forall i: nat, c ensures !Valid(s, p, i, c) {
      ValidImpliesLabelOccurs(s, p, i, c);
    }
  }

  /** The whole label (both words, with the `\s*` between them) occurs
      somewhere in the text, in any case. */
  predicate LabelOccurs(s: string, p: Pattern) {
    exists i :: 0 <= i <= |s| && LabelGap(s, p, i).Some?
  }

  /** Text in which the label does not occur, in any case, yields the
      fallback, even when the first label word occurs on its own. */
  lemma NoLabelGivesFallback(s: string, p: Pattern, fallback: string)
    requires WellFormed(p) && fallback != ""
    requires !LabelOccurs(s, p)
    ensures FieldValue(s, p, fallback) == fallback
  {
    forall i: nat, c ensures !Valid(s, p, i, c) {
      LabelGapCorrect(s, p, i, c.gap);
      if i <= |s| {
        assert LabelGap(s, p, i).None?;
      }
    }
  }

  /** A match begins with the first label word, in some case. */
  lemma ValidImpliesLabelOccurs(s: string, p: Pattern, i: nat, c: Choice)
    ensures Valid(s, p, i, c) ==> Contains(Lower(s), p.first)
  {
    if Valid(s, p, i, c) {
      assert Lower(s)[i..i + |p.first|] == p.first;
      assert OccursAt(Lower(s), p.first, i);
    }
  }

  /** Changing the case of a character changes neither its class nor whether it is a separator. */
  lemma FoldKeepsClasses(x: char, y: char)
    requires Fold(x) == Fold(y)
    ensures IsSpace(x) == IsSpace(y)
    ensures IsLetter(x) == IsLetter(y)
    ensures IsSeparator(x) == IsSeparator(y)
    ensures forall cls :: InClass(cls, x) == InClass(cls, y)
  {
  }

  lemma ValidIgnoresCase(s: string, s': string, p: Pattern, i: nat, c: Choice)
    requires Lower(s) == Lower(s')
    ensures Valid(s, p, i, c) == Valid(s', p, i, c)
  {
    assert |s| == |s'|;
    forall t | 0 <= t < |s|
      ensures Fold(s[t]) == Fold(s'[t])
      ensures IsSpace(s[t]) == IsSpace(s'[t]) && IsSeparator(s[t]) == IsSeparator(s'[t])
      ensures InClass(p.cls, s[t]) == InClass(p.cls, s'[t])
    {
      assert Lower(s)[t] == Lower(s')[t];
      FoldKeepsClasses(s[t], s'[t]);
    }
  }

  /** At most one way of matching is tried first. */
  lemma ChosenUnique(s: string, p: Pattern, i: nat, c1: Choice, c2: Choice)
    requires Chosen(s, p, i, c1) && Chosen(s, p, i, c2)
    ensures c1 == c2
  {
    assert c1 != c2 ==> TriedBefore(c1, c2) && TriedBefore(c2, c1);
  }

  /** Matching ignores case: texts that agree up to ASCII case have their match
      at the same position, taken the same way. */
  lemma SearchIgnoresCase(s: string, s': string, p: Pattern)
    requires WellFormed(p) && Lower(s) == Lower(s')
    ensures Search(s, p) == Search(s', p)
  {
    forall i: nat, c ensures Valid(s, p, i, c) == Valid(s', p, i, c) {
      ValidIgnoresCase(s, s', p, i, c);
    }
    if Search(s, p).Some? {
      var (i, c) := Search(s, p).value;
      var (i', c') := Search(s', p).value;
      assert Valid(s, p, i', c') && Valid(s', p, i, c);
      assert i == i';
      ChosenUnique(s, p, i, c, c');
    }
  }
}

=== FILE: map_sidebar.dfy ===
/** The map sidebar: the state search, the state-to-district cascade, the
    layer switches and their labels. The host page's callbacks are modelled
    as emitted events; a callback the host did not pass throws when called. */
module MapSidebar {
  import opened Base

  const States: seq<string> := [
    "Madhya Pradesh",
    "Telangana",
    "Maharashtra",
    "Karnataka",
    "Rajasthan",
    "Uttar Pradesh"
  ]

  /** The key of the fallback district list. */
  const DefaultKey := "default"

  /** `DISTRICTS_DATA`: two states have district lists; the `default` entry is
      the fallback for every other state. */
  const DistrictsData: map<string, seq<string>> := map[
    "Madhya Pradesh" := [
      "Bhopal", "Indore", "Jabalpur", "Gwalior", "Ujjain",
      "Sagar", "Rewa", "Satna", "Chhindwara", "Betul"
    ],
    "Telangana" := [
      "Hyderabad", "Rangareddy", "Medchal-Malkajgiri", "Karimnagar", "Warangal"
    ],
    DefaultKey := ["Select District"]
  ]

  // ---------------------------------------------------------------------------
  // Derived lists

  /** `filteredStates`: the states whose lower-cased name contains the
      lower-cased search text, in their declared order. */
  function FilteredStates(search: string): (r: seq<string>)
    ensures |r| <= |States|
    ensures forall st :: st in r <==> st in States && Contains(Lower(st), Lower(search))
    ensures IsSubsequence(r, States)
  {
    FilterIsSubsequence(States, (st: string) => Contains(Lower(st), Lower(search)));
    Filter(States, (st: string) => Contains(Lower(st), Lower(search)))
  }

  /** An empty search offers every state. */
  lemma EmptySearchOffersAll()
    ensures FilteredStates("") == States
  {
    forall st: string
      ensures Contains(Lower(st), Lower(""))
    {
      EmptyIsContained(Lower(st));
    }
    FilterKeepsAll(States, (st: string) => Contains(Lower(st), Lower("")));
  }

  /** `availableDistricts`: the state's list when it has one, and the
      fallback list otherwise; never empty. */
  function AvailableDistricts(state: string): (r: seq<string>)
    ensures r != []
    ensures state in DistrictsData ==> r == DistrictsData[state]
    ensures state !in DistrictsData ==> r == DistrictsData[DefaultKey]
  {
    if state in DistrictsData then DistrictsData[state] else DistrictsData[DefaultKey]
  }

  /** Of the six states, only Madhya Pradesh and Telangana have their own
      districts; the others fall back to the placeholder. */
  lemma StatesWithoutDistricts(state: string)
    requires state in States[2..]
    ensures AvailableDistricts(state) == ["Select District"]
  {
  }

  // ---------------------------------------------------------------------------
  // Layer labels

  /** The switch label of a layer key: a space before each capital, the
      first character upper-cased, then trimmed. */
  function LayerLabel(key: string): (r: string)
    ensures r != [] ==> !IsSpace(r[0]) && !IsSpace(r[|r| - 1])
  {
    Trim(UpperFirst(SpaceBeforeCapitals(key)))
  }

  /** A camel-case key needs no trimming, and its label gives the key back
      once the spaces are removed and the first letter is lower-cased. */
  lemma CamelKeyLabel(key: string)
    requires IsCamelKey(key) && !IsSpace(key[|key| - 1])
    ensures LayerLabel(key) == UpperFirst(SpaceBeforeCapitals(key))
    ensures LowerFirst(RemoveSpaces(LayerLabel(key))) == key
  {
    CamelLabelUntrimmed(key);
    SpaceBeforeCapitalsRoundTrip(key);
    RaiseThenLowerFirst(SpaceBeforeCapitals(key));
  }

  /** The spaced camel-case key starts with its lower-case letter and ends
      with its last character, so trimming leaves it alone. */
  lemma CamelLabelUntrimmed(key: string)
    requires IsCamelKey(key) && !IsSpace(key[|key| - 1])
    ensures SpaceBeforeCapitals(key) != [] && IsLower(SpaceBeforeCapitals(key)[0])
    ensures LayerLabel(key) == UpperFirst(SpaceBeforeCapitals(key))
  {
    var spaced := SpaceBeforeCapitals(key);
    SpaceBeforeCapitalsEnd(key);
    var r := UpperFirst(spaced);
    assert IsUpper(r[0]);
    if |r| > 1 {
      assert r[|r| - 1] == r[1..][|r| - 2] == spaced[1..][|r| - 2] == spaced[|spaced| - 1];
    }
    TrimNoOp(r);
  }

  /** Upper-casing a lower-case first letter, removing the spaces and
      lower-casing the first letter again is the same as removing the spaces. */
  lemma RaiseThenLowerFirst(s: string)
    requires s != [] && IsLower(s[0])
    ensures LowerFirst(RemoveSpaces(UpperFirst(s))) == RemoveSpaces(s)
  {
    var r := UpperFirst(s);
    assert r == [Raise(s[0])] + s[1..];
    assert r[1..] == s[1..];
    assert RemoveSpaces(r) == [Raise(s[0])] + RemoveSpaces(s[1..]);
    assert RemoveSpaces(s) == [s[0]] + RemoveSpaces(s[1..]);
  }

  /** SpaceBeforeCapitals keeps the last character. */
  lemma {:induction false} SpaceBeforeCapitalsEnd(s: string)
    requires s != []
    ensures SpaceBeforeCapitals(s) != [] && SpaceBeforeCapitals(s)[|SpaceBeforeCapitals(s)| - 1] == s[|s| - 1]
  {
    if |s| > 1 {
      SpaceBeforeCapitalsEnd(s[1..]);
    }
  }

  /** A key made of a lower-case word and a capitalised word, such as
      `fraClaims`, is labelled with both words capitalised and one space
      between them (`Fra Claims`). */
  lemma TwoWordLayerLabel(first: string, second: string)
    requires first != [] && forall i :: 0 <= i < |first| ==> IsLower(first[i])
    requires second != [] && IsUpper(second[0])
    requires forall i :: 1 <= i < |second| ==> IsLower(second[i])
    ensures LayerLabel(first + second) == [Raise(first[0])] + first[1..] + " " + second
  {
    var key := first + second;
    assert IsCamelKey(key) && !IsSpace(key[|key| - 1]) by {
      assert key[0] == first[0];
      assert key[|key| - 1] == second[|second| - 1];
      forall i | 0 <= i < |key| ensures key[i] != ' ' {
        if i >= |first| { assert key[i] == second[i - |first|]; }
      }
    }
    CamelKeyLabel(key);
    TwoWordSpacing(first, second);
    UpperFirstOfWords(first, second);
  }

  lemma UpperFirstOfWords(first: string, second: string)
    requires first != [] && IsLower(first[0])
    ensures UpperFirst(first + " " + second) == [Raise(first[0])] + first[1..] + " " + second
  {
    var spaced := first + " " + second;
    assert spaced[0] == first[0];
    assert spaced[1..] == first[1..] + " " + second;
  }

  // ---------------------------------------------------------------------------
  // The sidebar's state and handlers

  /** Which callbacks the host page passed. */
  datatype Host = Host(onSelectState: bool, onSelectDistrict: bool, onToggleLayer: bool)

  /** The asset map passes the district and layer callbacks but not the
      state one. */
  const AssetMapHost := Host(false, true, true)

  datatype Event =
    | StateSelected(state: string)
    | DistrictSelected(district: string)
    | LayerToggled(layer: string, on: bool)

  datatype Sidebar = Sidebar(state: string, district: string, search: string, layers: map<string, bool>)

  /** A handler either finishes with a new sidebar and the callbacks it made,
      or throws at a missing callback after the callbacks it made before. */
  datatype Outcome = Done(sidebar: Sidebar, events: seq<Event>) | Threw(events: seq<Event>)

  const InitialLayers: map<string, bool> := map[
    "stateBoundary" := true,
    "districtBoundary" := true,
    "mandalBoundary" := false,
    "villageBoundary" := true,
    "fraClaims" := true,
    "forestChange" := false
  ]

  function Initial(): (r: Sidebar)
    ensures r.state == States[0] && r.district == AvailableDistricts(States[0])[0]
    ensures r.search == "" && r.layers == InitialLayers
  {
    Sidebar("Madhya Pradesh", "Bhopal", "", InitialLayers)
  }

  /** The selected district belongs to the selected state's list. */
  predicate Consistent(s: Sidebar) {
    s.district in AvailableDistricts(s.state)
  }

  /** `handleStateChange`: the district becomes the first of the new state's
      list; the state is reported, then the district. */
  function ChangeState(s: Sidebar, host: Host, state: string): (r: Outcome)
    ensures host.onSelectState && host.onSelectDistrict ==>
              r.Done? && r.sidebar == s.(state := state, district := AvailableDistricts(state)[0])
              && r.events == [StateSelected(state), DistrictSelected(AvailableDistricts(state)[0])]
    ensures !host.onSelectState ==> r == Threw([])
    ensures host.onSelectState && !host.onSelectDistrict ==> r == Threw([StateSelected(state)])
  {
    var district := AvailableDistricts(state)[0];
    if !host.onSelectState then Threw([])
    else if !host.onSelectDistrict then Threw([StateSelected(state)])
    else Done(s.(state := state, district := district), [StateSelected(state), DistrictSelected(district)])
  }

  /** `handleDistrictChange`: the chosen district is selected and reported. */
  function ChangeDistrict(s: Sidebar, host: Host, district: string): (r: Outcome)
    ensures host.onSelectDistrict ==> r == Done(s.(district := district), [DistrictSelected(district)])
    ensures !host.onSelectDistrict ==> r == Threw([])
  {
    if host.onSelectDistrict then Done(s.(district := district), [DistrictSelected(district)]) else Threw([])
  }

  /** The flags after `handleLayerToggle`: an absent flag reads as off, so
      toggling it switches it on. */
  function Flip(layers: map<string, bool>, name: string): (r: map<string, bool>)
    ensures r.Keys == layers.Keys + {name}
    ensures r[name] == !(name in layers && layers[name])
    ensures forall k :: k in layers && k != name ==> r[k] == layers[k]
  {
    layers[name := !(name in layers && layers[name])]
  }

  /** `handleLayerToggle`: flips one flag and reports its new value. */
  function ToggleLayer(s: Sidebar, host: Host, name: string): (r: Outcome)
    ensures host.onToggleLayer ==>
              (r.Done? && r.sidebar.layers == Flip(s.layers, name)
               && r.sidebar == s.(layers := r.sidebar.layers)
               && r.events == [LayerToggled(name, r.sidebar.layers[name])])
    ensures !host.onToggleLayer ==> r == Threw([])
  {
    var layers := Flip(s.layers, name);
    if host.onToggleLayer then Done(s.(layers := layers), [LayerToggled(name, layers[name])]) else Threw([])
  }

  /** Toggling a layer twice restores the flags; a layer that had no flag
      ends up switched off. */
  lemma FlipTwice(layers: map<string, bool>, name: string)
    ensures name in layers ==> Flip(Flip(layers, name), name) == layers
    ensures name !in layers ==> Flip(Flip(layers, name), name) == layers[name := false]
  {
  }

  /** Toggling two different layers commutes. */
  lemma FlipsCommute(layers: map<string, bool>, a: string, b: string)
    requires a != b
    ensures Flip(Flip(layers, a), b) == Flip(Flip(layers, b), a)
  {
  }

  /** The initial selection is consistent, and every completed state or
      district change keeps it so when the district comes from the list on
      show. */
  lemma SelectionStaysConsistent(s: Sidebar, host: Host, state: string, district: string)
    ensures Consistent(Initial())
    ensures ChangeState(s, host, state).Done? ==> Consistent(ChangeState(s, host, state).sidebar)
    ensures Consistent(s) && district in AvailableDistricts(s.state) && ChangeDistrict(s, host, district).Done? ==>
              Consistent(ChangeDistrict(s, host, district).sidebar)
  {
  }

  /** Hosted by the asset map, a state change throws before reporting
      anything, while district changes and layer toggles complete. */
  lemma AssetMapHostThrowsOnStateChange(s: Sidebar, state: string, district: string, name: string)
    ensures ChangeState(s, AssetMapHost, state) == Threw([])
    ensures ChangeDistrict(s, AssetMapHost, district).Done?
    ensures ToggleLayer(s, AssetMapHost, name).Done?
  {
  }
}

=== FILE: message_content.dfy ===
/** The chat message formatter: `**bold**` spans become `<strong>` elements
    before the message text is shown. */
module MessageContent {
  import opened Base

  /** `**` starts at `t`. */
  predicate IsPairAt(s: string, t: int) {
    0 <= t && t + 1 < |s| && s[t] == '*' && s[t + 1] == '*'
  }

  /** Before `k` there is neither a line terminator (which `.` does not
      match) nor a `**`. */
  predicate Clear(s: string, k: int) {
    forall t :: 0 <= t < k ==> !IsLineTerminator(CharAt(s, t)) && !IsPairAt(s, t)
  }

  /** Where the lazy `(.*?)` followed by `**` stops when it runs over `u`:
      at the first `**`, unless a line terminator comes first. */
  function CloseIn(u: string): (k: Option<nat>)
    ensures k.Some? ==> IsPairAt(u, k.value)
    decreases |u|
  {
    if IsPairAt(u, 0) then Some(0)
    else if u != [] && !IsLineTerminator(u[0]) then
      match CloseIn(u[1..])
      case Some(k) => Some(k + 1)
      case None => None
    else None
  }

  /** CloseIn finds the first `**` reachable without crossing a line
      terminator, and finds nothing only when there is none. */
  lemma {:induction false} CloseInIsFirst(u: string)
    ensures CloseIn(u).Some? ==> Clear(u, CloseIn(u).value)
    ensures CloseIn(u).None? ==> forall k :: IsPairAt(u, k) ==> !Clear(u, k)
    decreases |u|
  {
    if !IsPairAt(u, 0) && u != [] && !IsLineTerminator(u[0]) {
      var v := u[1..];
      CloseInIsFirst(v);
      forall t | 1 <= t
        ensures IsPairAt(u, t) == IsPairAt(v, t - 1) && CharAt(u, t) == CharAt(v, t - 1)
      {
      }
      if CloseIn(u).None? {
        forall k | IsPairAt(u, k)
          ensures !Clear(u, k)
        {
          assert k >= 1 && IsPairAt(v, k - 1);
          assert CloseIn(v).None?;
          var t :| 0 <= t < k - 1 && (IsLineTerminator(CharAt(v, t)) || IsPairAt(v, t));
          assert CharAt(u, t + 1) == CharAt(v, t) && IsPairAt(u, t + 1) == IsPairAt(v, t);
        }
      }
    } else if !IsPairAt(u, 0) {
      forall k | IsPairAt(u, k)
        ensures !Clear(u, k)
      {
        assert k > 0 && u != [];
        assert IsLineTerminator(CharAt(u, 0));
      }
    }
  }

  function Strong(x: string): string {
    "<strong>" + x + "</strong>"
  }

  // The global lazy replacement of `**(.*?)**` by `<strong>$1</strong>`: where
  // a match starts, the shortest enclosed text is wrapped and the search goes
  // on after the closing `**`; every other character is copied. A match never
  // looks behind its start, so the search can go on over the rest alone.
  function Bold(s: string): (r: string)
    ensures |r| >= |s|
    ensures r == [] <==> s == []
    decreases |s|
  {
    if s == [] then ""
    else if IsPairAt(s, 0) && CloseIn(s[2..]).Some? then
      var k := CloseIn(s[2..]).value;
      assert 2 + k + 2 <= |s| by { assert IsPairAt(s[2..], k); }
      Strong(s[2..2 + k]) + Bold(s[k + 4..])
    else [s[0]] + Bold(s[1..])
  }

  /** Text without a `**` pair is shown unchanged. */
  lemma {:induction false} NoPairUnchanged(s: string)
    requires forall t :: 0 <= t < |s| ==> !IsPairAt(s, t)
    ensures Bold(s) == s
    decreases |s|
  {
    if s != [] {
      forall t | 0 <= t < |s| - 1
        ensures !IsPairAt(s[1..], t)
      {
        assert !IsPairAt(s, t + 1);
      }
      NoPairUnchanged(s[1..]);
    }
  }

  /** Neither a `*` nor a line terminator occurs in `s`. */
  predicate Plainish(s: string) {
    forall t :: 0 <= t < |s| ==> s[t] != '*' && !IsLineTerminator(s[t])
  }

  /** A first character other than `*` is copied as it is. */
  lemma BoldPlainHead(s: string)
    requires s != [] && s[0] != '*'
    ensures Bold(s) == [s[0]] + Bold(s[1..])
  {
    assert !IsPairAt(s, 0);
  }

  /** A prefix without `*` is copied unchanged. */
  lemma {:induction false} StarlessPrefixCopied(a: string, t: string)
    requires forall k :: 0 <= k < |a| ==> a[k] != '*'
    ensures Bold(a + t) == a + Bold(t)
    decreases |a|
  {
    if a != [] {
      var s := a + t;
      assert s[0] == a[0] && s[1..] == a[1..] + t;
      BoldPlainHead(s);
      StarlessPrefixCopied(a[1..], t);
      var x, y := a[1..], Bold(t);
      assert [a[0]] + (x + y) == ([a[0]] + x) + y;
      assert [a[0]] + x == a;
    } else {
      assert a + t == t && a + Bold(t) == Bold(t);
    }
  }

  /** The closing `**` right after a plain run is found. */
  lemma {:induction false} CloseAfterPlain(x: string, b: string)
    requires Plainish(x)
    ensures CloseIn(x + "**" + b) == Some(|x|)
    decreases |x|
  {
    var u := x + "**" + b;
    if x == [] {
      assert u == "**" + b;
    } else {
      assert u[0] == x[0];
      assert u[1..] == x[1..] + "**" + b;
      CloseAfterPlain(x[1..], b);
    }
  }

  /** A `**` pair around plain text is wrapped, and the rewrite carries on
      after the closing `**`. */
  lemma BoldAtPair(x: string, b: string)
    requires Plainish(x)
    ensures Bold("**" + x + "**" + b) == Strong(x) + Bold(b)
  {
    var u := x + "**" + b;
    var t := "**" + u;
    assert "**" + x + "**" + b == t;
    assert t[2..] == u;
    CloseAfterPlain(x, b);
    assert IsPairAt(t, 0);
    assert t[2..2 + |x|] == x;
    assert t[|x| + 4..] == b;
  }

  /** Bold text after a prefix without `*`: the prefix is copied, the
      enclosed plain text is wrapped, and the rewrite carries on after the
      closing `**`. */
  lemma BoldWraps(a: string, x: string, b: string)
    requires forall k :: 0 <= k < |a| ==> a[k] != '*'
    requires Plainish(x)
    ensures Bold(a + "**" + x + "**" + b) == a + Strong(x) + Bold(b)
  {
    var t := "**" + x + "**" + b;
    assert a + "**" + x + "**" + b == a + t;
    StarlessPrefixCopied(a, t);
    BoldAtPair(x, b);
    assert a + (Strong(x) + Bold(b)) == a + Strong(x) + Bold(b);
  }

  /** A span that ends the message. */
  lemma BoldWrapsAtEnd(a: string, y: string)
    requires forall k :: 0 <= k < |a| ==> a[k] != '*'
    requires Plainish(y)
    ensures Bold(a + "**" + y + "**") == a + Strong(y)
  {
    var e: string := [];
    assert a + "**" + y + "**" + e == a + "**" + y + "**";
    BoldWraps(a, y, e);
    assert a + Strong(y) + Bold(e) == a + Strong(y);
  }

  /** The enclosed text is the shortest one: two spans on a line become two
      `<strong>` elements, not one running from the first `**` to the last. */
  lemma ShortestSpans(x: string, m: string, y: string)
    requires Plainish(x) && Plainish(y)
    requires forall k :: 0 <= k < |m| ==> m[k] != '*'
    ensures Bold("**" + x + "**" + m + "**" + y + "**") == Strong(x) + m + Strong(y)
  {
    var rest := m + "**" + y + "**";
    var whole := "**" + x + "**" + m + "**" + y + "**";
    var alt := "**" + x + "**" + rest;
    assert whole == alt;
    BoldWrapsAtEnd(m, y);
    BoldAtPair(x, rest);
    assert Bold(alt) == Strong(x) + (m + Strong(y));
    Regroup(Strong(x), m, Strong(y));
  }

  lemma Regroup(p: string, q: string, r: string)
    ensures p + (q + r) == p + q + r
  {
  }

  /** A `**` that is never closed stays as it is. */
  lemma UnclosedPairKept(x: string)
    requires Plainish(x)
    ensures Bold("**" + x) == "**" + x
  {
    var s := "**" + x;
    assert CloseIn(s[2..]).None? by {
      assert s[2..] == x;
    }
    assert Bold(s) == [s[0]] + Bold(s[1..]);
    forall t | 0 <= t < |s[1..]|
      ensures !IsPairAt(s[1..], t)
    {
      if t > 0 { assert s[1..][t] == x[t - 1]; }
      else if |x| > 0 { assert s[1..][1] == x[0]; }
    }
    NoPairUnchanged(s[1..]);
  }
}

=== FILE: navbar.dfy ===
/** The top navigation bar: which of the five links is highlighted for the
    current path, and the mobile menu's open/closed state. */
module Navbar {
  import opened Base

  datatype NavLink = NavLink(name: string, path: string)

  const NavLinks: seq<NavLink> := [
    NavLink("Home", "/"),
    NavLink("Dashboard", "/dashboard"),
    NavLink("Claims", "/claims"),
    NavLink("DataUpload", "/dataupload"),
    NavLink("AssetMap", "/assetmap")
  ]

  /** `isLinkActive`: the root link only on the root path; any other link on
      its own path and on every path below it. */
  function IsLinkActive(linkPath: string, pathname: string): (r: bool)
    ensures linkPath == "/" ==> (r <==> pathname == "/")
    ensures linkPath != "/" ==>
              (r <==> StartsWith(pathname, linkPath) && (|pathname| == |linkPath| || pathname[|linkPath|] == '/'))
  {
    if linkPath == "/" then pathname == "/"
    else pathname == linkPath || StartsWith(pathname, linkPath + "/")
  }

  /** A link is active on its own path and on every path below it, but not
      on a longer path that merely starts with the same letters. */
  lemma ActiveBelowOnly(linkPath: string, rest: string, c: char)
    requires linkPath != "/" && c != '/'
    ensures IsLinkActive(linkPath, linkPath)
    ensures IsLinkActive(linkPath, linkPath + "/" + rest)
    ensures !IsLinkActive(linkPath, linkPath + [c] + rest)
  {
    var below := linkPath + "/" + rest;
    assert below[..|linkPath + "/"|] == linkPath + "/";
    assert (linkPath + [c] + rest)[|linkPath|] == c;
    assert (linkPath + "/")[|linkPath|] == '/';
  }

  /** An active link other than the root is a prefix of the path. */
  lemma ActiveIsPrefix(linkPath: string, pathname: string)
    requires linkPath != "/" && IsLinkActive(linkPath, pathname)
    ensures StartsWith(pathname, linkPath)
  {
    if pathname != linkPath {
      assert pathname[..|linkPath|] == (linkPath + "/")[..|linkPath|];
    }
  }

  /** Two non-root links that differ at some position shared by both are
      never active together. */
  lemma NotBothActive(a: string, b: string, k: nat, pathname: string)
    requires a != "/" && b != "/"
    requires k < |a| && k < |b| && a[k] != b[k]
    ensures !(IsLinkActive(a, pathname) && IsLinkActive(b, pathname))
  {
    if IsLinkActive(a, pathname) && IsLinkActive(b, pathname) {
      ActiveIsPrefix(a, pathname);
      ActiveIsPrefix(b, pathname);
    }
  }

  /** The indices of the links active on a path. */
  function ActiveLinks(pathname: string): (r: set<nat>)
    ensures forall i: nat :: i in r <==> (i < |NavLinks| && IsLinkActive(NavLinks[i].path, pathname))
  {
    set i: nat | i < |NavLinks| && IsLinkActive(NavLinks[i].path, pathname)
  }

  /** Two different links of the bar are never active together. */
  lemma LinksExclusive(pathname: string, i: nat, j: nat)
    requires i < j < |NavLinks|
    ensures !(IsLinkActive(NavLinks[i].path, pathname) && IsLinkActive(NavLinks[j].path, pathname))
  {
    var a, b := NavLinks[i].path, NavLinks[j].path;
    if i == 0 {
      assert |b| > 1;
    } else if i == 1 && j == 3 {
      NotBothActive(a, b, 3, pathname);
    } else {
      NotBothActive(a, b, 1, pathname);
    }
  }

  /** Whatever the path, at most one of the five links is highlighted. */
  lemma AtMostOneActive(pathname: string)
    ensures |ActiveLinks(pathname)| <= 1
  {
    var r := ActiveLinks(pathname);
    if r != {} {
      var i :| i in r;
      forall j | j in r ensures j == i {
        if j < i { LinksExclusive(pathname, j, i); }
        if i < j { LinksExclusive(pathname, i, j); }
      }
      assert r == {i};
    }
  }

  // ---------------------------------------------------------------------------
  // The mobile menu

  datatype Bar = Bar(pathname: string, menuOpen: bool)

  /** A change of path closes the mobile menu; arriving on the same path
      changes nothing. */
  function Navigate(b: Bar, pathname: string): (r: Bar)
    ensures r.pathname == pathname
    ensures pathname != b.pathname ==> !r.menuOpen
    ensures pathname == b.pathname ==> r == b
  {
    if pathname == b.pathname then b else Bar(pathname, false)
  }

  /** The menu button flips the menu. */
  function PressMenuButton(b: Bar): (r: Bar)
    ensures r.pathname == b.pathname && r.menuOpen == !b.menuOpen
  {
    b.(menuOpen := !b.menuOpen)
  }

  /** A link in the mobile menu closes the menu and goes to the link's path. */
  function FollowMobileLink(b: Bar, link: NavLink): (r: Bar)
    ensures r.pathname == link.path && !r.menuOpen
  {
    Navigate(b.(menuOpen := false), link.path)
  }

  /** Pressing the button twice restores the menu; after any navigation the
      menu is closed. */
  lemma MenuTransitions(b: Bar, pathname: string, link: NavLink)
    ensures PressMenuButton(PressMenuButton(b)) == b
    ensures !b.menuOpen ==> !Navigate(b, pathname).menuOpen
    ensures FollowMobileLink(b, link).pathname == link.path && !FollowMobileLink(b, link).menuOpen
  {
  }
}

=== FILE: signup.dfy ===
/** The sign-up form's submit handler: the only check it makes is that two
    typed passwords agree. */
module Signup {
  import opened Base

  datatype Form = Form(name: string, email: string, password: string, confirm: string, error: string)

  const Mismatch := "Passwords do not match."

  const AfterSignup := "/dashboard"

  /** What a submission does: the form afterwards, and the route it goes to,
      if any. */
  datatype Submission = Submission(form: Form, navigateTo: Option<string>)

  /** `handleSubmit`: two non-empty passwords that differ set the error and
      stay on the page; anything else goes to the dashboard. */
  function Submit(f: Form): (r: Submission)
    ensures r.navigateTo.None? <==> f.password != "" && f.confirm != "" && f.password != f.confirm
    ensures r.navigateTo.None? ==> r.form == f.(error := Mismatch)
    ensures r.navigateTo.Some? ==> r.navigateTo.value == AfterSignup && r.form == f
  {
    if f.password != "" && f.confirm != "" && f.password != f.confirm then
      Submission(f.(error := Mismatch), None)
    else Submission(f, Some(AfterSignup))
  }

  /** Leaving either password empty is never reported: the form goes through. */
  lemma EmptyPasswordPasses(f: Form)
    requires f.password == "" || f.confirm == ""
    ensures Submit(f).navigateTo == Some(AfterSignup)
    ensures Submit(f).form.error == f.error
  {
  }

  /** The name and the e-mail address play no part in the outcome. */
  lemma NameAndEmailIgnored(f: Form, name: string, email: string)
    ensures Submit(f.(name := name, email := email)).navigateTo == Submit(f).navigateTo
    ensures Submit(f.(name := name, email := email)).form.error == Submit(f).form.error
  {
  }

  /** The error is shown exactly when the submission is refused. */
  lemma ErrorIffRefused(f: Form)
    requires f.error == ""
    ensures Submit(f).form.error == Mismatch <==> Submit(f).navigateTo.None?
  {
  }
}
